=== FILE: README.md ===
# sentrykit guard engine — a Dafny model

sentrykit guards the runs of LLM agents. A run is a goal, its constraints,
the chat messages, retrieved context chunks, the tool calls, and an output
with factual claims. The guard engine passes a run through six checkers:

- the tool firewall;
- context poisoning;
- jailbreak phrases;
- secret leaks;
- goal drift;
- hallucinated claims.

The engine then scores the findings, decides from the policy's `block_on`
keys whether to block, and renders an HTML report. A demo web application
wraps the engine. Its server builds a run and a policy from a catalogue of
scenarios, evaluates them and stores the report. Its browser client shows
the verdict. The examples share a small goal-file loader.

This project models that core as pure Dafny functions over immutable
datatypes. Scores are kept in exact integer tenths: low 2, medium 5, high 10.

Everything the code delegates to a library or the outside world is a
parameter, given as a record of total functions:

- **`Engine.Env`**: the secret finders, the leaks checker, and the report
  template.
- **`Poisoning.UrlTools`**: URL splitting, IDNA encoding, and `str()` of an
  argument.
- **`Hallucination.ClaimTools`**: the fetcher, the HTML tokenizer's event
  stream, and regular-expression search.
- **`Drift.DriftTools`**: the pay, season and company-size regular
  expressions.
- **Demo layer**: the report id and the stored reports map, and in the
  client the fetch outcome and `JSON.parse`.

| module | file | models |
|---|---|---|
| Wrappers, Text, Values, Filters, StringOrder | wrappers.dfy, text.dfy, values.dfy, filters.dfy, ordering.dfy | Option/Result, Python string methods, JSON-like values, counting filters, code-point order of strings |
| Models | models.dfy | the dataclasses of `sentrykit/models.py` |
| Policies | policy.dfy | `Policy`, `to_dict`, `from_dict`, `copy` |
| Redact, Urls | redact.dfy, urls.dfy | secret masking, `domain_of` |
| ToolFirewall, Jailbreak, Poisoning, Drift, Hallucination | one file each | the checkers |
| Extract | extract.dfy | the CSS/XPath/regex extraction used to verify claims |
| HtmlText, HtmlReport | html.dfy, report.dfy | `html.escape` and the report renderer |
| Engine | engine.dfy | `GuardEngine` |
| AutoClaims, Loader | autoclaims.dfy, loader.dfy | claim generation, goal-file loading |
| Scenarios, Server, Client | scenarios.dfy, server.dfy, client.dfy | the demo's payload builder, HTTP endpoints and browser script |

## Model

| member | source | states |
|---|---|---|
| Models.ParseKind | sentrykit/models.py:10-13 | an extraction kind is one of the four named kinds exactly when its string is one of them; any other string is kept verbatim |
| Models.ParseKindName | sentrykit/models.py:10-13 | reading back the name of a kind yields the same kind |
| Models.NewExtraction | sentrykit/models.py:10-13 | `must_include` defaults to absent |
| Models.NewRunOutput | sentrykit/models.py:36-38 | claims default to the empty list |
| Models.NewRunInput | sentrykit/models.py:42-48 | output defaults to absent; the other fields are the arguments |
| Models.NewFinding | sentrykit/models.py:52-56 | evidence defaults to the empty dictionary |
| Models.NewVerdict | sentrykit/models.py:70-75 | the report defaults to absent |
| Policies.Default | sentrykit/policy.py:13-19 | the field defaults: empty allow-lists and block set, claims required, metro treated as minor, no thresholds |
| Policies.ToDict | sentrykit/policy.py:21-32 | every key is present; each set becomes a sorted list with exactly the set's members |
| Policies.FromDict | sentrykit/policy.py:35-46 | an absent key takes the field default; a present list becomes the set of its items and a present flag or threshold is taken as it is |
| Policies.FromEmptyDict | sentrykit/policy.py:38-46 | an empty dictionary yields the default policy |
| Policies.RoundTrip | sentrykit/policy.py:21-46 | `from_dict(to_dict(p))` is `p` |
| Policies.Copy | sentrykit/policy.py:48-51 | copying through the dictionary form loses nothing: the copy equals the original |
| Redact.Mask | sentrykit/utils/redact.py:16-19 | length is kept; a value of at most 8 characters is all stars; a longer one keeps its last four characters and stars the rest |
| Redact.RedactSecrets | sentrykit/utils/redact.py:22-32 | the text keeps its length, and every character either stays as it was or becomes a star |
| Redact.RedactNoMatch | sentrykit/utils/redact.py:22-32 | text in which no pattern finds a secret is returned unchanged |
| Redact.MaskStarred | sentrykit/utils/redact.py:16-19 | a mask shows a character only where the value has that same character; every other position is a star |
| Redact.ReplaceByMask | sentrykit/utils/redact.py:31 | replacing every occurrence of a secret by its mask keeps the length and only turns characters into stars |
| Urls.HostOf | sentrykit/utils/urls.py:11-21 | as written: `file` URLs give "file", an empty location gives ""; otherwise the host is lower case without ':', and a location without '@' or ':' is just lower-cased |
| Urls.HostKeepsSecondAt | sentrykit/utils/urls.py:18-19 | as written, the location `a@b@c` yields the host `b@c` |
| Urls.HostIn | sentrykit/utils/urls.py:17-21 | the host taken from a location is lower case with no '@' or ':'; a plain location is just lower-cased |
| Urls.Host | sentrykit/utils/urls.py:11-21 | corrected host: as `HostOf`, but never containing '@' |
| Urls.HostAgrees | sentrykit/utils/urls.py:18-19 | with at most one '@' in the location, the as-written and corrected hosts agree |
| Urls.DomainOf | sentrykit/utils/urls.py:8-22 | corrected: `file` URLs give "file", a URL with no location gives "", and any other non-empty host is handed to IDNA; a result other than "" is the IDNA encoding of the corrected host |
| Urls.DomainOfAsWritten | sentrykit/utils/urls.py:8-22 | as written: `file` URLs give "file", an empty first-'@' host gives "", and any other host goes through IDNA |
| Urls.DomainOfAgrees | sentrykit/utils/urls.py:18-19 | with at most one '@' in the location, the as-written and corrected `domain_of` agree |
| Urls.DomainOfKeepsSecondAt | sentrykit/utils/urls.py:18-19 | for `http://a@b@c/` IDNA receives `b@c` as written, and `c` when corrected |
| Urls.DomainOfUrl | sentrykit/utils/urls.py:8-22 | a URL that fails to parse is that error; `file` URLs give "file"; otherwise the IDNA encoding of the corrected host |
| ToolFirewall.Run | sentrykit/checkers/tool_firewall.py:11-26 | no findings without an allow-list; otherwise one high `tool_firewall` finding per call outside the list, naming the tool; none exactly when every call is allowed |
| ToolFirewall.RunInCallOrder | sentrykit/checkers/tool_firewall.py:16-25 | the finding for a denied call sits after those for the earlier denied calls |
| Jailbreak.Contents | sentrykit/checkers/jailbreak.py:19 | the scanned message contents are the messages' second components, in order |
| Jailbreak.Scan | sentrykit/checkers/jailbreak.py:23-32 | a phrase gives a high `jailbreak` finding exactly when it occurs in the text |
| Jailbreak.Run | sentrykit/checkers/jailbreak.py:17-33 | at most four findings; each built-in phrase is reported exactly when it occurs in the lower-cased joined messages |
| Jailbreak.RunInPhraseOrder | sentrykit/checkers/jailbreak.py:23-32 | findings appear in the order of the phrase list |
| Jailbreak.RunIgnoresContextRolesAndTools | sentrykit/checkers/jailbreak.py:19-21 | only message contents matter: contexts, roles and tool calls do not change the result |
| Poisoning.PhraseSet | sentrykit/checkers/poisoning.py:21 | the phrases are lower case; given and non-empty override phrases replace the defaults, so the set holds exactly the lower-cased override phrases, and otherwise exactly the lower-cased defaults |
| Poisoning.ChunkPhrase | sentrykit/checkers/poisoning.py:25-36 | a reported phrase is in the set and occurs in the lower-cased chunk; nothing is reported exactly when no phrase occurs |
| Poisoning.PhraseFindings | sentrykit/checkers/poisoning.py:24-36 | one high `context_poisoning` finding per flagged chunk, carrying a phrase that occurs in that chunk |
| Poisoning.PhraseFindingAt | sentrykit/checkers/poisoning.py:24-36 | a flagged chunk's finding records that chunk's source, at the position given by the earlier flagged chunks |
| Poisoning.DomainFindings | sentrykit/checkers/poisoning.py:38-50 | each finding is a medium `context_poisoning` finding about a call whose domain is off the allow-list; there are exactly as many as such calls; an empty allow-list gives none; an error exactly when some URL fails to parse or encode |
| Poisoning.DomainFindingsExact | sentrykit/checkers/poisoning.py:38-50 | when the check succeeds its findings are exactly those of the off-policy calls, one each, in call order |
| Poisoning.DomainFindingsOrder | sentrykit/checkers/poisoning.py:40-50 | each off-policy call's finding names that call and its domain, after the findings of the earlier off-policy calls |
| Poisoning.Allowed | sentrykit/checkers/poisoning.py:39 | the allowed domains are exactly the policy's domains lower-cased |
| Poisoning.Run | sentrykit/checkers/poisoning.py:20-51 | phrase findings come first and the findings after them are exactly the domain check's; without a policy only phrases are checked; an error exactly when the domain check fails |
| Drift.ExtractLocations | sentrykit/checkers/drift.py:30-36 | the canonical locations whose keywords occur in the lower-cased text, and no others |
| Drift.SplitObserved | sentrykit/checkers/drift.py:70-82 | undesired observed locations are split into major and minor ones, by the metro rule |
| Drift.ClassifyLocation | sentrykit/checkers/drift.py:61-88 | no label when either set is empty or every observed location is desired; otherwise the offending locations are observed and undesired; major unless every one is minor |
| Drift.NoMetroMeansMajor | sentrykit/checkers/drift.py:73-82 | without the metro rule any location drift is major |
| Drift.Timeframes | sentrykit/checkers/drift.py:39-40 | every season/year match appears as "season year" lower-cased, and nothing else is in the set |
| Drift.ExtractPay | sentrykit/checkers/drift.py:43-51 | no match gives no pay; a match gives the integer its digits read as once commas are removed, and no pay when they do not read as one |
| Drift.PayWithComma | sentrykit/checkers/drift.py:47-49 | "4,000" reads as 4000 |
| Drift.OrElse | sentrykit/checkers/drift.py:146 | `a or b` on optional integers: zero counts as missing |
| Drift.LocationFinding | sentrykit/checkers/drift.py:112-128 | a `goal_drift` finding exactly when the location is classified; medium for minor and high for major drift |
| Drift.TimeframeFinding | sentrykit/checkers/drift.py:130-144 | a high finding exactly when both timeframe sets are non-empty and disjoint |
| Drift.PayFinding | sentrykit/checkers/drift.py:146-160 | a high finding exactly when the observed pay is below the minimum, with the amounts in its text |
| Drift.CompanySizeFinding | sentrykit/checkers/drift.py:162-176 | a high finding exactly when the company is smaller than the minimum |
| Drift.Run | sentrykit/checkers/drift.py:95-178 | at most four findings, all `goal_drift` of medium or high severity |
| Drift.PayBelowThreshold | tests/test_checkers_drift.py:33-36 | a $4,000 offer against a $5,000 floor is reported as "Pay $4000 below threshold $5000" |
| Hallucination.Target | sentrykit/checkers/hallucination.py:28 | the text looked for is `must_include` when non-empty, else the pattern |
| Hallucination.ApplyExtraction | sentrykit/checkers/hallucination.py:24-41 | an unknown kind is a `ParseError` naming it; `contains` is a case-insensitive substring test of must-include or pattern; a regex that is not found is the "not found in corpus" error, one that `re.compile` rejects the "Invalid regular expression" error, and any other compile exception escapes unchanged; a match lacking the must-include snippet is the "missing required snippet" error; CSS and XPath pass the extractor's error on as a `ParseError`, or test the extracted text |
| Hallucination.UrlErrors | sentrykit/checkers/hallucination.py:50-73 | a failed fetch gives `fetch_error:` and its message; a `ParseError` gives `parse_error:` and its message; any other exception gives `unexpected_error:` and its message; a fetched document the extraction decides on adds nothing |
| Hallucination.CrashedPatternIsUnexpected | sentrykit/checkers/hallucination.py:67-73 | a regex whose compilation raises something other than `re.error` is recorded as `unexpected_error:`, not `parse_error:` |
| Hallucination.VerifyUrls | sentrykit/checkers/hallucination.py:49-74 | verified exactly when some URL supports the claim; then there are no errors; at most one error per URL |
| Hallucination.VerifyClaim | sentrykit/checkers/hallucination.py:44-74 | a claim without URLs fails with `no_evidence_urls`; otherwise as `VerifyUrls` |
| Hallucination.VerifyUrlsAppend | sentrykit/checkers/hallucination.py:49-74 | checking two unsupporting URL lists one after the other concatenates their errors |
| Hallucination.VerifiedIgnoresLaterUrls | sentrykit/checkers/hallucination.py:58-59 | once a URL supports the claim, later URLs are not consulted |
| Hallucination.Unsupported | sentrykit/checkers/hallucination.py:89-99 | a high `hallucination` finding whose details are "Claim lacks verifiable evidence: " plus the redacted statement, with evidence entries for the redacted statement, the claim's URLs and the redacted first three errors |
| Hallucination.Run | sentrykit/checkers/hallucination.py:77-101 | no output gives no findings; otherwise exactly one finding per unverified claim and none for verified ones |
| Hallucination.RunReportsEachUnverified | sentrykit/checkers/hallucination.py:86-99 | each unverified claim's finding is at the position given by the earlier unverified claims |
| Extract.AttrMap | sentrykit/verify/extract.py:22 | the attribute map has exactly the tag's attribute names, and the last attribute maps to its value, "" when it has none |
| Extract.AttrMapLast | sentrykit/verify/extract.py:22 | every name maps to the value of the last attribute carrying it |
| Extract.ClassSet | sentrykit/verify/extract.py:72 | the classes are exactly the lower-cased whitespace-separated words of the attribute |
| Extract.MatchIgnoresTagCase | sentrykit/verify/extract.py:66-67 | element matching does not depend on the case of the tag name |
| Extract.CssTokens | sentrykit/verify/extract.py:50 | tokens are non-empty word runs, optionally prefixed by '#' or '.'; none exactly when the selector has no word character |
| Extract.AbsorbAll | sentrykit/verify/extract.py:54-62 | a tag, once set, stays; a tag is set exactly when one was or some token is bare; every '.' token is a class; without '#' tokens the id is unchanged |
| Extract.AbsorbAllTag | sentrykit/verify/extract.py:54-62 | with no tag yet, the first bare token becomes the tag |
| Extract.AbsorbAllClasses | sentrykit/verify/extract.py:54-62 | the classes added are exactly the '.' tokens and the bare tokens after the tag, lower-cased |
| Extract.AbsorbAllId | sentrykit/verify/extract.py:54-62 | the last '#' token sets the id |
| Extract.CssSelector | sentrykit/verify/extract.py:49-64 | a selector without tokens is a lower-cased tag name; otherwise the first bare token is the tag and every '.' token is a class |
| Extract.CssSelectorTag | sentrykit/verify/extract.py:49-64 | the compiled tag is the first bare token, and there is none when the tokens are all prefixed |
| Extract.CssSelectorClasses | sentrykit/verify/extract.py:49-64 | the compiled classes are exactly the lower-cased '.' tokens and bare tokens other than the tag |
| Extract.CssSelectorId | sentrykit/verify/extract.py:49-64 | the compiled id is the last '#' token, and there is none without one |
| Extract.CssTagAndClass | sentrykit/verify/extract.py:49-64 | "p.note" selects tag `p` with class `note` |
| Extract.ParseXPath | sentrykit/verify/extract.py:80-87 | an unsupported expression is the "Unsupported XPath expression" error; a parsed one has a non-empty lower-case tag |
| Extract.XPathRoundTrip | sentrykit/verify/extract.py:80-96 | printing `//tag[@attr='value']` and parsing it back recovers the lower-cased tag and the attribute test |
| Extract.NodeText | sentrykit/verify/extract.py:38 | an element's text is empty exactly when all its parts are blank; otherwise it has no outer whitespace |
| Extract.Start | sentrykit/verify/extract.py:21-24 | a start tag pushes one node, recording whether it matches |
| Extract.AddData | sentrykit/verify/extract.py:30-32 | text outside any element is dropped |
| Extract.End | sentrykit/verify/extract.py:34-42 | an end tag with an empty stack changes nothing; otherwise it pops one node and adds at most one match |
| Extract.Feed | sentrykit/verify/extract.py:99-102 | matches only grow, and every match has no outer whitespace |
| Extract.SelfClosingChangesNothing | sentrykit/verify/extract.py:26-28 | a self-closing tag opens and closes an empty element, leaving no trace |
| Extract.EndOnEmptyStack | sentrykit/verify/extract.py:35-36 | a stray end tag is ignored |
| Extract.MatchedElementText | sentrykit/verify/extract.py:34-42 | a matching element with text yields exactly that text, stripped |
| Extract.Collect | sentrykit/verify/extract.py:99-110 | no matches is the "No elements matched selector" error; a blank join is "Matched elements contained no text"; a missing must-include is "Required text missing from extraction result" exactly when it does not occur case-insensitively; a success is the stripped space-joined matches |
| Extract.NoTextErrorUnreachable | sentrykit/verify/extract.py:105-107 | "Matched elements contained no text" cannot occur, because every recorded match is non-empty |
| Extract.ExtractCss | sentrykit/verify/extract.py:113-116 | "No elements matched selector" exactly when no element matches; a result is the matched elements' texts joined by spaces; without must-include any match succeeds; never the no-text error |
| Extract.JoinOfMatches | sentrykit/verify/extract.py:99-110 | the recorded matches joined by spaces are non-empty and need no further stripping |
| Extract.ExtractCssOneElement | sentrykit/verify/extract.py:113-116 | a document whose only element matches and holds non-blank text extracts that text, stripped |
| Extract.ExtractXPath | sentrykit/verify/extract.py:119-122 | an unsupported expression is reported as such; otherwise "No elements matched selector" exactly when nothing matches, and a result is the matched texts joined by spaces |
| Extract.CollapseSpace | sentrykit/verify/extract.py:135 | runs of whitespace become single spaces; empty exactly when the input is; a leading space stays a leading space |
| Extract.VisibleTrimEnd | sentrykit/verify/extract.py:135 | stripping trailing whitespace keeps every other character, in order |
| Extract.CollapseSpaceVisible | sentrykit/verify/extract.py:135 | collapsing whitespace keeps every other character, in order |
| Extract.ExtractRegex | sentrykit/verify/extract.py:125-135 | a pattern `re.compile` rejects with `re.error` and a missed search give their `ParseError` messages, and any other compile exception passes through; a match always succeeds with the matched text's non-space characters in order, single-spaced and with no outer whitespace |
| HtmlText.Escape | sentrykit/report/html.py:68 | escaped text contains none of `<>"'` and no bare '&'; text without them is unchanged |
| HtmlText.UnescapeEscape | sentrykit/report/html.py:68 | unescaping escaped text gives back the original |
| HtmlText.EscapeAppend | sentrykit/report/html.py:68 | escaping distributes over concatenation |
| HtmlReport.Sanitize | sentrykit/report/html.py:19-26 | sanitising keeps the shape of the evidence: the same keys, list lengths and non-string values |
| HtmlReport.SerializeFinding | sentrykit/report/html.py:37-49 | kind and severity are copied; details keep their length; evidence keeps its shape |
| HtmlReport.SerializeVerdict | sentrykit/report/html.py:52-58 | blocked and score are copied; every character of the reason stays or becomes a star; one serialised finding per finding, with its kind, severity name and number of evidence entries |
| HtmlReport.TitleHigh | sentrykit/report/html.py:74 | the severity "high" is shown as "High" |
| HtmlReport.Stringify | sentrykit/report/html.py:29-34 | a string is itself, `None` is "None", an empty container is "", a one-item list is its item and a one-entry dict is `key: value` |
| HtmlReport.StringifyListAppend | sentrykit/report/html.py:32-33 | a list prints as its two halves joined by ", ", so nesting leaves no mark |
| HtmlReport.FormatTenths | sentrykit/report/html.py:100 | the printed score has a point before two decimals, the last of them 0 |
| HtmlReport.FormatTenthsRoundTrip | sentrykit/report/html.py:100 | the score printed with two decimals reads back as the same number of tenths |
| HtmlReport.Items | sentrykit/report/html.py:67-70 | the evidence list opens exactly four tags per entry, so no evidence text injects markup |
| HtmlReport.ItemText | sentrykit/report/html.py:68 | one evidence item is `<li><strong>key:</strong> value</li>` with the key and the stringified value escaped |
| HtmlReport.ItemsAppend | sentrykit/report/html.py:67-70 | the evidence items appear in the evidence's order |
| HtmlReport.Row | sentrykit/report/html.py:71-78 | a finding's row opens 12 tags plus four per evidence entry |
| HtmlReport.RowText | sentrykit/report/html.py:71-78 | a row is the escaped kind, the severity class and title, the escaped details and the evidence list, in their cells |
| HtmlReport.Rows | sentrykit/report/html.py:65-78 | the rows open exactly the tags of their findings' rows |
| HtmlReport.RowsAppend | sentrykit/report/html.py:65-82 | the rows appear in the findings' order |
| HtmlReport.RowsSingle | sentrykit/report/html.py:71-78 | one finding gives exactly its row |
| HtmlReport.TableText | sentrykit/report/html.py:79-84 | the table head is `<table><thead>` with the four column headers, then `<tbody>`; the tail closes body and table |
| HtmlReport.FindingsSection | sentrykit/report/html.py:61-85 | no findings gives the "No findings." paragraph; otherwise the table head, the findings' rows in order, and the table tail; the tags are only the table's own and the rows' |
| HtmlReport.StatusClass | sentrykit/report/html.py:93 | "blocked" exactly for a blocked verdict and "allowed" exactly for an allowed one; escaping leaves it unchanged |
| HtmlReport.StatusText | sentrykit/report/html.py:94 | "Blocked" exactly for a blocked verdict and "Allowed" exactly for an allowed one; escaping leaves it unchanged |
| HtmlReport.Fill | sentrykit/report/html.py:96-103 | a template without braces is returned unchanged |
| HtmlReport.FillStatusClass | sentrykit/report/html.py:98 | the status class placeholder is replaced by the status class |
| HtmlReport.FillStatusText | sentrykit/report/html.py:99 | the status text placeholder is replaced by the status text |
| HtmlReport.FillScore | sentrykit/report/html.py:100 | the score placeholder is replaced by the score printed with two decimals |
| HtmlReport.FillReason | sentrykit/report/html.py:101 | the reason placeholder is replaced by the escaped reason |
| HtmlReport.FillFindings | sentrykit/report/html.py:102 | the findings placeholder is replaced by the findings section |
| HtmlReport.Render | sentrykit/report/html.py:88-104 | the report data is the serialised verdict (flag, score, reason up to stars, findings) and the HTML is the template filled from that data |
| HtmlReport.RenderNoSecrets | sentrykit/report/html.py:52-58 | with patterns that find no secret, the report data keeps the verdict's reason and every finding's details |
| HtmlReport.RenderWithoutPlaceholders | sentrykit/report/html.py:96-103 | a template without placeholders is returned unchanged |
| Engine.Points | sentrykit/engine.py:16 | every severity weighs between 0.2 and 1.0 |
| Engine.Score | sentrykit/engine.py:57 | the score lies between 0.2 and 1.0 per finding |
| Engine.ScoreAppend | sentrykit/engine.py:57 | the score of concatenated findings is the sum of the scores |
| Engine.HighScoresTen | sentrykit/engine.py:57 | a run with a high finding scores at least 1.0 |
| Engine.RunChecker | sentrykit/engine.py:25-37 | a checker's findings pass through; a failing checker becomes one low `internal_error` finding with details "Checker <module> failed: <error>" and evidence `{"checker": module}` |
| Engine.Outcomes | sentrykit/engine.py:42-55 | exactly six checkers are run |
| Engine.Gather | sentrykit/engine.py:42-55 | every failing checker contributes at least one finding |
| Engine.GatherAppend | sentrykit/engine.py:42-55 | gathering two runs of checkers one after the other is gathering each and concatenating |
| Engine.GatherSix | sentrykit/engine.py:42-55 | six checkers' findings are the concatenation of each checker's, in order |
| Engine.GatherKeepsFailure | sentrykit/engine.py:25-37 | a failing checker's `internal_error` finding is among the gathered findings |
| Engine.GatherKeepsFindings | sentrykit/engine.py:42-55 | every finding of a successful checker is among the gathered findings |
| Engine.BlockKeys | sentrykit/engine.py:70-79 | a key is in the set exactly when it is the kind, `kind:any`, `kind:severity`, `kind:high` for a high finding, or `kind:classification` for a string classification |
| Engine.AnyTriggers | sentrykit/engine.py:69-82 | true exactly when some finding has a key in `block_on` |
| Engine.ShouldBlock | sentrykit/engine.py:66-82 | block exactly when `block_on` is non-empty and some finding triggers it |
| Engine.BlockOnKind | sentrykit/engine.py:70-80 | a finding whose kind is in `block_on` blocks |
| Engine.BlockMonotone | sentrykit/engine.py:69-82 | adding findings before or after never lifts a block |
| Engine.Reason | sentrykit/engine.py:60 | "No findings" when there are none; otherwise the findings' distinct kinds, sorted, joined by "; " |
| Engine.Judge | sentrykit/engine.py:57-64 | the verdict keeps the findings, scores them, blocks exactly as `ShouldBlock`, is an unblocked zero with no findings, and carries a report with the same data |
| Engine.Evaluate | sentrykit/engine.py:39-64 | the verdict's findings are those gathered from the six checkers in `evaluate`'s order; its score, reason and blocking decision are those of exactly these findings, and its report data is their serialised form |
| Engine.EvaluateFindings | sentrykit/engine.py:39-55 | the verdict's findings are the tool firewall's, then poisoning's (or its internal error), jailbreak's, the leaks checker's (or its internal error), drift's and hallucination's |
| Engine.LeaksFailureReported | tests/test_engine.py:37-47 | a crashing leaks checker surfaces as an `internal_error` finding instead of an exception |
| Engine.JailbreakFound | sentrykit/engine.py:44 | a jailbreak phrase in the messages reaches the verdict's findings |
| Engine.KindBlocks | tests/test_engine.py:31-34 | a high finding whose kind is in `block_on` blocks with a score of at least 1.0 |
| Engine.JailbreakBlocks | sentrykit/engine.py:39-64 | with `jailbreak` in `block_on`, a jailbreak phrase blocks the run |
| AutoClaims.Sentences | sentrykit/claim_extractors/autoclaims.py:13 | every sentence is non-empty, holds no period and occurs in the text; there is none exactly when every piece between periods is blank |
| AutoClaims.SentencesInOrder | sentrykit/claim_extractors/autoclaims.py:13 | every non-blank piece between periods becomes a sentence, stripped, after the sentences of the non-blank pieces before it |
| AutoClaims.SentencesFromPieces | sentrykit/claim_extractors/autoclaims.py:13 | every sentence is some non-blank piece between periods, stripped |
| AutoClaims.Evidence | sentrykit/claim_extractors/autoclaims.py:19 | the evidence list holds the URL only when it is given and non-empty |
| AutoClaims.ClaimOf | sentrykit/claim_extractors/autoclaims.py:17-21 | a `contains` claim whose pattern and must-include text are prefixes of the sentence, of the stated lengths |
| AutoClaims.ClaimsOf | sentrykit/claim_extractors/autoclaims.py:15 | at most three claims, one per leading sentence |
| AutoClaims.GenerateClaims | sentrykit/claim_extractors/autoclaims.py:10-23 | one claim per sentence up to three; none exactly when the output has no sentence |
| AutoClaims.ClaimHoldsOnSource | sentrykit/claim_extractors/autoclaims.py:20 | a generated claim's extraction accepts any document that contains the output |
| AutoClaims.ClaimVerifiedBySource | sentrykit/claim_extractors/autoclaims.py:19-20 | a generated claim is verified when its URL serves a page containing the output |
| Loader.Classify | examples/common/loader.py:14-20 | blank and '#' lines are skipped, `goal:` lines give the goal, '-' lines give a constraint, with the stated texts |
| Loader.Scan | examples/common/loader.py:13-20 | there is no goal exactly when no line is a goal line; otherwise the goal is that of the last goal line |
| Loader.ScanItems | examples/common/loader.py:19-20 | the constraints are the item lines, in order |
| Loader.LoadGoal | examples/common/loader.py:9-23 | a file without a goal line is the "missing goal line" error; otherwise the last goal and every constraint |
| Loader.LaterGoalWins | examples/common/loader.py:17-18 | a later goal line overrides earlier ones |
| Scenarios.FindVariant | demo_app/scenarios.py:36-40 | the first variant with the key, or the "Unknown variant" error exactly when there is none |
| Scenarios.Merge | demo_app/scenarios.py:46-48 | an override key replaces the base value; every other key keeps the base's |
| Scenarios.BuildPolicy | demo_app/scenarios.py:43-57 | each of the seven fields comes from the overrides when they carry its key, else from the base, else from the defaults |
| Scenarios.NoOverrides | demo_app/scenarios.py:43-57 | without overrides the policy is the base policy |
| Scenarios.FullOverride | demo_app/scenarios.py:43-57 | overriding with a whole policy yields that policy |
| Scenarios.Message | demo_app/scenarios.py:63-66 | role defaults to "user" and content to "" |
| Scenarios.Chunk | demo_app/scenarios.py:67-70 | source defaults to "retriever" and text to "" |
| Scenarios.Call | demo_app/scenarios.py:71-74 | name defaults to "" and arguments to an empty dictionary |
| Scenarios.OutputOf | demo_app/scenarios.py:75 | a missing output reads as the empty output; a present one is used as it is |
| Scenarios.ClaimOf | demo_app/scenarios.py:77-86 | a claim missing `extraction`, `kind` or `pattern` raises a key error naming it; otherwise the fields are copied |
| Scenarios.Claims | demo_app/scenarios.py:76-87 | the first malformed claim's key error, or every claim converted |
| Scenarios.BuildRunInput | demo_app/scenarios.py:60-97 | the run carries the payload's goal, constraints, messages, contexts, tool calls and output text, with defaults for absent keys, and its claims are exactly the converted claim dicts, in order |
| Scenarios.MissingOutputIsEmpty | demo_app/scenarios.py:75-89 | a payload without output gets an empty output with no claims |
| Scenarios.BuildRunAndPolicy | demo_app/scenarios.py:100-105 | the run from the variant's payload, with the base policy overridden by the variant's |
| Scenarios.ScenarioIndex | demo_app/scenarios.py:269-290 | one summary per scenario, with its variants' keys, labels, descriptions and expectations |
| Scenarios.IndexedKeysResolve | demo_app/scenarios.py:269-290 | every variant key in the index resolves to that variant |
| Server.GetScenario | demo_app/main.py:37-41 | the first scenario with the id, or 404 "Unknown scenario" exactly when there is none |
| Server.FindingOf | demo_app/main.py:76-84 | a finding is sent with its kind, severity name, details and evidence |
| Server.Respond | demo_app/main.py:69-95 | the response mirrors the verdict and its findings, names the report URL and scenario, and the stored report is the verdict's HTML |
| Server.AnswerVariant | demo_app/main.py:65-95 | a malformed claim escapes as an uncaught key error; otherwise the response is that of the engine's verdict on the built run and policy |
| Server.Answer | demo_app/main.py:59-63 | an unknown variant is a 404 whose detail is the `repr` of the key error's message; a known one is answered as `AnswerVariant` |
| StrRepr.Repr | demo_app/main.py:63 | `str()` of a key error is the `repr` of its message: the escaped text between the quotes `repr` chooses |
| StrRepr.ReprRoundTrip | demo_app/main.py:63 | the text between the quotes reads back as the original message |
| StrRepr.ReprDoubleQuoted | demo_app/main.py:63 | a printable text with a `'`, no `"` and no backslash is wrapped in double quotes and otherwise kept |
| Server.UnknownVariantDetail | demo_app/main.py:59-63 | the 404 detail is the message in double quotes when the key and scenario id hold no `"` and nothing to escape, and starts with `'` once the key holds a `"` |
| Server.Evaluate | demo_app/main.py:56-95 | an unknown scenario is a 404; a response names the requested scenario and its report URL |
| Server.ReportName | demo_app/main.py:102 | the report name ends in ".html", added only when missing |
| Server.EndsWithHtml | demo_app/main.py:102 | a name ends with ".html" exactly when it is some name followed by ".html" |
| Server.ReportNameIdempotent | demo_app/main.py:102 | normalising a report name twice changes nothing more |
| Server.GetReport | demo_app/main.py:99-106 | the stored report under the normalised name, or 404 "Report not found" |
| Server.ReportUrlServesReport | demo_app/main.py:102-106 | the report URL in a response serves the stored report |
| Client.SetBusy | demo_app/static/app.js:26-37 | a busy button is disabled and shows the waiting label, saving its own; an idle one is enabled |
| Client.BusyThenIdle | demo_app/static/app.js:26-37 | a button made busy and then idle is enabled with its label restored |
| Client.ShowError | demo_app/static/app.js:65-75 | the error panel shows "Error" with the message and clears score, findings and link |
| Client.Band | demo_app/static/app.js:101-107 | HIGH above 0.5, MEDIUM above 0.2, otherwise LOW |
| Client.ScoreLine | demo_app/static/app.js:99-108 | the line starts "Risk Score: " and its number reads back as the score |
| Client.HighFindingShowsHigh | demo_app/static/app.js:101-102 | any high finding puts the score in the HIGH band |
| Client.MetaHtmlAsWritten | demo_app/static/app.js:148-150 | as written: a single evidence entry is inserted as its raw `key: JSON` line |
| Client.MetaHtmlInjects | demo_app/static/app.js:148-150 | as written, a '<' in an evidence string opens a tag, while the corrected version opens none |
| Client.MetaHtml | demo_app/static/app.js:148-150 | corrected: the only tags are the line breaks, and each line unescapes to the original evidence line |
| Client.MetaHtmlAsWrittenCons | demo_app/static/app.js:148-150 | as written, the block is the first entry's raw line, "<br>", then the block of the remaining entries |
| Client.MetaHtmlAgrees | demo_app/static/app.js:148-150 | on evidence whose lines need no escaping, the corrected block equals the block as written |
| Client.SeverityHeader | demo_app/static/app.js:137 | a finding's header is its kind and its upper-cased severity in parentheses |
| Client.Header | demo_app/static/app.js:137 | the header is the kind, " (", the upper-cased severity and ")" |
| Client.CardOf | demo_app/static/app.js:134-152 | a finding card shows the header and details, and has an evidence block exactly when there is evidence; the block is the escaped one of the corrected script |
| Client.ShowFindings | demo_app/static/app.js:122-156 | no findings shows the "no issues" note; otherwise one card per finding, in order |
| Client.ReportLink | demo_app/static/app.js:114-115 | the link opens `<a href="url" target="_blank">` with the report URL and ends with `</a>` |
| Client.ShowResults | demo_app/static/app.js:78-119 | the panel shows the title, the blocked or allowed badge, the reason, the score line, the findings and a report link only when there is a URL |
| Client.RunScenarioVariant | demo_app/static/app.js:40-62 | the button ends idle on every path; a network failure, an HTTP error or a bad body shows an error, and a good reply shows the results |
| Client.ButtonRecovers | demo_app/static/app.js:59-61 | whatever the request's outcome, the button is enabled again with its label |
| Client.BuildScenarioCard | demo_app/static/app.js:159-190 | one button per variant, carrying the scenario id, the variant key, label and description |
| Client.CatalogSource | demo_app/static/app.js:16 | the catalogue text is the data attribute, or "[]" when it is absent or empty |
| Client.Cards | demo_app/static/app.js:193-198 | one scenario card per catalogue entry, in order |
| Client.Init | demo_app/static/app.js:193-198 | a missing catalogue shows no cards; a malformed one is an error; otherwise one card per scenario |
| Client.ButtonsReachServer | demo_app/static/app.js:181-183 | every button built from the index names a scenario and variant that the server resolves |

## Left out

- Secret leaks checker: `sentrykit/checkers/leaks.py` is a parameter of the engine, not modelled; its effect on the verdict is only through its findings or its failure.
- Regular expressions: the secret patterns, the drift pay/season/company-size patterns and the extraction regexes are parameters. So are URL splitting, IDNA encoding and HTML tokenisation.
- Fetching: `sentrykit/verify/web.py` is not part of this model.
- Checker arguments: the checkers receive the fetched pages, tokenised documents and regex results as inputs.
- Framework adapters, the example demos and logging: they call the engine, they are not part of it.
- Client.MetaHtmlAsWritten, Client.MetaHtml, Client.CardOf: print an integer evidence value with all its digits. The browser first reads the response into a JavaScript double (app.js:54), so `JSON.stringify` there rounds integers above 2^53 (12345678901234567 shows as 12345678901234568) and prints values from 1e21 in exponent form. Double rounding is not modelled.
- Floating point: scores are integer tenths. The engine's 0.0 fallback for an unknown severity cannot occur, because severity is a three-valued type.
- Number formatting: `:.2f` and `toFixed(2)` are modelled exactly for tenths.
- Poisoning phrase order: the phrases are tried in code-point order of the lower-cased phrase set. Python's set iteration order is unspecified, so when one chunk holds several phrases the reported one may differ.
- Drift `min_pay_threshold` (drift.py:91-93): a one-line alias of `_extract_pay`, modelled inline as `ExtractPay` of the baseline text.
- The scenario catalogue's data: the model is stated for any catalogue.
- Serving the index page: `demo_app/main.py:45-53` renders a template and is not modelled beyond `ScenarioIndex`.
- Server side effects: report ids come from `uuid4`, and reports are written to disk. Both are parameters: a report id and a map from names to stored HTML.
- Browser side: the DOM, `fetch`, timers and concurrent clicks are not modelled.
- Client state: the panel and button are records, and a request's outcome is an input.
- Redact.MaskAll, Redact.RedactWith, Redact.RedactSecrets: state that redaction keeps the length and only turns characters into stars, not which spans become stars; that depends on the regex matches, which are parameters.
- Drift.Run: states the number and kind of findings; each aspect's condition is stated by its own finding function.
- Urls.DomainOf, Urls.DomainOfUrl, Poisoning.DomainFindings: use the corrected host, cut after the last '@', not the first-'@' cut of urls.py:18-19; the as-written reading is `Urls.DomainOfAsWritten`, and the two agree when the location holds at most one '@' (see Findings).
- Poisoning.ChunkPhrase: states that the reported phrase is one that occurs, not which one among several.
- HtmlText.Escape: covers only the five characters `html.escape` rewrites; its output is stated as inert, not character by character.
- HtmlReport.SerializeFinding, HtmlReport.SerializeVerdict: state that the reason's characters stay or become stars, but for details and nested evidence only that lengths and shapes are kept.
- HtmlReport.Fill: its lemmas cover templates holding one placeholder and no other brace, and `FillReason` a reason without a brace. `str.replace` is applied in turn, so a reason or findings section holding a later placeholder's text would have that text replaced too; this case is not stated.
- HtmlReport.Stringify: states the empty, single-item and appending cases. Evidence values hold no floating-point numbers, so `str()` of a float is not modelled.
- Client.ShowResults: shows the scenario title alone, because that is what the script writes into the title element.
- Client.CardOf, Client.ShowFindings, Client.ShowResults, Client.RunScenarioVariant: carry the corrected, escaped evidence block of `Client.MetaHtml`, not the raw `innerHTML` of app.js:148-150; the as-written block is `Client.MetaHtmlAsWritten`, and the two agree on evidence that needs no escaping (see Findings).
- Text.Lower, Text.Upper: map ASCII letters only. Python's `str.lower` and JavaScript's `toUpperCase` also map other letters (the Kelvin sign U+212A lowers to 'k'), so a phrase, keyword or severity spelt with such letters is matched or shown differently.
- StrRepr.Repr: printability is exact below U+0100; every character from U+0100 on is taken as printable, so `repr` escapes that Python writes for unprintable non-Latin-1 characters are not modelled.
- Scenarios.BuildRunInput, Scenarios.BuildPolicy: payload dictionaries are typed records. An absent key and an explicit `None` both read as absent, while Python turns `"goal": None` into "None"; `str()` is the identity because string fields hold strings; `bool()` is applied to booleans only, so truthiness of other values in `_build_policy` is not modelled.

## Findings

| source | as written | input that shows it | evidently intended | confidence | as-written member | corrected member |
|---|---|---|---|---|---|---|
| sentrykit/utils/urls.py:18-19 | the host is taken after the first '@' of the location | `http://a@b@c/` gives the host `b@c` | take the host after the last '@', as the URL library's own `hostname` does | medium, not executed | Urls.HostOf, Urls.HostKeepsSecondAt, Urls.DomainOfAsWritten, Urls.DomainOfKeepsSecondAt | Urls.Host, Urls.HostAgrees, Urls.DomainOf, Urls.DomainOfAgrees |
| demo_app/static/app.js:148-150 | evidence keys and values are inserted into `innerHTML` without escaping | an evidence value `<img src=x onerror=alert(1)>` opens a tag in the page | escape each evidence line and join the lines with `<br>` | high, not executed | Client.MetaHtmlAsWritten, Client.MetaHtmlInjects | Client.MetaHtml, Client.MetaHtmlAgrees |

=== FILE: autoclaims.dfy ===
/** Naive claim generation for demos (sentrykit/claim_extractors/autoclaims.py):
    the first three sentences of an output become "contains" claims, each
    backed by the one evidence URL given, if any. */
module AutoClaims {
  import opened Wrappers
  import opened Text
  import opened Filters
  import opened Models
  import Hallucination

  /** How many sentences become claims. */
  const MaxClaims: nat := 3
  /** Length of a claim's pattern, and of its required snippet. */
  const PatternLength: nat := 40
  const SnippetLength: nat := 20

  /** A '.'-separated piece that holds more than whitespace. */
  predicate Kept(piece: string) {
    Strip(piece) != []
  }

  /** The first `n` characters (`s[:n]`). */
  function Prefix(s: string, n: nat): (r: string)
    ensures r <= s
    ensures |r| == if |s| < n then |s| else n
  {
    if |s| <= n then s else s[..n]
  }

  /** Stripping adds no character. */
  lemma StripKeepsOut(s: string, c: char)
    requires c !in s
    ensures c !in Strip(s)
  {
    var t := TrimStart(s);
    var r := TrimEnd(t);
    assert Strip(s) == r;
    forall k | 0 <= k < |r|
      ensures r[k] != c
    {
      assert r[k] == t[k] == s[|s| - |t| + k];
    }
  }

  /** A stripped piece of `text` carries no '.' and occurs in `text`. */
  lemma SentenceOfPiece(text: string, piece: string)
    requires piece in Split(text, '.')
    ensures '.' !in Strip(piece)
    ensures IsSubstring(Strip(piece), text)
  {
    var pieces := Split(text, '.');
    var j :| 0 <= j < |pieces| && pieces[j] == piece;
    JoinSplit(text, '.');
    JoinHasPart(".", pieces, j);
    StripSubstring(piece);
    SubstringTransitive(Strip(piece), piece, text);
    StripKeepsOut(piece, '.');
  }

  /** Every kept piece of `text`, stripped, is a sentence of it. */
  lemma KeptSentences(text: string, kept: seq<string>)
    requires kept == Filter(Split(text, '.'), Kept)
    ensures forall i :: 0 <= i < |kept| ==> Strip(kept[i]) != [] && '.' !in Strip(kept[i]) && IsSubstring(Strip(kept[i]), text)
  {
    forall i | 0 <= i < |kept|
      ensures Strip(kept[i]) != [] && '.' !in Strip(kept[i]) && IsSubstring(Strip(kept[i]), text)
    {
      assert Kept(kept[i]) && kept[i] in Split(text, '.');
      SentenceOfPiece(text, kept[i]);
    }
  }

  /** Nothing is kept exactly when every piece is blank. */
  lemma NoneKept(pieces: seq<string>)
    ensures Filter(pieces, Kept) == [] <==> forall i :: 0 <= i < |pieces| ==> IsBlank(pieces[i])
  {
    forall i | 0 <= i < |pieces|
      ensures Kept(pieces[i]) <==> !IsBlank(pieces[i])
    {
      StripEmptyIffBlank(pieces[i]);
    }
    assert |Filter(pieces, Kept)| == Count(pieces, Kept);
  }

  /** Each piece stripped. */
  function StripEach(pieces: seq<string>): (r: seq<string>)
    ensures |r| == |pieces|
    ensures forall i :: 0 <= i < |r| ==> r[i] == Strip(pieces[i])
  {
    seq(|pieces|, i requires 0 <= i < |pieces| => Strip(pieces[i]))
  }

  /** The stripped, non-blank pieces of `text.split(".")`, in order. */
  function Sentences(text: string): (r: seq<string>)
    ensures forall i :: 0 <= i < |r| ==> r[i] != [] && '.' !in r[i] && IsSubstring(r[i], text)
    ensures r == [] <==> forall i :: 0 <= i < |Split(text, '.')| ==> IsBlank(Split(text, '.')[i])
  {
    var kept := Filter(Split(text, '.'), Kept);
    KeptSentences(text, kept);
    NoneKept(Split(text, '.'));
    StripEach(kept)
  }

  /** Every non-blank piece between periods becomes a sentence, and the
      sentences keep the pieces' order: the piece at `j` is the sentence after
      as many sentences as there are non-blank pieces before it. */
  lemma SentencesInOrder(text: string, j: int)
    requires 0 <= j < |Split(text, '.')| && !IsBlank(Split(text, '.')[j])
    ensures var pieces := Split(text, '.');
            Count(pieces[..j], Kept) < |Sentences(text)|
            && Sentences(text)[Count(pieces[..j], Kept)] == Strip(pieces[j])
  {
    var pieces := Split(text, '.');
    StripEmptyIffBlank(pieces[j]);
    FilterAt(pieces, Kept, j);
  }

  /** Every sentence is a non-blank piece between periods, stripped. */
  lemma SentencesFromPieces(text: string, i: int)
    requires 0 <= i < |Sentences(text)|
    ensures exists j :: 0 <= j < |Split(text, '.')| && !IsBlank(Split(text, '.')[j])
                        && Sentences(text)[i] == Strip(Split(text, '.')[j])
  {
    var pieces := Split(text, '.');
    var kept := Filter(pieces, Kept);
    assert kept[i] in pieces;
    var j :| 0 <= j < |pieces| && pieces[j] == kept[i];
    StripEmptyIffBlank(pieces[j]);
  }

  /** `[evidence_url] if evidence_url else []`. */
  function Evidence(url: Option<string>): (r: seq<string>)
    ensures |r| <= 1
    ensures r != [] <==> url.Some? && url.value != []
    ensures forall i :: 0 <= i < |r| ==> r[i] == url.value
  {
    if url.Some? && url.value != [] then [url.value] else []
  }

  /** The claim for one sentence. */
  function ClaimOf(sentence: string, url: Option<string>): (c: Claim)
    ensures c.statement == sentence && c.evidenceUrls == Evidence(url)
    ensures c.extraction.kind == Contains
    ensures c.extraction.pattern <= sentence
    ensures |c.extraction.pattern| == if |sentence| < PatternLength then |sentence| else PatternLength
    ensures c.extraction.mustInclude.Some? && c.extraction.mustInclude.value <= c.extraction.pattern
    ensures |c.extraction.mustInclude.value| == if |sentence| < SnippetLength then |sentence| else SnippetLength
  {
    var pattern := Prefix(sentence, PatternLength);
    var snippet := Prefix(sentence, SnippetLength);
    assert snippet <= pattern;
    Claim(sentence, Evidence(url), Extraction(Contains, pattern, Some(snippet)))
  }

  /** One claim for each of the first three sentences. */
  function ClaimsOf(sentences: seq<string>, url: Option<string>): (r: seq<Claim>)
    ensures |r| == if |sentences| < MaxClaims then |sentences| else MaxClaims
    ensures forall i :: 0 <= i < |r| ==> r[i] == ClaimOf(sentences[i], url)
  {
    var n := if |sentences| < MaxClaims then |sentences| else MaxClaims;
    seq(n, i requires 0 <= i < n => ClaimOf(sentences[i], url))
  }

  /** `generate_claims`: one claim per sentence, for the first three sentences. */
  function GenerateClaims(output: RunOutput, url: Option<string>): (r: seq<Claim>)
    ensures |r| <= MaxClaims
    ensures |r| == if |Sentences(output.text)| < MaxClaims then |Sentences(output.text)| else MaxClaims
    ensures forall i :: 0 <= i < |r| ==> r[i] == ClaimOf(Sentences(output.text)[i], url)
    ensures r == [] <==> Sentences(output.text) == []
  {
    ClaimsOf(Sentences(output.text), url)
  }

  /** Every generated claim quotes its own text: a document that contains the
      output text accepts the claim's extraction. */
  lemma ClaimHoldsOnSource(output: RunOutput, url: Option<string>, i: int, document: string, tools: Hallucination.ClaimTools)
    requires 0 <= i < |GenerateClaims(output, url)|
    requires IsSubstring(output.text, document)
    ensures Hallucination.ApplyExtraction(GenerateClaims(output, url)[i].extraction, document, tools) == Success(true)
  {
    var claim := GenerateClaims(output, url)[i];
    var sentence := Sentences(output.text)[i];
    var snippet := claim.extraction.mustInclude.value;
    assert snippet <= sentence;
    assert IsSubstring(snippet, sentence);
    SubstringTransitive(snippet, sentence, output.text);
    SubstringTransitive(snippet, output.text, document);
    LowerSubstring(snippet, document);
    assert Hallucination.Target(claim.extraction) == snippet;
  }

  /** Given a URL whose page contains the output text, every generated claim
      is verified. */
  lemma ClaimVerifiedBySource(output: RunOutput, url: string, i: int, tools: Hallucination.ClaimTools)
    requires 0 <= i < |GenerateClaims(output, Some(url))|
    requires url != [] && tools.fetch(url).Success?
    requires IsSubstring(output.text, tools.fetch(url).value)
    ensures Hallucination.VerifyClaim(GenerateClaims(output, Some(url))[i], tools).0
  {
    var claim := GenerateClaims(output, Some(url))[i];
    ClaimHoldsOnSource(output, Some(url), i, tools.fetch(url).value, tools);
    assert claim.evidenceUrls == [url];
    assert Hallucination.Supports(claim.evidenceUrls[0], claim.extraction, tools);
  }
}

=== FILE: client.dfy ===
/** The demo's browser client (demo_app/static/app.js), as functions from
    the state of the page to its next state: the variant buttons, the result
    panel, the finding cards and the scenario cards. The DOM is reduced to the
    text and markup the script writes; `fetch` is reduced to its outcome, and
    `JSON.parse` of the catalogue is a parameter. Scores are in tenths. */
module Client {
  import opened Wrappers
  import opened Text
  import opened Values
  import opened Models
  import opened Scenarios
  import Server
  import Engine
  import HtmlText
  import HtmlReport
  import Filters

  // -------------------------------------------------------------- buttons

  /** A variant button: its markup, the saved `data-original-text`, and
      whether it is disabled. */
  datatype Button = Button(html: string, savedText: Option<string>, disabled: bool)

  const BusyText: string := "\U{23F3} Testing..."

  /** `setButtonBusy`: busy saves the label, shows the busy text and disables;
      idle enables and restores a non-empty saved label. */
  function SetBusy(b: Button, busy: bool): (r: Button)
    ensures r.disabled == busy
    ensures busy ==> r.html == BusyText && r.savedText == Some(b.html)
    ensures !busy ==> r.savedText == b.savedText
    ensures !busy && (b.savedText.None? || b.savedText == Some([])) ==> r.html == b.html
  {
    if busy then Button(BusyText, Some(b.html), true)
    else if b.savedText.Some? && b.savedText.value != [] then Button(b.savedText.value, b.savedText, false)
    else Button(b.html, b.savedText, false)
  }

  /** Busy then idle gives the label back and re-enables the button; a button
      with an empty label keeps the busy text. */
  lemma BusyThenIdle(b: Button)
    ensures var r := SetBusy(SetBusy(b, true), false);
            !r.disabled && r.savedText == Some(b.html)
            && (b.html != [] ==> r.html == b.html)
            && (b.html == [] ==> r.html == BusyText)
  {
  }

  // ---------------------------------------------------------------- panel

  /** What the script writes into the result panel. */
  datatype Card =
    | Note(text: string)
    | FindingCard(header: string, details: string, meta: Option<string>)

  datatype Panel = Panel(
    placeholderHidden: bool,
    cardHidden: bool,
    title: string,
    statusClass: string,
    statusText: string,
    reason: string,
    score: string,
    findings: seq<Card>,
    reportHtml: string)

  const FailBadge: string := "sk-badge sk-badge--fail"
  const PassBadge: string := "sk-badge sk-badge--pass"
  const BlockedText: string := "\U{1F6AB} BLOCKED"
  const AllowedText: string := "\U{2713} ALLOWED"
  const NoIssues: string := "\U{2713} No security issues detected"

  /** `showError`: the card shows the message as an error, and nothing of an
      earlier result is left. */
  function ShowError(p: Panel, message: string): (r: Panel)
    ensures r.placeholderHidden && !r.cardHidden
    ensures r.title == "Error" && r.statusClass == FailBadge && r.statusText == "Error"
    ensures r.reason == message
    ensures r.score == [] && r.findings == [] && r.reportHtml == []
  {
    Panel(true, false, "Error", FailBadge, "Error", message, [], [], [])
  }

  /** The band of the score line: above 0.5 is high, above 0.2 medium. */
  function Band(tenths: nat): (r: string)
    ensures r == "HIGH" <==> tenths > 5
    ensures r == "MEDIUM" <==> 2 < tenths <= 5
    ensures r == "LOW" <==> tenths <= 2
  {
    if tenths > 5 then "HIGH" else if tenths > 2 then "MEDIUM" else "LOW"
  }

  /** `Risk Score: <score.toFixed(2)> (<band>)`. */
  function ScoreLine(tenths: nat): (r: string)
    ensures "Risk Score: " <= r
    ensures |r| == |"Risk Score: "| + |HtmlReport.FormatTenths(tenths)| + 3 + |Band(tenths)|
    ensures HtmlReport.ParseTenths(r[|"Risk Score: "|..|r| - |Band(tenths)| - 3]) == Some(tenths)
  {
    var number := HtmlReport.FormatTenths(tenths);
    var r := "Risk Score: " + number + " (" + Band(tenths) + ")";
    assert r[|"Risk Score: "|..|r| - |Band(tenths)| - 3] == number;
    HtmlReport.FormatTenthsRoundTrip(tenths);
    r
  }

  /** A run with a high finding shows the high band, whatever else it found. */
  lemma HighFindingShowsHigh(findings: seq<Finding>, i: int)
    requires 0 <= i < |findings| && findings[i].severity == High
    ensures Band(Engine.Score(findings)) == "HIGH"
  {
    Engine.ScoreAtLeast(findings, i);
  }

  /** One `key: <JSON of value>` line of a card's evidence block. */
  function MetaLine(e: Entry): string {
    e.key + ": " + Json(e.val)
  }

  /** The evidence block as written: the lines joined by `<br>` and assigned
      to `innerHTML` as they are. */
  function MetaHtmlAsWritten(evidence: seq<Entry>): (r: string)
    ensures |evidence| == 1 ==> r == MetaLine(evidence[0])
  {
    Join("<br>", seq(|evidence|, i requires 0 <= i < |evidence| => MetaLine(evidence[i])))
  }

  /** `JSON.stringify` writes '<' as it is and adds none of its own. */
  lemma JsonEscapeCharOpens(c: char)
    ensures HtmlReport.Opens(JsonEscapeChar(c)) == if c == '<' then 1 else 0
  {
    var e := JsonEscapeChar(c);
    if c == '<' {
      assert e == "<";
    } else {
      if c < ' ' && c != '\U{8}' && c != '\t' && c != '\n' && c != '\U{C}' && c != '\r' {
        assert forall k :: 0 <= k < 16 ==> HexDigits[k] != '<';
      }
      assert '<' !in e;
      HtmlReport.NoOpens(e);
    }
  }

  lemma {:induction false} JsonEscapeOpens(s: string)
    ensures HtmlReport.Opens(JsonEscape(s)) == HtmlReport.Opens(s)
    decreases |s|
  {
    if |s| > 0 {
      JsonEscapeOpens(s[1..]);
      JsonEscapeCharOpens(s[0]);
      HtmlReport.OpensAppend(JsonEscapeChar(s[0]), JsonEscape(s[1..]));
    }
  }

  /** Text without a '<' adds no tag to what it is joined with. */
  lemma PlainAround(a: string, mid: string, b: string)
    requires '<' !in a && '<' !in b
    ensures HtmlReport.Opens(a + (mid + b)) == HtmlReport.Opens(mid)
  {
    HtmlReport.NoOpens(a);
    HtmlReport.NoOpens(b);
    HtmlReport.OpensAppend(mid, b);
    HtmlReport.OpensAppend(a, mid + b);
  }

  /** As written, every '<' of a string evidence value, and of its key, opens
      a tag in the page. */
  lemma MetaHtmlAsWrittenOpens(key: string, text: string)
    ensures HtmlReport.Opens(MetaHtmlAsWritten([Entry(key, Str(text))])) == HtmlReport.Opens(key) + HtmlReport.Opens(text)
  {
    var quoted := JsonQuote(text);
    assert quoted == "\"" + (JsonEscape(text) + "\"");
    JsonEscapeOpens(text);
    PlainAround("\"", JsonEscape(text), "\"");
    HtmlReport.NoOpens(": ");
    HtmlReport.OpensAppend(": ", quoted);
    HtmlReport.OpensAppend(key, ": " + quoted);
    assert Json(Str(text)) == quoted;
    Filters.AppendAssoc(key, ": ", quoted);
  }

  /** A string holding a '<' opens at least one tag. */
  lemma {:induction false} OpensSome(s: string)
    requires '<' in s
    ensures HtmlReport.Opens(s) > 0
    decreases |s|
  {
    if s[0] != '<' {
      assert '<' in s[1..];
      OpensSome(s[1..]);
    }
  }

  /** A string evidence value holding a '<' (such as `<img src=x onerror=...>`)
      puts a tag into the page as written, where the escaped block holds none. */
  lemma MetaHtmlInjects(key: string, text: string)
    requires '<' !in key && '<' in text
    ensures HtmlReport.Opens(MetaHtmlAsWritten([Entry(key, Str(text))])) > 0
    ensures HtmlReport.Opens(MetaHtml([Entry(key, Str(text))])) == 0
  {
    MetaHtmlAsWrittenOpens(key, text);
    HtmlReport.NoOpens(key);
    OpensSome(text);
  }

  /** A `<` followed by text without one opens a single tag. */
  lemma TagOpensOne(tag: string)
    requires |tag| > 0 && tag[0] == '<' && '<' !in tag[1..]
    ensures HtmlReport.Opens(tag) == 1
  {
    assert tag == [tag[0]] + tag[1..];
    HtmlReport.OpensAppend([tag[0]], tag[1..]);
    HtmlReport.NoOpens(tag[1..]);
  }

  /** An escaped line, a `<br>` and the rest: one tag more than the rest. */
  lemma BreakOpens(first: string, rest: string)
    requires HtmlReport.Opens(first) == 0
    ensures HtmlReport.Opens(first + ("<br>" + rest)) == 1 + HtmlReport.Opens(rest)
  {
    HtmlReport.OpensAppend(first, "<br>" + rest);
    HtmlReport.OpensAppend("<br>", rest);
    TagOpensOne("<br>");
  }

  /** The evidence block with each line escaped before it is joined: only the
      `<br>` separators open tags. */
  function MetaHtml(evidence: seq<Entry>): (r: string)
    requires |evidence| > 0
    ensures HtmlReport.Opens(r) == |evidence| - 1
    ensures |r| >= |HtmlText.Escape(MetaLine(evidence[0]))|
    ensures HtmlText.Unescape(r[..|HtmlText.Escape(MetaLine(evidence[0]))|]) == MetaLine(evidence[0])
    decreases |evidence|
  {
    var first := HtmlText.Escape(MetaLine(evidence[0]));
    HtmlReport.EscapedOpensNothing(MetaLine(evidence[0]));
    HtmlText.UnescapeEscape(MetaLine(evidence[0]));
    if |evidence| == 1 then
      assert first[..|first|] == first;
      first
    else
      var rest := MetaHtml(evidence[1..]);
      BreakOpens(first, rest);
      var r := first + ("<br>" + rest);
      assert r[..|first|] == first;
      r
  }

  /** As written, the block is the first line, a `<br>`, then the block of the
      remaining lines: the lines in evidence order, one per entry. */
  lemma MetaHtmlAsWrittenCons(evidence: seq<Entry>)
    requires |evidence| > 1
    ensures MetaHtmlAsWritten(evidence) == MetaLine(evidence[0]) + "<br>" + MetaHtmlAsWritten(evidence[1..])
  {
    var lines := seq(|evidence|, i requires 0 <= i < |evidence| => MetaLine(evidence[i]));
    var rest := evidence[1..];
    assert lines[1..] == seq(|rest|, i requires 0 <= i < |rest| => MetaLine(rest[i]));
  }

  /** On evidence whose lines need no escaping, the escaped block is the block
      as written: the correction changes nothing else. */
  lemma {:induction false} MetaHtmlAgrees(evidence: seq<Entry>)
    requires |evidence| > 0
    requires forall i :: 0 <= i < |evidence| ==> HtmlText.Escape(MetaLine(evidence[i])) == MetaLine(evidence[i])
    ensures MetaHtml(evidence) == MetaHtmlAsWritten(evidence)
    decreases |evidence|
  {
    if |evidence| > 1 {
      MetaHtmlAgrees(evidence[1..]);
      MetaHtmlAsWrittenCons(evidence);
      Filters.AppendAssoc(MetaLine(evidence[0]), "<br>", MetaHtmlAsWritten(evidence[1..]));
    }
  }

  /** The header of a finding card: `kind (SEVERITY)`. */
  function Header(f: FindingData): (r: string)
    ensures |r| == |f.kind| + 3 + |f.severity|
    ensures f.kind <= r && r[|r| - 1] == ')'
    ensures r[|f.kind|..|f.kind| + 2] == " (" && r[|f.kind| + 2..|r| - 1] == Upper(f.severity)
  {
    var r := f.kind + " (" + Upper(f.severity) + ")";
    assert r[|f.kind|..|f.kind| + 2] == " (";
    assert r[|f.kind| + 2..|r| - 1] == Upper(f.severity);
    r
  }

  /** The engine's severities are shown in capitals. */
  lemma SeverityHeader(f: Finding)
    ensures Header(Server.FindingOf(f)) ==
              f.kind + " (" + (match f.severity case Low => "LOW" case Medium => "MEDIUM" case High => "HIGH") + ")"
  {
    var name := SeverityName(f.severity);
    match f.severity
    case Low => assert Upper(name) == "LOW";
    case Medium => assert Upper(name) == "MEDIUM";
    case High => assert Upper(name) == "HIGH";
  }

  /** One finding's card; the evidence block is present only when there is
      evidence. */
  function CardOf(f: FindingData): (c: Card)
    ensures c.FindingCard? && c.header == Header(f) && c.details == f.details
    ensures c.meta.Some? <==> f.evidence != []
  {
    FindingCard(Header(f), f.details, if f.evidence != [] then Some(MetaHtml(f.evidence)) else None)
  }

  /** `showFindings`: a single note when there is nothing to show, else one
      card per finding, in order. */
  function ShowFindings(findings: seq<FindingData>): (r: seq<Card>)
    ensures findings == [] ==> r == [Note(NoIssues)]
    ensures findings != [] ==> |r| == |findings| && forall i :: 0 <= i < |r| ==> r[i] == CardOf(findings[i])
    ensures forall i :: 0 <= i < |r| ==> (r[i].Note? <==> findings == [])
  {
    if findings == [] then [Note(NoIssues)]
    else seq(|findings|, i requires 0 <= i < |findings| => CardOf(findings[i]))
  }

  /** The report link, with `target="_blank"` as its only extra attribute. */
  function ReportLink(url: string): (r: string)
    ensures "<a href=\"" + url + "\" target=\"_blank\">" <= r
    ensures |r| >= 4 && r[|r| - 4..] == "</a>"
  {
    var head := "<a href=\"" + url + "\" target=\"_blank\">";
    var r := head + "\U{1F4C4} View Full Report</a>";
    assert head <= r;
    r
  }

  /** `showResults`. */
  function ShowResults(p: Panel, data: Server.Response): (r: Panel)
    ensures r.placeholderHidden && !r.cardHidden
    ensures r.title == data.scenarioTitle && r.reason == data.reason
    ensures data.blocked ==> r.statusClass == FailBadge && r.statusText == BlockedText
    ensures !data.blocked ==> r.statusClass == PassBadge && r.statusText == AllowedText
    ensures r.score == ScoreLine(data.score)
    ensures r.findings == ShowFindings(data.findings)
    ensures r.reportHtml != [] <==> data.reportUrl != []
    ensures data.reportUrl != [] ==> r.reportHtml == ReportLink(data.reportUrl)
  {
    Panel(true, false, data.scenarioTitle,
          if data.blocked then FailBadge else PassBadge,
          if data.blocked then BlockedText else AllowedText,
          data.reason, ScoreLine(data.score), ShowFindings(data.findings),
          if data.reportUrl != [] then ReportLink(data.reportUrl) else [])
  }

  // ------------------------------------------------------------ requests

  /** How `fetch("/evaluate")` ended: it threw, or a reply came with a status
      and a body that may fail to parse as JSON. */
  datatype FetchOutcome =
    | NetworkFailure(message: string)
    | Reply(status: nat, body: Result<Server.Response, string>)

  /** `response.ok`. */
  predicate Ok(status: nat) {
    200 <= status <= 299
  }

  /** `runScenarioVariant`: the panel after the request, and the button, which
      is back to idle on every path. */
  function RunScenarioVariant(p: Panel, b: Button, outcome: FetchOutcome): (r: (Panel, Button))
    ensures r.1 == SetBusy(SetBusy(b, true), false)
    ensures outcome.NetworkFailure? ==> r.0 == ShowError(p, outcome.message)
    ensures outcome.Reply? && !Ok(outcome.status) ==>
              r.0 == ShowError(p, "Request failed: " + NatToString(outcome.status))
    ensures outcome.Reply? && Ok(outcome.status) && outcome.body.Failure? ==> r.0 == ShowError(p, outcome.body.error)
    ensures outcome.Reply? && Ok(outcome.status) && outcome.body.Success? ==> r.0 == ShowResults(p, outcome.body.value)
  {
    var busy := SetBusy(b, true);
    var panel :=
      match outcome
      case NetworkFailure(message) => ShowError(p, message)
      case Reply(status, body) =>
        if !Ok(status) then ShowError(p, "Request failed: " + NatToString(status))
        else
          match body
          case Failure(e) => ShowError(p, e)
          case Success(data) => ShowResults(p, data);
    (panel, SetBusy(busy, false))
  }

  /** Whatever the outcome, the button ends enabled with its label back. */
  lemma ButtonRecovers(p: Panel, b: Button, outcome: FetchOutcome)
    requires b.html != []
    ensures !RunScenarioVariant(p, b, outcome).1.disabled
    ensures RunScenarioVariant(p, b, outcome).1.html == b.html
  {
    BusyThenIdle(b);
  }

  // ------------------------------------------------------- scenario cards

  /** A variant button as built: its texts and the request its click sends. */
  datatype VariantButton = VariantButton(labelText: string, description: string, scenarioId: string, variantKey: string)

  datatype ScenarioCard = ScenarioCard(title: string, summary: string, buttons: seq<VariantButton>)

  /** `buildScenarioCard`: one button per variant, in order, each sending the
      scenario's id and its variant's key. */
  function BuildScenarioCard(s: ScenarioSummary): (c: ScenarioCard)
    ensures c.title == s.title && c.summary == s.summary
    ensures |c.buttons| == |s.variants|
    ensures forall i :: 0 <= i < |c.buttons| ==>
              c.buttons[i].scenarioId == s.id && c.buttons[i].variantKey == s.variants[i].key
              && c.buttons[i].labelText == s.variants[i].labelText && c.buttons[i].description == s.variants[i].description
  {
    ScenarioCard(s.title, s.summary,
      seq(|s.variants|, i requires 0 <= i < |s.variants| =>
        VariantButton(s.variants[i].labelText, s.variants[i].description, s.id, s.variants[i].key)))
  }

  /** The catalogue text `JSON.parse` reads: the attribute, or `"[]"` when it
      is absent or empty. */
  function CatalogSource(attribute: Option<string>): (r: string)
    ensures attribute.None? || attribute == Some([]) ==> r == "[]"
    ensures attribute.Some? && attribute.value != [] ==> r == attribute.value
  {
    if attribute.Some? && attribute.value != [] then attribute.value else "[]"
  }

  /** One card per summary, in order. */
  function Cards(catalog: seq<ScenarioSummary>): (r: seq<ScenarioCard>)
    ensures |r| == |catalog|
    ensures forall i :: 0 <= i < |r| ==> r[i] == BuildScenarioCard(catalog[i])
  {
    seq(|catalog|, i requires 0 <= i < |catalog| => BuildScenarioCard(catalog[i]))
  }

  /** Loading the script: the scenario cards `init` mounts, in catalogue
      order, or the error `JSON.parse` throws at load, which nothing catches
      and which leaves the page without cards. `JSON.parse("[]")` is the
      empty list. */
  function Init(attribute: Option<string>, parse: string -> Result<seq<ScenarioSummary>, string>): (r: Result<seq<ScenarioCard>, string>)
    ensures attribute.None? || attribute == Some([]) ==> r == Success([])
    ensures attribute.Some? && attribute.value != [] && attribute.value != "[]" && parse(attribute.value).Failure? ==>
              r == Failure(parse(attribute.value).error)
    ensures r.Success? && CatalogSource(attribute) != "[]" ==>
              |r.value| == |parse(CatalogSource(attribute)).value|
              && forall i :: 0 <= i < |r.value| ==> r.value[i] == BuildScenarioCard(parse(CatalogSource(attribute)).value[i])
  {
    var source := CatalogSource(attribute);
    var catalog :- if source == "[]" then Success([]) else parse(source);
    Success(Cards(catalog))
  }

  predicate DistinctIds(catalog: seq<Scenario>) {
    forall i, j :: 0 <= i < j < |catalog| ==> catalog[i].id != catalog[j].id
  }

  /** Every button built from the server's index names a scenario and a
      variant the server accepts, when the catalogue's ids are distinct. */
  lemma ButtonsReachServer(catalog: seq<Scenario>, i: int, j: int)
    requires DistinctIds(catalog)
    requires 0 <= i < |catalog| && 0 <= j < |catalog[i].variants|
    ensures var button := BuildScenarioCard(ScenarioIndex(catalog)[i]).buttons[j];
            Server.GetScenario(catalog, button.scenarioId) == Success(catalog[i])
            && HasVariant(catalog[i], button.variantKey)
  {
    var button := BuildScenarioCard(ScenarioIndex(catalog)[i]).buttons[j];
    assert button.scenarioId == catalog[i].id;
    assert button.variantKey == catalog[i].variants[j].key;
    var found := Server.GetScenario(catalog, button.scenarioId);
    assert found.Success?;
    var k :| 0 <= k < |catalog| && catalog[k] == found.value && found.value.id == button.scenarioId
             && forall m :: 0 <= m < k ==> catalog[m].id != button.scenarioId;
    assert k == i;
  }
}

=== FILE: drift.dfy ===
/** The goal-drift checker (sentrykit/checkers/drift.py): locations, season
    timeframes, pay and company size in the output compared with those the
    goal and constraints ask for. The three regular expressions are given as
    functions (see `DriftTools`). */
module Drift {
  import opened Wrappers
  import opened Text
  import opened StringOrder
  import opened Values
  import opened Models

  /** `_LOCATION_KEYWORDS`, in dictionary order. */
  const LocationKeywords: seq<(string, seq<string>)> := [
    ("austin", ["austin", "austin, tx", "austin texas", "atx", "austin metro"]),
    ("dallas", ["dallas", "dallas, tx", "dfw", "dallas metro"]),
    ("round rock", ["round rock"]),
    ("cedar park", ["cedar park"]),
    ("pflugerville", ["pflugerville"]),
    ("leander", ["leander"]),
    ("remote", ["remote", "work from anywhere"])
  ]

  const AustinMetro: set<string> := {"round rock", "cedar park", "pflugerville", "leander"}

  /** The canonical location names. */
  function Canonical(table: seq<(string, seq<string>)>): (r: set<string>)
    ensures forall c :: c in r <==> exists i :: 0 <= i < |table| && table[i].0 == c
  {
    set i | 0 <= i < |table| :: table[i].0
  }

  /** Some keyword of the list occurs in the text. */
  predicate AnyIn(keywords: seq<string>, lowered: string) {
    exists k :: k in keywords && IsSubstring(k, lowered)
  }

  /** The loop of `_extract_locations` over a keyword table. */
  function LocationsIn(table: seq<(string, seq<string>)>, lowered: string): (r: set<string>)
    ensures forall c :: c in r <==> exists i :: 0 <= i < |table| && table[i].0 == c && AnyIn(table[i].1, lowered)
  {
    if |table| == 0 then {}
    else
      var rest := LocationsIn(table[1..], lowered);
      assert forall i :: 1 <= i < |table| ==> table[i] == table[1..][i - 1];
      if AnyIn(table[0].1, lowered) then {table[0].0} + rest else rest
  }

  /** `_extract_locations`: the canonical names some keyword of which occurs in
      the lower-cased text. */
  function ExtractLocations(text: string): (r: set<string>)
    ensures r <= Canonical(LocationKeywords)
    ensures forall i :: 0 <= i < |LocationKeywords| ==>
              (LocationKeywords[i].0 in r <==> AnyIn(LocationKeywords[i].1, Lower(text)))
  {
    LocationsIn(LocationKeywords, Lower(text))
  }

  datatype Label = Major | Minor

  function LabelName(l: Label): string {
    match l
    case Major => "major"
    case Minor => "minor"
  }

  /** An observed location counts as minor drift: metro suburbs are minor when
      "austin" is desired and `treat_metro_minor` is set (the inner loop over
      the desired targets). */
  predicate IsMinor(location: string, desired: set<string>, treatMetroMinor: bool) {
    treatMetroMinor && "austin" in desired && location in AustinMetro
  }

  /** The loop of `_classify_location` over the observed set: the undesired
      locations split into disallowed and minor ones. */
  function SplitObserved(observed: set<string>, desired: set<string>, treatMetroMinor: bool)
    : (r: (set<string>, set<string>))
    ensures forall l :: l in r.0 <==> l in observed && l !in desired && !IsMinor(l, desired, treatMetroMinor)
    ensures forall l :: l in r.1 <==> l in observed && l !in desired && IsMinor(l, desired, treatMetroMinor)
    decreases observed
  {
    if observed == {} then ({}, {})
    else
      var l := Least(observed);
      var rest := SplitObserved(observed - {l}, desired, treatMetroMinor);
      if l in desired then rest
      else if IsMinor(l, desired, treatMetroMinor) then (rest.0, rest.1 + {l})
      else (rest.0 + {l}, rest.1)
  }

  /** `_classify_location`. */
  function ClassifyLocation(desired: set<string>, observed: set<string>, treatMetroMinor: bool)
    : (r: Option<(Label, set<string>)>)
    ensures desired == {} || observed == {} ==> r.None?
    ensures r.Some? ==> r.value.1 != {} && r.value.1 <= observed && r.value.1 !! desired
    ensures r.Some? && r.value.0 == Major ==>
              forall l :: l in r.value.1 <==> l in observed && l !in desired && !IsMinor(l, desired, treatMetroMinor)
    ensures r.Some? && r.value.0 == Minor ==>
              && (forall l :: l in observed && l !in desired ==> IsMinor(l, desired, treatMetroMinor))
              && (forall l :: l in r.value.1 <==> l in observed && l !in desired)
    ensures desired != {} && observed != {} && r.None? ==> observed <= desired
    ensures observed <= desired ==> r.None?
  {
    if desired == {} || observed == {} then None
    else
      var (disallowed, minor) := SplitObserved(observed, desired, treatMetroMinor);
      if disallowed != {} then Some((Major, disallowed))
      else if minor != {} then Some((Minor, minor))
      else None
  }

  /** Without `treat_metro_minor` every drift is major. */
  lemma NoMetroMeansMajor(desired: set<string>, observed: set<string>)
    ensures var r := ClassifyLocation(desired, observed, false); r.Some? ==> r.value.0 == Major
  {
  }

  /** The regular expressions of the checker as functions: the groups of the
      first `_PAY_PATTERN` match, the `(season, year)` pairs of every
      `_SEASON_PATTERN` match, and the number the first `_COMPANY_SIZE_PATTERN`
      match denotes (`int` accepts every digit `\d` matches). */
  datatype DriftTools = DriftTools(
    payMatch: string -> Option<string>,
    seasonMatches: string -> seq<(string, string)>,
    companySize: string -> Option<nat>)

  /** One match as "season year", lower-cased. */
  function Frame(m: (string, string)): string {
    Lower(m.0 + " " + m.1)
  }

  /** `_extract_timeframes`: every match as "season year", lower-cased, and
      nothing else. */
  function Timeframes(text: string, tools: DriftTools): (r: set<string>)
    ensures forall i :: 0 <= i < |tools.seasonMatches(text)| ==> Frame(tools.seasonMatches(text)[i]) in r
    ensures forall t :: t in r ==> IsLowerCase(t)
    ensures forall t :: t in r ==> exists i :: 0 <= i < |tools.seasonMatches(text)| && t == Frame(tools.seasonMatches(text)[i])
  {
    var ms := tools.seasonMatches(text);
    var r := set i | 0 <= i < |ms| :: Frame(ms[i]);
    assert forall t :: t in r ==> IsLowerCase(t) by {
      forall t | t in r ensures IsLowerCase(t) {
        var i :| 0 <= i < |ms| && t == Frame(ms[i]);
        LowerIsLowerCase(ms[i].0 + " " + ms[i].1);
      }
    }
    r
  }

  /** `_extract_pay`: the matched amount with its thousands commas removed, read
      as an integer; `None` without a match or when `int` would fail. */
  function ExtractPay(text: string, tools: DriftTools): (r: Option<nat>)
    ensures tools.payMatch(text).None? ==> r.None?
    ensures r.Some? ==> (tools.payMatch(text).Some? &&
                         ParseNat(Remove(tools.payMatch(text).value, ',')) == r)
    ensures tools.payMatch(text).Some? ==> r == ParseNat(Remove(tools.payMatch(text).value, ','))
  {
    match tools.payMatch(text)
    case None => None
    case Some(g) => ParseNat(Remove(g, ','))
  }

  /** The amount "4,000" reads as 4000. */
  lemma PayWithComma(text: string, tools: DriftTools)
    requires tools.payMatch(text) == Some("4,000")
    ensures ExtractPay(text, tools) == Some(4000)
  {
    CommaRemoved();
    FourThousand();
  }

  lemma CommaRemoved()
    ensures Remove("4,000", ',') == "4000"
  {
    assert "0"[1..] == "" && "00"[1..] == "0" && "000"[1..] == "00";
    assert ",000"[1..] == "000" && "4,000"[1..] == ",000";
    assert Remove("0", ',') == "0";
    assert Remove("00", ',') == "00";
    assert Remove("000", ',') == "000";
    assert Remove(",000", ',') == "000";
  }

  lemma FourThousand()
    ensures ParseNat("4000") == Some(4000)
  {
    assert "4000"[..3] == "400" && "400"[..2] == "40" && "40"[..1] == "4" && "4"[..0] == "";
    assert DigitsValue("4") == 4;
    assert DigitsValue("40") == 40;
    assert DigitsValue("400") == 400;
  }

  /** Python's `a or b` on optional integers: `None` and `0` fall through. */
  function OrElse(a: Option<int>, b: Option<int>): (r: Option<int>)
    ensures a.Some? && a.value != 0 ==> r == a
    ensures (a.None? || a.value == 0) ==> r == b
  {
    if a.Some? && a.value != 0 then a else b
  }

  /** The threshold test of `run`: both numbers present and non-zero, and the
      observed one smaller. */
  predicate BelowThreshold(minimum: Option<int>, observed: Option<int>) {
    minimum.Some? && minimum.value != 0 && observed.Some? && observed.value != 0
    && observed.value < minimum.value
  }

  function NatOpt(o: Option<nat>): Option<int> {
    match o
    case None => None
    case Some(n) => Some(n)
  }

  function Sorted(s: set<string>): Value {
    StrList(SortedSet(s))
  }

  /** The location finding: medium for minor drift, high for major. */
  function LocationFinding(desired: set<string>, observed: set<string>, treatMetroMinor: bool)
    : (r: Option<Finding>)
    ensures r.Some? <==> ClassifyLocation(desired, observed, treatMetroMinor).Some?
    ensures r.Some? ==> r.value.kind == "goal_drift"
    ensures r.Some? ==> (r.value.severity == Medium <==> ClassifyLocation(desired, observed, treatMetroMinor).value.0 == Minor)
    ensures r.Some? ==> r.value.severity != Low
  {
    match ClassifyLocation(desired, observed, treatMetroMinor)
    case None => None
    case Some(c) =>
      var (kind, offending) := c;
      Some(Finding("goal_drift", if kind == Minor then Medium else High,
                   "Response references disallowed location(s)",
                   [Entry("expected", Sorted(desired)), Entry("observed", Sorted(observed)),
                    Entry("classification", Str(LabelName(kind))), Entry("offending", Sorted(offending))]))
  }

  /** The timeframe finding: only when both sides name timeframes and none is
      shared. */
  function TimeframeFinding(desired: set<string>, observed: set<string>): (r: Option<Finding>)
    ensures r.Some? <==> desired != {} && observed != {} && desired !! observed
    ensures r.Some? ==> r.value.kind == "goal_drift" && r.value.severity == High
  {
    if desired != {} && observed != {} && desired !! observed then
      Some(Finding("goal_drift", High, "Response timeframe deviates from requested goal",
                   [Entry("expected", Sorted(desired)), Entry("observed", Sorted(observed)),
                    Entry("classification", Str("major"))]))
    else None
  }

  /** The pay finding: only below an effective, non-zero minimum. */
  function PayFinding(minimum: Option<int>, observed: Option<int>): (r: Option<Finding>)
    ensures r.Some? <==> BelowThreshold(minimum, observed)
    ensures r.Some? ==> r.value.kind == "goal_drift" && r.value.severity == High
    ensures r.Some? ==> (r.value.details ==
              "Pay $" + IntToString(observed.value) + " below threshold $" + IntToString(minimum.value))
  {
    if BelowThreshold(minimum, observed) then
      Some(Finding("goal_drift", High,
                   "Pay $" + IntToString(observed.value) + " below threshold $" + IntToString(minimum.value),
                   [Entry("expected_min", Int(minimum.value)), Entry("observed", Int(observed.value)),
                    Entry("classification", Str("major"))]))
    else None
  }

  /** The company-size finding, under the same rule as pay. */
  function CompanySizeFinding(minimum: Option<int>, observed: Option<int>): (r: Option<Finding>)
    ensures r.Some? <==> BelowThreshold(minimum, observed)
    ensures r.Some? ==> r.value.kind == "goal_drift" && r.value.severity == High
  {
    if BelowThreshold(minimum, observed) then
      Some(Finding("goal_drift", High, "Company size below requested minimum",
                   [Entry("expected_min", Int(minimum.value)), Entry("observed", Int(observed.value)),
                    Entry("classification", Str("major"))]))
    else None
  }

  /** What every finding of the checker looks like. */
  predicate IsDrift(f: Finding) {
    f.kind == "goal_drift" && f.severity != Low
  }

  predicate Drifts(o: Option<Finding>) {
    o.Some? ==> IsDrift(o.value)
  }

  /** The findings that are present, in order. */
  function Assemble(a: Option<Finding>, b: Option<Finding>, c: Option<Finding>, d: Option<Finding>)
    : (r: seq<Finding>)
    ensures |r| <= 4
    ensures Drifts(a) && Drifts(b) && Drifts(c) && Drifts(d) ==> forall i :: 0 <= i < |r| ==> IsDrift(r[i])
  {
    (if a.Some? then [a.value] else []) + (if b.Some? then [b.value] else [])
    + (if c.Some? then [c.value] else []) + (if d.Some? then [d.value] else [])
  }

  /** The text the goal sets: the goal and the constraints, joined by spaces. */
  function Baseline(run: RunInput): string {
    Join(" ", [run.goal] + run.constraints)
  }

  function OutputText(run: RunInput): string {
    if run.output.Some? then run.output.value.text else ""
  }

  /** `run`: up to four `goal_drift` findings, in the order location,
      timeframe, pay, company size. */
  function Run(run: RunInput, minPay: Option<int>, treatMetroMinor: bool, minCompanySize: Option<int>,
               tools: DriftTools): (r: seq<Finding>)
    ensures |r| <= 4
    ensures forall i :: 0 <= i < |r| ==> IsDrift(r[i])
  {
    var baseline := Baseline(run);
    var output := OutputText(run);
    var location := LocationFinding(ExtractLocations(baseline), ExtractLocations(output), treatMetroMinor);
    var timeframe := TimeframeFinding(Timeframes(baseline, tools), Timeframes(output, tools));
    var pay := PayFinding(OrElse(minPay, NatOpt(ExtractPay(baseline, tools))), NatOpt(ExtractPay(output, tools)));
    var size := CompanySizeFinding(OrElse(minCompanySize, NatOpt(tools.companySize(baseline))),
                                   NatOpt(tools.companySize(output)));
    assert Drifts(location) && Drifts(timeframe) && Drifts(pay) && Drifts(size);
    Assemble(location, timeframe, pay, size)
  }

  lemma PrintedAmounts()
    ensures IntToString(4000) == "4000" && IntToString(5000) == "5000"
  {
    assert NatToString(4) == "4" && NatToString(5) == "5";
    assert NatToString(40) == "40" && NatToString(50) == "50";
    assert NatToString(400) == "400" && NatToString(500) == "500";
  }

  /** The pay check of the checker's test: "$4,000 per month" in the output
      against a minimum pay of 5000 is reported below threshold, whatever the
      baseline text says. */
  lemma PayBelowThreshold(output: string, baselinePay: Option<int>, tools: DriftTools)
    requires tools.payMatch(output) == Some("4,000")
    ensures var pay := PayFinding(OrElse(Some(5000), baselinePay), NatOpt(ExtractPay(output, tools)));
            pay.Some? && pay.value.details == "Pay $4000 below threshold $5000"
  {
    PayWithComma(output, tools);
    var minimum := OrElse(Some(5000), baselinePay);
    var observed := NatOpt(ExtractPay(output, tools));
    assert minimum == Some(5000) && observed == Some(4000);
    assert BelowThreshold(minimum, observed);
    PayText();
  }

  /** The message for 4000 against 5000. */
  lemma PayText()
    ensures "Pay $" + IntToString(4000) + " below threshold $" + IntToString(5000) == "Pay $4000 below threshold $5000"
  {
    PrintedAmounts();
    assert "Pay $" + "4000" + " below threshold $" + "5000" == "Pay $4000 below threshold $5000";
  }
}

=== FILE: engine.dfy ===
/** The guard engine (sentrykit/engine.py): runs the six checkers in a fixed
    order, turns a checker's exception into a low `internal_error` finding,
    scores the findings, decides blocking against the policy and renders the
    report. Scores are kept in tenths: low 2, medium 5, high 10. */
module Engine {
  import opened Wrappers
  import opened Text
  import opened StringOrder
  import opened Values
  import opened Models
  import opened Policies
  import opened Redact
  import Poisoning
  import ToolFirewall
  import Jailbreak
  import Drift
  import Hallucination
  import HtmlReport

  /** Everything the checkers and the report need from outside the model: the
      secret finders, URL parsing and IDNA, the fetcher, tokeniser and regex
      search of claim verification, the drift regexes, the leak checker (whose
      own regexes and entropy arithmetic are not modelled) and the report
      template. */
  datatype Env = Env(
    finders: seq<Finder>,
    urls: Poisoning.UrlTools,
    claims: Hallucination.ClaimTools,
    drift: Drift.DriftTools,
    leaks: RunInput -> Result<seq<Finding>, string>,
    template: string)

  /** `_SEVERITY_SCORES`, in tenths. */
  function Points(s: Severity): (p: nat)
    ensures 2 <= p <= 10
  {
    match s
    case Low => 2
    case Medium => 5
    case High => 10
  }

  /** The sum of the findings' points. */
  function Score(findings: seq<Finding>): (r: nat)
    ensures 2 * |findings| <= r <= 10 * |findings|
  {
    if |findings| == 0 then 0 else Points(findings[0].severity) + Score(findings[1..])
  }

  /** The score of two lists of findings together is the sum of their scores. */
  lemma {:induction false} ScoreAppend(a: seq<Finding>, b: seq<Finding>)
    ensures Score(a + b) == Score(a) + Score(b)
    decreases |a|
  {
    if |a| == 0 {
      assert a + b == b;
    } else {
      assert (a + b)[1..] == a[1..] + b;
      ScoreAppend(a[1..], b);
    }
  }

  /** Every finding adds its own points. */
  lemma {:induction false} ScoreAtLeast(findings: seq<Finding>, i: int)
    requires 0 <= i < |findings|
    ensures Score(findings) >= Points(findings[i].severity) + 2 * (|findings| - 1)
    decreases |findings|
  {
    if i > 0 {
      ScoreAtLeast(findings[1..], i - 1);
    }
  }

  /** One high finding alone brings the score to ten. */
  lemma HighScoresTen(findings: seq<Finding>, i: int)
    requires 0 <= i < |findings| && findings[i].severity == High
    ensures Score(findings) >= 10
  {
    ScoreAtLeast(findings, i);
  }

  /** The finding `_run_checker` records for a checker that raised. */
  function InternalError(module_: string, error: string): Finding {
    Finding("internal_error", Low, "Checker " + module_ + " failed: " + error,
            [Entry("checker", Str(module_))])
  }

  /** `_run_checker`: the checker's findings, or the single internal error. */
  function RunChecker(module_: string, outcome: Result<seq<Finding>, string>): (r: seq<Finding>)
    ensures outcome.Success? ==> r == outcome.value
    ensures outcome.Failure? ==> |r| == 1 && r[0].kind == "internal_error" && r[0].severity == Low
    ensures outcome.Failure? ==> r[0].details == "Checker " + module_ + " failed: " + outcome.error
    ensures outcome.Failure? ==> r[0].evidence == [Entry("checker", Str(module_))]
  {
    match outcome
    case Success(fs) => fs
    case Failure(e) => [InternalError(module_, e)]
  }

  type Outcome = (string, Result<seq<Finding>, string>)

  function FirewallOutcome(run: RunInput, policy: Policy): Outcome {
    ("sentrykit.checkers.tool_firewall", Success(ToolFirewall.Run(run, policy)))
  }

  /** Poisoning gets the policy and no override phrases. */
  function PoisoningOutcome(run: RunInput, policy: Policy, env: Env): Outcome {
    ("sentrykit.checkers.poisoning", Poisoning.Run(run, Some(policy), None, env.urls))
  }

  function JailbreakOutcome(run: RunInput): Outcome {
    ("sentrykit.checkers.jailbreak", Success(Jailbreak.Run(run)))
  }

  function LeaksOutcome(run: RunInput, env: Env): Outcome {
    ("sentrykit.checkers.leaks", env.leaks(run))
  }

  /** Drift gets the three policy thresholds. */
  function DriftOutcome(run: RunInput, policy: Policy, env: Env): Outcome {
    ("sentrykit.checkers.drift",
     Success(Drift.Run(run, policy.minPayThreshold, policy.treatMetroAsMinor, policy.minCompanySize, env.drift)))
  }

  function HallucinationOutcome(run: RunInput, env: Env): Outcome {
    ("sentrykit.checkers.hallucination", Success(Hallucination.Run(run, env.claims, env.finders)))
  }

  /** The checkers' modules and outcomes, in the order `evaluate` runs them. */
  function Outcomes(run: RunInput, policy: Policy, env: Env): (r: seq<Outcome>)
    ensures |r| == 6
  {
    [FirewallOutcome(run, policy), PoisoningOutcome(run, policy, env), JailbreakOutcome(run),
     LeaksOutcome(run, env), DriftOutcome(run, policy, env), HallucinationOutcome(run, env)]
  }

  /** The findings of the checkers, one after another. */
  function Gather(outcomes: seq<Outcome>): (r: seq<Finding>)
    ensures |r| >= Failures(outcomes)
  {
    if |outcomes| == 0 then []
    else RunChecker(outcomes[0].0, outcomes[0].1) + Gather(outcomes[1..])
  }

  /** Gathering two runs of checkers one after the other is gathering each. */
  lemma {:induction false} GatherAppend(a: seq<Outcome>, b: seq<Outcome>)
    ensures Gather(a + b) == Gather(a) + Gather(b)
    decreases |a|
  {
    if |a| == 0 {
      assert a + b == b;
    } else {
      assert (a + b)[0] == a[0];
      assert (a + b)[1..] == a[1..] + b;
      GatherAppend(a[1..], b);
    }
  }

  /** Gathering from the `k`-th checker on: its findings, then the rest. */
  lemma GatherStep(o: seq<Outcome>, k: int)
    requires 0 <= k < |o|
    ensures Gather(o[k..]) == RunChecker(o[k].0, o[k].1) + Gather(o[k + 1..])
  {
    assert o[k..][0] == o[k];
    assert o[k..][1..] == o[k + 1..];
  }

  /** Six checkers' findings, in the checkers' order. */
  lemma GatherSix(o: seq<Outcome>)
    requires |o| == 6
    ensures Gather(o) == RunChecker(o[0].0, o[0].1) + RunChecker(o[1].0, o[1].1) + RunChecker(o[2].0, o[2].1)
                         + RunChecker(o[3].0, o[3].1) + RunChecker(o[4].0, o[4].1) + RunChecker(o[5].0, o[5].1)
  {
    var f0, f1, f2 := RunChecker(o[0].0, o[0].1), RunChecker(o[1].0, o[1].1), RunChecker(o[2].0, o[2].1);
    var f3, f4, f5 := RunChecker(o[3].0, o[3].1), RunChecker(o[4].0, o[4].1), RunChecker(o[5].0, o[5].1);
    assert o[0..] == o;
    assert o[6..] == [];
    calc {
      Gather(o);
    == { GatherStep(o, 0); }
      f0 + Gather(o[1..]);
    == { GatherStep(o, 1); }
      f0 + (f1 + Gather(o[2..]));
    == { GatherStep(o, 2); }
      f0 + (f1 + (f2 + Gather(o[3..])));
    == { GatherStep(o, 3); }
      f0 + (f1 + (f2 + (f3 + Gather(o[4..]))));
    == { GatherStep(o, 4); }
      f0 + (f1 + (f2 + (f3 + (f4 + Gather(o[5..])))));
    == { GatherStep(o, 5); }
      f0 + (f1 + (f2 + (f3 + (f4 + (f5 + [])))));
    == 
      f0 + f1 + f2 + f3 + f4 + f5;
    }
  }

  function Failures(outcomes: seq<Outcome>): (n: nat)
    ensures n <= |outcomes|
  {
    if |outcomes| == 0 then 0
    else (if outcomes[0].1.Failure? then 1 else 0) + Failures(outcomes[1..])
  }

  /** A checker that raised leaves its internal error among the findings. */
  lemma {:induction false} GatherKeepsFailure(outcomes: seq<Outcome>, i: int)
    requires 0 <= i < |outcomes| && outcomes[i].1.Failure?
    ensures InternalError(outcomes[i].0, outcomes[i].1.error) in Gather(outcomes)
    decreases |outcomes|
  {
    if i > 0 {
      GatherKeepsFailure(outcomes[1..], i - 1);
    }
  }

  /** A checker's findings all reach the verdict. */
  lemma {:induction false} GatherKeepsFindings(outcomes: seq<Outcome>, i: int, f: Finding)
    requires 0 <= i < |outcomes| && outcomes[i].1.Success? && f in outcomes[i].1.value
    ensures f in Gather(outcomes)
    decreases |outcomes|
  {
    if i > 0 {
      GatherKeepsFindings(outcomes[1..], i - 1, f);
    }
  }

  /** The keys `_should_block` compares with `block_on` for one finding. The
      classification key exists only when the evidence's `classification` is a
      string. */
  function BlockKeys(f: Finding): (r: set<string>)
    ensures f.kind in r && f.kind + ":any" in r && f.kind + ":" + SeverityName(f.severity) in r
    ensures f.severity == High ==> f.kind + ":high" in r
    ensures Get(f.evidence, "classification").Some? && Get(f.evidence, "classification").value.Str? ==>
              f.kind + ":" + Get(f.evidence, "classification").value.s in r
    ensures forall k :: k in r ==> k == f.kind || f.kind + ":" <= k
    ensures forall k :: k in r <==>
              k == f.kind || k == f.kind + ":any" || k == f.kind + ":" + SeverityName(f.severity)
              || (f.severity == High && k == f.kind + ":high")
              || (Get(f.evidence, "classification").Some? && Get(f.evidence, "classification").value.Str?
                  && k == f.kind + ":" + Get(f.evidence, "classification").value.s)
  {
    var base := {f.kind, f.kind + ":any", f.kind + ":" + SeverityName(f.severity)};
    var classification :=
      match Get(f.evidence, "classification")
      case Some(Str(c)) => {f.kind + ":" + c}
      case _ => {};
    var high := if f.severity == High then {f.kind + ":high"} else {};
    base + classification + high
  }

  predicate Triggers(f: Finding, blockOn: set<string>) {
    BlockKeys(f) * blockOn != {}
  }

  /** The loop of `_should_block`: stops at the first finding that triggers. */
  function AnyTriggers(findings: seq<Finding>, blockOn: set<string>): (r: bool)
    ensures r <==> exists i :: 0 <= i < |findings| && Triggers(findings[i], blockOn)
  {
    if |findings| == 0 then false
    else if Triggers(findings[0], blockOn) then true
    else
      var r := AnyTriggers(findings[1..], blockOn);
      assert forall i :: 1 <= i < |findings| ==> findings[i] == findings[1..][i - 1];
      r
  }

  /** `_should_block`: an empty `block_on` never blocks. */
  function ShouldBlock(findings: seq<Finding>, blockOn: set<string>): (r: bool)
    ensures r <==> blockOn != {} && exists i :: 0 <= i < |findings| && Triggers(findings[i], blockOn)
  {
    if blockOn == {} then false else AnyTriggers(findings, blockOn)
  }

  /** Naming a finding's kind in `block_on` blocks it, whatever its severity. */
  lemma BlockOnKind(findings: seq<Finding>, blockOn: set<string>, i: int)
    requires 0 <= i < |findings| && findings[i].kind in blockOn
    ensures ShouldBlock(findings, blockOn)
  {
    assert findings[i].kind in BlockKeys(findings[i]) * blockOn;
  }

  /** More findings never unblock. */
  lemma BlockMonotone(a: seq<Finding>, b: seq<Finding>, blockOn: set<string>)
    requires ShouldBlock(a, blockOn)
    ensures ShouldBlock(a + b, blockOn) && ShouldBlock(b + a, blockOn)
  {
    var i :| 0 <= i < |a| && Triggers(a[i], blockOn);
    assert (a + b)[i] == a[i];
    assert (b + a)[|b| + i] == a[i];
  }

  /** The distinct kinds of the findings. */
  function Kinds(findings: seq<Finding>): set<string> {
    set i | 0 <= i < |findings| :: findings[i].kind
  }

  /** The verdict's reason: the sorted distinct kinds joined by `"; "`. */
  function Reason(findings: seq<Finding>): (r: string)
    ensures findings == [] ==> r == "No findings"
    ensures forall i :: 0 <= i < |findings| ==> IsSubstring(findings[i].kind, r)
    ensures findings != [] ==>
              exists ks :: Sorted(ks) && ToSet(ks) == Kinds(findings) && r == Join("; ", ks)
  {
    if findings == [] then "No findings"
    else
      var kinds := SortedSet(Kinds(findings));
      var r := Join("; ", kinds);
      assert forall i :: 0 <= i < |findings| ==> IsSubstring(findings[i].kind, r) by {
        forall i | 0 <= i < |findings| ensures IsSubstring(findings[i].kind, r) {
          assert findings[i].kind in Kinds(findings);
          var j :| 0 <= j < |kinds| && kinds[j] == findings[i].kind;
          JoinHasPart("; ", kinds, j);
        }
      }
      SortedSetToSet(Kinds(findings));
      r
  }

  /** The verdict on a list of findings: their score, the blocking decision,
      the reason and the rendered report. */
  function Judge(findings: seq<Finding>, policy: Policy, env: Env): (v: Verdict)
    ensures v.findings == findings
    ensures v.score == Score(findings)
    ensures v.blocked <==> policy.blockOn != {} && exists i :: 0 <= i < |findings| && Triggers(findings[i], policy.blockOn)
    ensures findings == [] ==> v.reason == "No findings" && v.score == 0 && !v.blocked
    ensures v.report.Some? && v.report.value.data.blocked == v.blocked && v.report.value.data.score == v.score
    ensures |v.report.value.data.findings| == |findings|
  {
    var verdict := Verdict(ShouldBlock(findings, policy.blockOn), Reason(findings), Score(findings), findings, None);
    verdict.(report := Some(HtmlReport.Render(verdict, env.template, env.finders)))
  }

  /** `evaluate`: the findings of all checkers, in order, judged together. */
  function Evaluate(run: RunInput, policy: Policy, env: Env): (v: Verdict)
    ensures v.findings == Gather(Outcomes(run, policy, env))
    ensures v == Judge(v.findings, policy, env)
    ensures v.score == Score(v.findings) && v.reason == Reason(v.findings)
    ensures v.blocked <==> ShouldBlock(v.findings, policy.blockOn)
    ensures v.report.Some? && HtmlReport.Serialized(v, v.report.value.data)
  {
    Judge(Gather(Outcomes(run, policy, env)), policy, env)
  }

  /** `evaluate` runs the checkers in its fixed order: tool firewall,
      poisoning (with the policy and no override phrases), jailbreak, leaks,
      drift (with the policy's thresholds) and hallucination, and the verdict's
      findings are theirs, concatenated; only the poisoning and leak checkers
      can raise, each leaving its internal error in its place. */
  lemma EvaluateFindings(run: RunInput, policy: Policy, env: Env)
    ensures Evaluate(run, policy, env).findings ==
              ToolFirewall.Run(run, policy)
              + RunChecker("sentrykit.checkers.poisoning", Poisoning.Run(run, Some(policy), None, env.urls))
              + Jailbreak.Run(run)
              + RunChecker("sentrykit.checkers.leaks", env.leaks(run))
              + Drift.Run(run, policy.minPayThreshold, policy.treatMetroAsMinor, policy.minCompanySize, env.drift)
              + Hallucination.Run(run, env.claims, env.finders)
  {
    GatherSix(Outcomes(run, policy, env));
  }

  /** A leak checker that raises shows up as its internal error among the
      gathered findings (the verdict's findings, by `Evaluate`'s contract), as
      the engine's own test expects of a failing checker. */
  lemma LeaksFailureReported(run: RunInput, policy: Policy, env: Env)
    requires env.leaks(run).Failure?
    ensures InternalError("sentrykit.checkers.leaks", env.leaks(run).error) in Gather(Outcomes(run, policy, env))
  {
    assert Outcomes(run, policy, env)[3] == LeaksOutcome(run, env);
    GatherKeepsFailure(Outcomes(run, policy, env), 3);
  }

  lemma HitInJailbreakRun(run: RunInput, i: int)
    requires 0 <= i < |Jailbreak.Phrases| && IsSubstring(Jailbreak.Phrases[i], Jailbreak.Blob(run))
    ensures Jailbreak.Hit(Jailbreak.Phrases[i]) in Jailbreak.Run(run)
  {
  }

  /** A jailbreak phrase in the goal shows up among the gathered findings. */
  lemma JailbreakFound(run: RunInput, policy: Policy, env: Env, i: int)
    requires 0 <= i < |Jailbreak.Phrases| && IsSubstring(Jailbreak.Phrases[i], Jailbreak.Blob(run))
    ensures Jailbreak.Hit(Jailbreak.Phrases[i]) in Gather(Outcomes(run, policy, env))
  {
    var hit := Jailbreak.Hit(Jailbreak.Phrases[i]);
    HitInJailbreakRun(run, i);
    assert Outcomes(run, policy, env)[2] == JailbreakOutcome(run);
    GatherKeepsFindings(Outcomes(run, policy, env), 2, hit);
  }

  /** A high finding whose kind `block_on` names blocks the verdict and
      scores at least ten tenths. */
  lemma KindBlocks(findings: seq<Finding>, policy: Policy, env: Env, f: Finding)
    requires f in findings && f.kind in policy.blockOn && f.severity == High
    ensures Judge(findings, policy, env).blocked
    ensures Judge(findings, policy, env).score >= 10
  {
    var j :| 0 <= j < |findings| && findings[j] == f;
    BlockOnKind(findings, policy.blockOn, j);
    HighScoresTen(findings, j);
  }

  /** A jailbreak phrase in the goal blocks the run when `block_on` names
      `jailbreak`, and adds at least a high finding's points. */
  lemma JailbreakBlocks(run: RunInput, policy: Policy, env: Env, i: int)
    requires 0 <= i < |Jailbreak.Phrases| && IsSubstring(Jailbreak.Phrases[i], Jailbreak.Blob(run))
    requires "jailbreak" in policy.blockOn
    ensures Evaluate(run, policy, env).blocked
    ensures Evaluate(run, policy, env).score >= 10
  {
    JailbreakFound(run, policy, env, i);
    KindBlocks(Gather(Outcomes(run, policy, env)), policy, env, Jailbreak.Hit(Jailbreak.Phrases[i]));
  }
}

=== FILE: extract.dfy ===
/** Deterministic text extraction (sentrykit/verify/extract.py): a limited CSS
    selector and a limited XPath expression pick elements of an HTML document,
    whose text a stack-based collector gathers. The HTML tokeniser is not
    modelled: a document arrives as the event sequence `html.parser` reports
    (character references already converted). */
module Extract {
  import opened Wrappers
  import opened Text
  import Filters

  datatype HtmlEvent =
    | StartTag(tag: string, attrs: seq<(string, Option<string>)>)
    | StartEndTag(tag: string, attrs: seq<(string, Option<string>)>)
    | Data(text: string)
    | EndTag(tag: string)

  /** `{name: (value or "") for name, value in attrs}`: a later attribute of
      the same name overrides an earlier one. */
  function AttrMap(attrs: seq<(string, Option<string>)>): (m: map<string, string>)
    ensures forall i :: 0 <= i < |attrs| ==> attrs[i].0 in m
    ensures forall k :: k in m ==> exists i :: 0 <= i < |attrs| && attrs[i].0 == k
    ensures |attrs| > 0 ==> m[attrs[|attrs| - 1].0] == attrs[|attrs| - 1].1.GetOr("")
    decreases |attrs|
  {
    if |attrs| == 0 then map[]
    else
      var init := attrs[..|attrs| - 1];
      var last := attrs[|attrs| - 1];
      var m := AttrMap(init);
      assert forall i :: 0 <= i < |init| ==> init[i] == attrs[i];
      m[last.0 := last.1.GetOr("")]
  }

  /** No attribute after the `i`-th has its name. */
  predicate LastWithName(attrs: seq<(string, Option<string>)>, i: int)
    requires 0 <= i < |attrs|
  {
    forall j :: i < j < |attrs| ==> attrs[j].0 != attrs[i].0
  }

  /** Every name maps to the value of the last attribute carrying it. */
  lemma {:induction false} AttrMapLast(attrs: seq<(string, Option<string>)>, i: int)
    requires 0 <= i < |attrs| && LastWithName(attrs, i)
    ensures AttrMap(attrs)[attrs[i].0] == attrs[i].1.GetOr("")
    decreases |attrs|
  {
    if i < |attrs| - 1 {
      var init := attrs[..|attrs| - 1];
      assert init[i] == attrs[i];
      assert attrs[i].0 != attrs[|attrs| - 1].0;
      assert LastWithName(init, i);
      AttrMapLast(init, i);
    }
  }

  /** `attrs.get(name, "")`. */
  function Lookup(attrs: map<string, string>, name: string): string {
    if name in attrs then attrs[name] else ""
  }

  /** A compiled selector: the CSS matcher's tag, id and classes, or the
      XPath matcher's tag and optional attribute test. */
  datatype Selector =
    | Css(tag: Option<string>, id: Option<string>, classes: set<string>)
    | XPath(name: string, attr: Option<(string, string)>)

  /** The lower-cased words of a `class` attribute. */
  function ClassSet(cls: string): (r: set<string>)
    ensures forall w :: w in Words(cls) ==> Lower(w) in r
    ensures forall x :: x in r ==> exists w :: w in Words(cls) && x == Lower(w)
  {
    set w | w in Words(cls) :: Lower(w)
  }

  /** The matcher a selector compiles to, with the early returns of
      `_css_matcher` and `_xpath_matcher`. */
  predicate Matches(sel: Selector, tagName: string, attrs: map<string, string>) {
    match sel
    case Css(tag, id, classes) =>
      if tag.Some? && Lower(tagName) != tag.value then false
      else if id.Some? && Lower(Lookup(attrs, "id")) != id.value then false
      else if classes != {} && !(classes <= ClassSet(Lookup(attrs, "class"))) then false
      else true
    case XPath(name, attr) =>
      if Lower(tagName) != name then false
      else if attr.Some? then Lookup(attrs, attr.value.0) == attr.value.1
      else true
  }

  lemma LowerUpperChar(c: char)
    ensures LowerChar(UpperChar(c)) == LowerChar(c)
  {
  }

  /** Tag names are compared without regard to case. */
  lemma MatchIgnoresTagCase(sel: Selector, tagName: string, attrs: map<string, string>)
    ensures Matches(sel, Upper(tagName), attrs) == Matches(sel, tagName, attrs)
  {
    assert Lower(Upper(tagName)) == Lower(tagName) by {
      forall i | 0 <= i < |tagName| ensures Lower(Upper(tagName))[i] == Lower(tagName)[i] {
        LowerUpperChar(tagName[i]);
      }
    }
  }

  // ---------------------------------------------------------------- CSS

  /** The character class `[a-zA-Z0-9_-]`. */
  predicate IsWordChar(c: char) {
    ('a' <= c <= 'z') || ('A' <= c <= 'Z') || ('0' <= c <= '9') || c == '_' || c == '-'
  }

  predicate AllWord(s: string) {
    forall i :: 0 <= i < |s| ==> IsWordChar(s[i])
  }

  /** The longest prefix of word characters (`[a-zA-Z0-9_-]+` is greedy). */
  function WordRun(s: string): (w: string)
    ensures w <= s && AllWord(w)
    ensures |w| == |s| || !IsWordChar(s[|w|])
  {
    if |s| == 0 || !IsWordChar(s[0]) then [] else [s[0]] + WordRun(s[1..])
  }

  datatype Token = Token(prefix: Option<char>, value: string)

  /** `re.findall(r"([#.])?([a-zA-Z0-9_-]+)", s)`: scanning left to right, a
      `#` or `.` directly before a word becomes its prefix, every other
      character outside a word is skipped. */
  function CssTokens(s: string): (r: seq<Token>)
    ensures forall i :: 0 <= i < |r| ==> |r[i].value| > 0 && AllWord(r[i].value)
    ensures forall i :: 0 <= i < |r| ==> r[i].prefix in {None, Some('#'), Some('.')}
    ensures r == [] <==> forall i :: 0 <= i < |s| ==> !IsWordChar(s[i])
    decreases |s|
  {
    if |s| == 0 then []
    else if (s[0] == '#' || s[0] == '.') && |s| > 1 && IsWordChar(s[1]) then
      var w := WordRun(s[1..]);
      [Token(Some(s[0]), w)] + CssTokens(s[1 + |w|..])
    else if IsWordChar(s[0]) then
      var w := WordRun(s);
      [Token(None, w)] + CssTokens(s[|w|..])
    else
      var r := CssTokens(s[1..]);
      assert forall i :: 1 <= i < |s| ==> s[i] == s[1..][i - 1];
      r
  }

  datatype CssParts = CssParts(tag: Option<string>, id: Option<string>, classes: set<string>)

  /** One pass of the token loop of `_css_matcher`. */
  function Absorb(p: CssParts, t: Token): CssParts {
    if t.prefix.None? && p.tag.None? then p.(tag := Some(Lower(t.value)))
    else if t.prefix == Some('.') then p.(classes := p.classes + {Lower(t.value)})
    else if t.prefix == Some('#') then p.(id := Some(Lower(t.value)))
    else if t.prefix.None? then p.(classes := p.classes + {Lower(t.value)})
    else p
  }

  /** The token loop: the first unprefixed word is the tag, later unprefixed
      words and `.` words are classes, the last `#` word is the id. */
  function AbsorbAll(p: CssParts, tokens: seq<Token>): (r: CssParts)
    ensures p.tag.Some? ==> r.tag == p.tag
    ensures r.tag.Some? <==> p.tag.Some? || exists i :: 0 <= i < |tokens| && tokens[i].prefix.None?
    ensures p.classes <= r.classes
    ensures forall i :: 0 <= i < |tokens| && tokens[i].prefix == Some('.') ==> Lower(tokens[i].value) in r.classes
    ensures (forall i :: 0 <= i < |tokens| ==> tokens[i].prefix != Some('#')) ==> r.id == p.id
    decreases |tokens|
  {
    if |tokens| == 0 then p
    else
      var r := AbsorbAll(Absorb(p, tokens[0]), tokens[1..]);
      assert forall i :: 1 <= i < |tokens| ==> tokens[i] == tokens[1..][i - 1];
      r
  }

  /** The index of the first unprefixed token, or the length when there is none. */
  function FirstBare(tokens: seq<Token>): (k: nat)
    ensures k <= |tokens|
    ensures forall j :: 0 <= j < k ==> tokens[j].prefix.Some?
    ensures k < |tokens| ==> tokens[k].prefix.None?
  {
    if |tokens| == 0 then 0
    else if tokens[0].prefix.None? then 0
    else
      var k := FirstBare(tokens[1..]);
      assert forall j :: 1 <= j < |tokens| ==> tokens[j] == tokens[1..][j - 1];
      1 + k
  }

  /** Whether the `i`-th token adds a class: a `.` word, or an unprefixed word
      that does not become the tag (`tagged`: a tag was already set). */
  predicate ClassToken(tagged: bool, tokens: seq<Token>, i: int)
    requires 0 <= i < |tokens|
  {
    tokens[i].prefix == Some('.') || (tokens[i].prefix.None? && (tagged || i != FirstBare(tokens)))
  }

  /** No `#` word after the `i`-th token. */
  predicate LastId(tokens: seq<Token>, i: int)
    requires 0 <= i < |tokens|
  {
    forall j :: i < j < |tokens| ==> tokens[j].prefix != Some('#')
  }

  /** After the first token is absorbed, the class tokens of the rest are
      those of the whole list, shifted by one. */
  lemma ClassTokenShift(p: CssParts, tokens: seq<Token>, i: int)
    requires 1 <= i < |tokens|
    ensures ClassToken(p.tag.Some?, tokens, i) == ClassToken(Absorb(p, tokens[0]).tag.Some?, tokens[1..], i - 1)
  {
    assert tokens[1..][i - 1] == tokens[i];
  }

  /** The first unprefixed word becomes the tag when none was set. */
  lemma {:induction false} AbsorbAllTag(p: CssParts, tokens: seq<Token>)
    requires p.tag.None? && FirstBare(tokens) < |tokens|
    ensures AbsorbAll(p, tokens).tag == Some(Lower(tokens[FirstBare(tokens)].value))
    decreases |tokens|
  {
    if tokens[0].prefix.Some? {
      assert FirstBare(tokens) == 1 + FirstBare(tokens[1..]);
      AbsorbAllTag(Absorb(p, tokens[0]), tokens[1..]);
    }
  }

  /** The class tokens give exactly the classes the loop adds. */
  lemma {:induction false} AbsorbAllClasses(p: CssParts, tokens: seq<Token>)
    ensures var r := AbsorbAll(p, tokens);
            && (forall i :: 0 <= i < |tokens| && ClassToken(p.tag.Some?, tokens, i) ==> Lower(tokens[i].value) in r.classes)
            && (forall c :: c in r.classes ==>
                  (c in p.classes || exists i :: 0 <= i < |tokens| && ClassToken(p.tag.Some?, tokens, i) && c == Lower(tokens[i].value)))
    decreases |tokens|
  {
    if |tokens| > 0 {
      var q := Absorb(p, tokens[0]);
      var rest := tokens[1..];
      var r := AbsorbAll(p, tokens);
      assert r == AbsorbAll(q, rest);
      AbsorbAllClasses(q, rest);
      forall i | 1 <= i < |tokens|
        ensures ClassToken(p.tag.Some?, tokens, i) == ClassToken(q.tag.Some?, rest, i - 1) && rest[i - 1] == tokens[i]
      {
        ClassTokenShift(p, tokens, i);
      }
      forall c | c in r.classes && c !in p.classes
        ensures exists i :: 0 <= i < |tokens| && ClassToken(p.tag.Some?, tokens, i) && c == Lower(tokens[i].value)
      {
        if c in q.classes {
          assert ClassToken(p.tag.Some?, tokens, 0) && c == Lower(tokens[0].value);
        } else {
          var i :| 0 <= i < |rest| && ClassToken(q.tag.Some?, rest, i) && c == Lower(rest[i].value);
          assert ClassToken(p.tag.Some?, tokens, i + 1);
        }
      }
    }
  }

  /** The last `#` word gives the id. */
  lemma {:induction false} AbsorbAllId(p: CssParts, tokens: seq<Token>, i: int)
    requires 0 <= i < |tokens| && tokens[i].prefix == Some('#') && LastId(tokens, i)
    ensures AbsorbAll(p, tokens).id == Some(Lower(tokens[i].value))
    decreases |tokens|
  {
    var rest := tokens[1..];
    if i == 0 {
      assert forall j :: 0 <= j < |rest| ==> rest[j].prefix != Some('#');
    } else {
      assert LastId(rest, i - 1);
      AbsorbAllId(Absorb(p, tokens[0]), rest, i - 1);
    }
  }

  /** `_css_matcher(selector)`. When the stripped selector holds no word at all
      but the selector is not empty, the whole (unstripped) selector,
      lower-cased, is the tag. */
  function CssSelector(selector: string): (r: Selector)
    ensures r.Css?
    ensures var tokens := CssTokens(Strip(selector));
            (tokens == [] && selector != "" ==> r.tag == Some(Lower(selector)))
            && (tokens == [] && selector == "" ==> r == Css(None, None, {}))
            && (tokens != [] && tokens[0].prefix.None? ==> r.tag == Some(Lower(tokens[0].value)))
            && (forall i :: 0 <= i < |tokens| && tokens[i].prefix == Some('.') ==> Lower(tokens[i].value) in r.classes)
  {
    var tokens := CssTokens(Strip(selector));
    var p := AbsorbAll(CssParts(None, None, {}), tokens);
    assert tokens != [] && tokens[0].prefix.None? ==> p.tag == Some(Lower(tokens[0].value)) by {
      if tokens != [] && tokens[0].prefix.None? {
        assert AbsorbAll(CssParts(None, None, {}), tokens)
            == AbsorbAll(Absorb(CssParts(None, None, {}), tokens[0]), tokens[1..]);
      }
    }
    var tag := if tokens == [] && selector != "" then Some(Lower(selector)) else p.tag;
    Css(tag, p.id, p.classes)
  }

  /** The compiled selector's tag: the first unprefixed word, and none when
      there are words but none unprefixed. */
  lemma CssSelectorTag(selector: string)
    ensures var tokens := CssTokens(Strip(selector));
            && (FirstBare(tokens) < |tokens| ==> CssSelector(selector).tag == Some(Lower(tokens[FirstBare(tokens)].value)))
            && (tokens != [] && FirstBare(tokens) == |tokens| ==> CssSelector(selector).tag.None?)
  {
    var tokens := CssTokens(Strip(selector));
    if FirstBare(tokens) < |tokens| {
      AbsorbAllTag(CssParts(None, None, {}), tokens);
    }
  }

  /** The compiled selector's classes: exactly those of the class tokens. */
  lemma CssSelectorClasses(selector: string)
    ensures var tokens := CssTokens(Strip(selector));
            && (forall i :: 0 <= i < |tokens| && ClassToken(false, tokens, i) ==> Lower(tokens[i].value) in CssSelector(selector).classes)
            && (forall c :: c in CssSelector(selector).classes ==>
                  exists i :: 0 <= i < |tokens| && ClassToken(false, tokens, i) && c == Lower(tokens[i].value))
  {
    var tokens := CssTokens(Strip(selector));
    var p := AbsorbAll(CssParts(None, None, {}), tokens);
    AbsorbAllClasses(CssParts(None, None, {}), tokens);
    assert CssSelector(selector).classes == p.classes;
  }

  /** The compiled selector's id: the last `#` word, and none without one. */
  lemma CssSelectorId(selector: string)
    ensures var tokens := CssTokens(Strip(selector));
            && (forall i :: 0 <= i < |tokens| && tokens[i].prefix == Some('#') && LastId(tokens, i) ==>
                  CssSelector(selector).id == Some(Lower(tokens[i].value)))
            && ((forall i :: 0 <= i < |tokens| ==> tokens[i].prefix != Some('#')) ==> CssSelector(selector).id.None?)
  {
    var tokens := CssTokens(Strip(selector));
    forall i | 0 <= i < |tokens| && tokens[i].prefix == Some('#') && LastId(tokens, i)
      ensures CssSelector(selector).id == Some(Lower(tokens[i].value))
    {
      AbsorbAllId(CssParts(None, None, {}), tokens, i);
    }
  }

  /** The selector `p.note` compiles to tag `p` and class `note`. */
  lemma CssTagAndClass()
    ensures CssSelector("p.note") == Css(Some("p"), None, {"note"})
  {
    var s := "p.note";
    assert Strip(s) == s by { StripTrimmed(s); }
    TokensOfPNote();
    var tokens := [Token(None, "p"), Token(Some('.'), "note")];
    AbsorbPNote(tokens);
  }

  lemma TokensOfDotNote()
    ensures CssTokens(".note") == [Token(Some('.'), "note")]
  {
    var dotted := ".note";
    WordRunStops("note", "");
    assert dotted[1..] == "note" + "";
    assert dotted[1 + 4..] == [];
  }

  lemma TokensOfPNote()
    ensures CssTokens("p.note") == [Token(None, "p"), Token(Some('.'), "note")]
  {
    var s := "p.note";
    TokensOfDotNote();
    assert s == "p" + ".note";
    WordRunStops("p", ".note");
    assert s[1..] == ".note";
  }

  lemma AbsorbPNote(tokens: seq<Token>)
    requires tokens == [Token(None, "p"), Token(Some('.'), "note")]
    ensures AbsorbAll(CssParts(None, None, {}), tokens) == CssParts(Some("p"), None, {"note"})
  {
    assert Lower("note") == "note" && Lower("p") == "p";
    var p0 := CssParts(None, None, {});
    var p1 := Absorb(p0, tokens[0]);
    assert p1 == CssParts(Some("p"), None, {});
    var p2 := Absorb(p1, tokens[1]);
    assert p2 == CssParts(Some("p"), None, {"note"});
    assert tokens[1..][1..] == [];
    assert AbsorbAll(p1, tokens[1..]) == AbsorbAll(p2, []);
  }

  // -------------------------------------------------------------- XPath

  /** The text up to the first `'`. */
  function BeforeQuote(s: string): (r: string)
    ensures r <= s && '\'' !in r
    ensures |r| == |s| || s[|r|] == '\''
  {
    if |s| == 0 || s[0] == '\'' then [] else [s[0]] + BeforeQuote(s[1..])
  }

  /** The attribute test `[@name='value']` and what follows it. */
  function ParseAttrTest(tail: string): (r: Option<(string, string)>)
    ensures r.Some? ==> |r.value.0| > 0 && AllWord(r.value.0) && '\'' !in r.value.1
  {
    if !("[@" <= tail) then None
    else
      var t := tail[2..];
      var name := WordRun(t);
      var t2 := t[|name|..];
      if name == [] || !("='" <= t2) then None
      else
        var t3 := t2[2..];
        var value := BeforeQuote(t3);
        if t3[|value|..] == "']" then Some((name, value)) else None
  }

  /** `_xpath_matcher`: the stripped expression must be exactly `//tag` or
      `//tag[@attr='value']`; the tag is compared lower-cased. */
  function ParseXPath(expression: string): (r: Result<Selector, string>)
    ensures r.Failure? ==> r.error == "Unsupported XPath expression: " + expression
    ensures r.Success? ==> r.value.XPath? && |r.value.name| > 0 && IsLowerCase(r.value.name)
  {
    match ParseStripped(Strip(expression))
    case None => Failure("Unsupported XPath expression: " + expression)
    case Some(parsed) =>
      var (tag, attr) := parsed;
      LowerIsLowerCase(tag);
      Success(XPath(Lower(tag), attr))
  }

  /** The shape check on the stripped expression: its tag and attribute test. */
  function ParseStripped(xp: string): (r: Option<(string, Option<(string, string)>)>)
    ensures r.Some? ==> |r.value.0| > 0
  {
    if !("//" <= xp) then None
    else
      var rest := xp[2..];
      var tag := WordRun(rest);
      var tail := rest[|tag|..];
      if tag == [] then None
      else if tail == [] then Some((tag, None))
      else
        match ParseAttrTest(tail)
        case None => None
        case Some(a) => Some((tag, Some(a)))
  }

  /** The text of an XPath expression of the supported shape. */
  function PrintXPath(tag: string, attr: Option<(string, string)>): string {
    "//" + tag + PrintAttr(attr)
  }

  lemma {:induction false} WordRunStops(w: string, rest: string)
    requires AllWord(w)
    requires rest == [] || !IsWordChar(rest[0])
    ensures WordRun(w + rest) == w
    decreases |w|
  {
    if |w| > 0 {
      assert (w + rest)[1..] == w[1..] + rest;
      WordRunStops(w[1..], rest);
    } else {
      assert w + rest == rest;
    }
  }

  lemma {:induction false} BeforeQuoteStops(v: string, rest: string)
    requires '\'' !in v && |rest| > 0 && rest[0] == '\''
    ensures BeforeQuote(v + rest) == v
    decreases |v|
  {
    if |v| > 0 {
      assert (v + rest)[1..] == v[1..] + rest;
      BeforeQuoteStops(v[1..], rest);
    } else {
      assert v + rest == rest;
    }
  }

  function PrintAttr(attr: Option<(string, string)>): string {
    if attr.Some? then "[@" + attr.value.0 + "='" + attr.value.1 + "']" else ""
  }

  lemma AttrTestRoundTrip(name: string, value: string)
    requires |name| > 0 && AllWord(name) && '\'' !in value
    ensures ParseAttrTest(PrintAttr(Some((name, value)))) == Some((name, value))
  {
    var close := "']";
    var rest := value + close;
    var after := "='" + rest;
    var tail := "[@" + (name + after);
    Filters.AppendAssoc("[@", name, after);
    Filters.AppendAssoc("[@" + name, "='", rest);
    Filters.AppendAssoc("[@" + name + "='", value, close);
    assert PrintAttr(Some((name, value))) == tail;
    Filters.PrefixAppend("[@", name + after);
    Filters.PrefixAppend(name, after);
    WordRunStops(name, after);
    Filters.PrefixAppend("='", rest);
    Filters.PrefixAppend(value, close);
    BeforeQuoteStops(value, close);
  }

  /** The shape check reads back the tag and attribute test it was printed from. */
  lemma ParseStrippedRoundTrip(tag: string, attr: Option<(string, string)>)
    requires |tag| > 0 && AllWord(tag)
    requires attr.Some? ==> |attr.value.0| > 0 && AllWord(attr.value.0) && '\'' !in attr.value.1
    ensures ParseStripped("//" + (tag + PrintAttr(attr))) == Some((tag, attr))
  {
    var suffix := PrintAttr(attr);
    var s := "//" + (tag + suffix);
    assert "//" <= s;
    assert s[2..] == tag + suffix;
    assert suffix == [] || suffix[0] == '[';
    WordRunStops(tag, suffix);
    assert (tag + suffix)[|tag|..] == suffix;
    if attr.Some? {
      AttrTestRoundTrip(attr.value.0, attr.value.1);
    }
  }

  /** A printed expression has no outer whitespace. */
  lemma PrintXPathTrimmed(tag: string, attr: Option<(string, string)>)
    requires |tag| > 0 && AllWord(tag)
    ensures Strip(PrintXPath(tag, attr)) == "//" + (tag + PrintAttr(attr))
  {
    var s := PrintXPath(tag, attr);
    assert s == "//" + (tag + PrintAttr(attr));
    assert s[|s| - 1] == if attr.Some? then ']' else tag[|tag| - 1];
    StripTrimmed(s);
  }

  /** Printing a supported expression and parsing it back gives the lower-cased
      tag and the same attribute test. */
  lemma XPathRoundTrip(tag: string, attr: Option<(string, string)>)
    requires |tag| > 0 && AllWord(tag)
    requires attr.Some? ==> |attr.value.0| > 0 && AllWord(attr.value.0) && '\'' !in attr.value.1
    ensures ParseXPath(PrintXPath(tag, attr)) == Success(XPath(Lower(tag), attr))
  {
    PrintXPathTrimmed(tag, attr);
    ParseStrippedRoundTrip(tag, attr);
  }

  // ---------------------------------------------------------- Collector

  /** An open element: whether the matcher accepted it, and its text parts. */
  datatype Node = Node(matched: bool, parts: seq<string>)

  datatype Collector = Collector(stack: seq<Node>, matches: seq<string>)

  const Fresh: Collector := Collector([], [])

  /** A finished text: non-empty, with no surrounding whitespace. */
  predicate Clean(m: string) {
    m != [] && !IsSpace(m[0]) && !IsSpace(m[|m| - 1])
  }

  predicate AllClean(ms: seq<string>) {
    forall i :: 0 <= i < |ms| ==> Clean(ms[i])
  }

  predicate AllBlank(parts: seq<string>) {
    forall i :: 0 <= i < |parts| ==> IsBlank(parts[i])
  }

  lemma AllBlankCons(parts: seq<string>)
    requires |parts| > 0
    ensures AllBlank(parts) <==> IsBlank(parts[0]) && AllBlank(parts[1..])
  {
    assert forall i :: 1 <= i < |parts| ==> parts[i] == parts[1..][i - 1];
  }

  lemma AllCleanCons(m: string, ms: seq<string>)
    requires Clean(m) && AllClean(ms)
    ensures AllClean([m] + ms)
  {
    assert forall i :: 1 <= i < |[m] + ms| ==> ([m] + ms)[i] == ms[i - 1];
  }

  /** The stripped parts that are not blank, in order. */
  function NonBlank(parts: seq<string>): (r: seq<string>)
    ensures |r| <= |parts|
    ensures AllClean(r)
    ensures r == [] <==> forall i :: 0 <= i < |parts| ==> IsBlank(parts[i])
  {
    if |parts| == 0 then []
    else
      var p := Strip(parts[0]);
      var rest := NonBlank(parts[1..]);
      StripEmptyIffBlank(parts[0]);
      AllBlankCons(parts);
      if p == [] then rest
      else
        AllCleanCons(p, rest);
        [p] + rest
  }

  /** Joining clean texts with a space gives a clean text. */
  lemma {:induction false} JoinClean(parts: seq<string>)
    requires parts != [] && AllClean(parts)
    ensures Clean(Join(" ", parts))
  {
    if |parts| > 1 {
      var rest := Join(" ", parts[1..]);
      assert AllClean(parts[1..]) by {
        assert forall i :: 0 <= i < |parts[1..]| ==> parts[1..][i] == parts[i + 1];
      }
      JoinClean(parts[1..]);
      var r := parts[0] + " " + rest;
      assert Join(" ", parts) == r;
      assert r[0] == parts[0][0];
      assert r[|r| - 1] == rest[|rest| - 1];
    }
  }

  /** `" ".join(part.strip() for part in parts if part.strip())`: empty exactly
      when every part is blank, clean otherwise. */
  function NodeText(parts: seq<string>): (r: string)
    ensures r == [] <==> forall i :: 0 <= i < |parts| ==> IsBlank(parts[i])
    ensures r != [] ==> Clean(r)
  {
    var xs := NonBlank(parts);
    if xs == [] then []
    else
      JoinClean(xs);
      Join(" ", xs)
  }

  /** `handle_starttag`: push a node carrying the matcher's verdict. */
  function Start(c: Collector, sel: Selector, tag: string, attrs: seq<(string, Option<string>)>): (r: Collector)
    ensures r.matches == c.matches && |r.stack| == |c.stack| + 1 && r.stack[..|c.stack|] == c.stack
    ensures r.stack[|c.stack|] == Node(Matches(sel, tag, AttrMap(attrs)), [])
  {
    Collector(c.stack + [Node(Matches(sel, tag, AttrMap(attrs)), [])], c.matches)
  }

  /** Appends a text part to the innermost open node. */
  function AddToTop(stack: seq<Node>, text: string): (r: seq<Node>)
    requires stack != []
    ensures |r| == |stack| && r[..|r| - 1] == stack[..|stack| - 1]
    ensures r[|r| - 1] == stack[|stack| - 1].(parts := stack[|stack| - 1].parts + [text])
  {
    var top := stack[|stack| - 1];
    stack[..|stack| - 1] + [top.(parts := top.parts + [text])]
  }

  /** `handle_data`: text outside every element is dropped. */
  function AddData(c: Collector, text: string): (r: Collector)
    ensures c.stack == [] ==> r == c
    ensures r.matches == c.matches && |r.stack| == |c.stack|
  {
    if c.stack == [] then c else Collector(AddToTop(c.stack, text), c.matches)
  }

  /** `handle_endtag`: the end tag's name is not consulted. The innermost node
      is popped; its text is recorded when it matched, and handed to its
      parent. */
  function End(c: Collector): (r: Collector)
    ensures c.stack == [] ==> r == c
    ensures c.stack != [] ==> |r.stack| == |c.stack| - 1
    ensures |c.matches| <= |r.matches| <= |c.matches| + 1 && r.matches[..|c.matches|] == c.matches
    ensures AllClean(c.matches) ==> AllClean(r.matches)
  {
    if c.stack == [] then c
    else
      var node := c.stack[|c.stack| - 1];
      var rest := c.stack[..|c.stack| - 1];
      var text := NodeText(node.parts);
      var matches := Record(c.matches, node.matched, text);
      var stack := if rest != [] && text != [] then AddToTop(rest, text) else rest;
      Collector(stack, matches)
  }

  /** A matched node's text, stripped, joins the matches when it is not empty. */
  function Record(matches: seq<string>, matched: bool, text: string): (r: seq<string>)
    requires text == [] || Clean(text)
    ensures |matches| <= |r| <= |matches| + 1 && r[..|matches|] == matches
    ensures AllClean(matches) ==> AllClean(r)
  {
    if matched && text != [] then
      StripTrimmed(text);
      matches + [Strip(text)]
    else matches
  }

  /** One parser callback. A self-closing tag is a start followed by an end. */
  function Step(c: Collector, sel: Selector, e: HtmlEvent): (r: Collector)
    ensures |c.matches| <= |r.matches| && r.matches[..|c.matches|] == c.matches
    ensures AllClean(c.matches) ==> AllClean(r.matches)
  {
    match e
    case StartTag(tag, attrs) => Start(c, sel, tag, attrs)
    case StartEndTag(tag, attrs) => End(Start(c, sel, tag, attrs))
    case Data(text) => AddData(c, text)
    case EndTag(_) => End(c)
  }

  /** `feed` then `close`: the events in order. Elements still open at the end
      never record their text. */
  function Feed(c: Collector, sel: Selector, events: seq<HtmlEvent>): (r: Collector)
    ensures AllClean(c.matches) ==> AllClean(r.matches)
    ensures |c.matches| <= |r.matches| && r.matches[..|c.matches|] == c.matches
    decreases |events|
  {
    if |events| == 0 then c
    else
      var next := Step(c, sel, events[0]);
      var r := Feed(next, sel, events[1..]);
      assert r.matches[..|c.matches|] == r.matches[..|next.matches|][..|c.matches|];
      r
  }

  /** A self-closing element has no text, so it changes nothing. */
  lemma SelfClosingChangesNothing(c: Collector, sel: Selector, tag: string, attrs: seq<(string, Option<string>)>)
    ensures Step(c, sel, StartEndTag(tag, attrs)) == c
  {
    var s := Start(c, sel, tag, attrs);
    assert s.stack[..|s.stack| - 1] == c.stack;
    assert NodeText([]) == [];
  }

  /** An end tag with no open element is ignored. */
  lemma EndOnEmptyStack(c: Collector, sel: Selector, tag: string)
    requires c.stack == []
    ensures Step(c, sel, EndTag(tag)) == c
  {
  }

  /** A matching element whose only content is `text` records the stripped
      text, provided it is not blank. */
  lemma MatchedElementText(sel: Selector, tag: string, attrs: seq<(string, Option<string>)>, text: string)
    requires Matches(sel, tag, AttrMap(attrs)) && !IsBlank(text)
    ensures Feed(Fresh, sel, [StartTag(tag, attrs), Data(text), EndTag(tag)]).matches == [Strip(text)]
  {
    var es := [StartTag(tag, attrs), Data(text), EndTag(tag)];
    var c2 := Collector([Node(true, [text])], []);
    OpenWithText(sel, tag, attrs, text);
    assert es[1..][1..] == [EndTag(tag)];
    assert Feed(Fresh, sel, es) == Feed(c2, sel, [EndTag(tag)]);
    ClosingRecords(c2, sel, tag, text);
  }

  lemma OpenWithText(sel: Selector, tag: string, attrs: seq<(string, Option<string>)>, text: string)
    requires Matches(sel, tag, AttrMap(attrs))
    ensures Step(Step(Fresh, sel, StartTag(tag, attrs)), sel, Data(text)) == Collector([Node(true, [text])], [])
  {
    var c1 := Step(Fresh, sel, StartTag(tag, attrs));
    assert c1 == Collector([Node(true, [])], []);
    var stack := AddToTop(c1.stack, text);
    assert |stack| == 1 && stack[0] == Node(true, [] + [text]);
    assert [] + [text] == [text];
  }

  /** The text of a node with one non-blank part is that part, stripped. */
  lemma NodeTextOne(text: string)
    requires !IsBlank(text)
    ensures NodeText([text]) == Strip(text)
  {
    StripEmptyIffBlank(text);
    assert NonBlank([text]) == [Strip(text)];
    assert Join(" ", [Strip(text)]) == Strip(text);
  }

  /** Feeding one event is taking one step. */
  lemma FeedOne(c: Collector, sel: Selector, e: HtmlEvent)
    ensures Feed(c, sel, [e]) == Step(c, sel, e)
  {
    assert [e][1..] == [];
  }

  /** Closing the only open element, a matched one with text, records its text. */
  lemma EndOfMatchedRoot(parts: seq<string>)
    requires NodeText(parts) != []
    ensures End(Collector([Node(true, parts)], [])).matches == [NodeText(parts)]
  {
    var text := NodeText(parts);
    StripTrimmed(text);
    assert [] + [Strip(text)] == [text];
  }

  /** An end tag closes the innermost open element, whatever the tag. */
  lemma EndStep(c: Collector, sel: Selector, tag: string)
    ensures Step(c, sel, EndTag(tag)) == End(c)
  {
  }

  /** Closing a lone matched element that holds one non-blank text records
      that text, stripped. */
  lemma ClosingMatchedRoot(text: string)
    requires !IsBlank(text)
    ensures End(Collector([Node(true, [text])], [])).matches == [Strip(text)]
  {
    NodeTextOne(text);
    StripEmptyIffBlank(text);
    EndOfMatchedRoot([text]);
  }

  lemma ClosingRecords(c: Collector, sel: Selector, tag: string, text: string)
    requires c == Collector([Node(true, [text])], []) && !IsBlank(text)
    ensures Feed(c, sel, [EndTag(tag)]).matches == [Strip(text)]
  {
    FeedOne(c, sel, EndTag(tag));
    EndStep(c, sel, tag);
    ClosingMatchedRoot(text);
  }

  // ------------------------------------------------------------ collect

  /** `_collect` after the parser has run: the matched texts joined by spaces. */
  function Collect(matches: seq<string>, mustInclude: Option<string>): (r: Result<string, string>)
    ensures matches == [] <==> r == Failure("No elements matched selector")
    ensures r.Success? ==> r.value != [] && !IsSpace(r.value[0]) && !IsSpace(r.value[|r.value| - 1])
    ensures r.Success? && mustInclude.Some? && mustInclude.value != [] ==>
              IsSubstring(Lower(mustInclude.value), Lower(r.value))
    ensures r.Failure? ==> r.error in {"No elements matched selector", "Matched elements contained no text",
                                       "Required text missing from extraction result"}
    ensures r.Success? ==> r.value == Strip(Join(" ", matches))
    ensures matches != [] && Strip(Join(" ", matches)) == [] ==> r == Failure("Matched elements contained no text")
    ensures matches != [] && Strip(Join(" ", matches)) != [] && mustInclude.Some? && mustInclude.value != [] ==>
              (r == Failure("Required text missing from extraction result") <==>
               !IsSubstring(Lower(mustInclude.value), Lower(Strip(Join(" ", matches)))))
  {
    if matches == [] then Failure("No elements matched selector")
    else
      var text := Strip(Join(" ", matches));
      if text == [] then Failure("Matched elements contained no text")
      else if mustInclude.Some? && mustInclude.value != [] && !IsSubstring(Lower(mustInclude.value), Lower(text)) then
        Failure("Required text missing from extraction result")
      else Success(text)
  }

  /** Every recorded match has text, so the "no text" error cannot arise from
      what the collector produces. */
  lemma NoTextErrorUnreachable(matches: seq<string>, mustInclude: Option<string>)
    requires AllClean(matches)
    ensures Collect(matches, mustInclude) != Failure("Matched elements contained no text")
  {
    if matches != [] {
      var j := Join(" ", matches);
      assert j[0] == matches[0][0] by {
        if |matches| > 1 {
          assert j == matches[0] + (" " + Join(" ", matches[1..]));
        }
      }
      StripEmptyIffBlank(j);
    }
  }

  /** `extract_css`, given the document's event sequence. */
  function ExtractCss(events: seq<HtmlEvent>, selector: string, mustInclude: Option<string>): (r: Result<string, string>)
    ensures r != Failure("Matched elements contained no text")
    ensures var ms := Feed(Fresh, CssSelector(selector), events).matches;
            && (r == Failure("No elements matched selector") <==> ms == [])
            && (r.Success? ==> r.value == Join(" ", ms))
            && (ms != [] && (mustInclude.None? || mustInclude == Some([])) ==> r == Success(Join(" ", ms)))
  {
    var c := Feed(Fresh, CssSelector(selector), events);
    NoTextErrorUnreachable(c.matches, mustInclude);
    JoinOfMatches(c.matches);
    Collect(c.matches, mustInclude)
  }

  /** `extract_xpath`, given the document's event sequence. */
  function ExtractXPath(events: seq<HtmlEvent>, expression: string, mustInclude: Option<string>)
    : (r: Result<string, string>)
    ensures r != Failure("Matched elements contained no text")
    ensures ParseXPath(expression).Failure? ==> r == Failure("Unsupported XPath expression: " + expression)
    ensures ParseXPath(expression).Success? ==>
              var ms := Feed(Fresh, ParseXPath(expression).value, events).matches;
              && (r == Failure("No elements matched selector") <==> ms == [])
              && (r.Success? ==> r.value == Join(" ", ms))
              && (ms != [] && (mustInclude.None? || mustInclude == Some([])) ==> r == Success(Join(" ", ms)))
  {
    var parsed := ParseXPath(expression);
    if parsed.Failure? then
      assert parsed.error[0] == 'U';
      Failure(parsed.error)
    else
    var c := Feed(Fresh, parsed.value, events);
    NoTextErrorUnreachable(c.matches, mustInclude);
    JoinOfMatches(c.matches);
    Collect(c.matches, mustInclude)
  }

  /** Recorded matches joined by spaces need no further stripping. */
  lemma JoinOfMatches(matches: seq<string>)
    requires AllClean(matches)
    ensures matches != [] ==> Strip(Join(" ", matches)) == Join(" ", matches) && Join(" ", matches) != []
  {
    if matches != [] {
      JoinClean(matches);
      StripTrimmed(Join(" ", matches));
    }
  }

  /** A document whose only element matches the CSS selector and holds a
      non-blank text extracts that text, stripped. */
  lemma ExtractCssOneElement(selector: string, tag: string, attrs: seq<(string, Option<string>)>, text: string)
    requires Matches(CssSelector(selector), tag, AttrMap(attrs)) && !IsBlank(text)
    ensures ExtractCss([StartTag(tag, attrs), Data(text), EndTag(tag)], selector, None) == Success(Strip(text))
  {
    MatchedElementText(CssSelector(selector), tag, attrs, text);
  }

  // -------------------------------------------------------------- regex

  /** `re.sub(r"\s+", " ", s)`: every run of whitespace becomes one space. */
  function CollapseSpace(s: string): (r: string)
    ensures |r| <= |s|
    ensures s == [] <==> r == []
    ensures r != [] ==> (IsSpace(r[0]) <==> IsSpace(s[0]))
    ensures forall i :: 0 <= i < |r| && IsSpace(r[i]) ==> r[i] == ' '
    ensures forall i :: 0 <= i < |r| - 1 ==> !(IsSpace(r[i]) && IsSpace(r[i + 1]))
    decreases |s|
  {
    if |s| == 0 then []
    else if IsSpace(s[0]) then
      var t := TrimStart(s);
      var rest := CollapseSpace(t);
      var r := [' '] + rest;
      assert forall i :: 1 <= i < |r| ==> r[i] == rest[i - 1];
      r
    else
      var rest := CollapseSpace(s[1..]);
      var r := [s[0]] + rest;
      assert forall i :: 1 <= i < |r| ==> r[i] == rest[i - 1];
      r
  }

  predicate NotSpace(c: char) {
    !IsSpace(c)
  }

  /** The characters other than whitespace, in order. */
  function Visible(s: string): string {
    Filters.Filter(s, NotSpace)
  }

  lemma VisibleCons(c: char, rest: string)
    ensures Visible([c] + rest) == (if IsSpace(c) then [] else [c]) + Visible(rest)
  {
    assert ([c] + rest)[1..] == rest;
  }

  /** Collapsing whitespace keeps every other character, in order. */
  lemma {:induction false} CollapseSpaceVisible(s: string)
    ensures Visible(CollapseSpace(s)) == Visible(s)
    decreases |s|
  {
    if |s| > 0 {
      if IsSpace(s[0]) {
        var t := TrimStart(s);
        CollapseSpaceVisible(t);
        VisibleTrimStart(s);
        VisibleCons(' ', CollapseSpace(t));
      } else {
        CollapseSpaceVisible(s[1..]);
        VisibleCons(s[0], CollapseSpace(s[1..]));
        VisibleCons(s[0], s[1..]);
        assert [s[0]] + s[1..] == s;
      }
    }
  }

  /** Leading whitespace holds nothing visible. */
  lemma {:induction false} VisibleTrimStart(s: string)
    ensures Visible(TrimStart(s)) == Visible(s)
    decreases |s|
  {
    if |s| > 0 && IsSpace(s[0]) {
      VisibleTrimStart(s[1..]);
    }
  }

  /** Trailing whitespace holds nothing visible. */
  lemma {:induction false} VisibleTrimEnd(s: string)
    ensures Visible(TrimEnd(s)) == Visible(s)
    decreases |s|
  {
    if |s| > 0 && IsSpace(s[|s| - 1]) {
      var init := s[..|s| - 1];
      VisibleTrimEnd(init);
      assert s == init + [s[|s| - 1]];
      Filters.FilterAppend(init, [s[|s| - 1]], NotSpace);
      VisibleCons(s[|s| - 1], []);
    }
  }

  /** No two whitespace characters in a row. */
  predicate SingleSpaced(s: string) {
    forall i :: 0 <= i < |s| - 1 ==> !(IsSpace(s[i]) && IsSpace(s[i + 1]))
  }

  lemma SingleSpacedSlice(s: string, lo: int, hi: int)
    requires SingleSpaced(s) && 0 <= lo <= hi <= |s|
    ensures SingleSpaced(s[lo..hi])
  {
    assert forall i :: 0 <= i < hi - lo ==> s[lo..hi][i] == s[lo + i];
  }

  /** Stripping keeps text single-spaced. */
  lemma StripOfSingleSpaced(s: string)
    requires SingleSpaced(s)
    ensures SingleSpaced(Strip(s))
  {
    var t := TrimStart(s);
    SingleSpacedSlice(s, |s| - |t|, |s|);
    var r := TrimEnd(t);
    SingleSpacedSlice(t, 0, |r|);
    assert Strip(s) == r;
  }

  /** Why `re.compile` refused a pattern: `re.error`, or any other exception
      (an `OverflowError` for a repetition count that is too large). */
  datatype RegexFailure = BadPattern(reason: string) | Crashed(reason: string)

  /** An exception leaving an extractor: the package's `ParseError`, or any
      other exception, which passes through untouched. */
  datatype Raised = ParseError(message: string) | Unexpected(message: string)

  /** `extract_regex`, given what `re.compile(pattern).search(text)` yields: a
      compile error, no match, or the matched text. Only `re.error` becomes a
      `ParseError`; any other compile exception escapes as it is. */
  function ExtractRegex(search: Result<Option<string>, RegexFailure>, pattern: string): (r: Result<string, Raised>)
    ensures search.Failure? && search.error.BadPattern? ==>
              r == Failure(ParseError("Invalid regular expression '" + pattern + "': " + search.error.reason))
    ensures search.Failure? && search.error.Crashed? ==> r == Failure(Unexpected(search.error.reason))
    ensures search == Success(None) ==> r == Failure(ParseError("Regex '" + pattern + "' not found in corpus"))
    ensures r.Success? ==> SingleSpaced(r.value) && (r.value == [] || (!IsSpace(r.value[0]) && !IsSpace(r.value[|r.value| - 1])))
    ensures search.Success? && search.value.Some? ==> r.Success? && Visible(r.value) == Visible(search.value.value)
  {
    match search
    case Failure(BadPattern(e)) => Failure(ParseError("Invalid regular expression '" + pattern + "': " + e))
    case Failure(Crashed(e)) => Failure(Unexpected(e))
    case Success(None) => Failure(ParseError("Regex '" + pattern + "' not found in corpus"))
    case Success(Some(m)) =>
      var c := CollapseSpace(m);
      StripOfSingleSpaced(c);
      CollapseSpaceVisible(m);
      VisibleTrimStart(c);
      VisibleTrimEnd(TrimStart(c));
      Success(Strip(c))
  }
}

=== FILE: filters.dfy ===
/** Order-preserving selection from a sequence: the shape of every checker loop
    that appends one finding per element passing a test. */
module Filters {

  /** How many elements of `xs` pass `p`. */
  function Count<T>(xs: seq<T>, p: T -> bool): (n: nat)
    ensures n <= |xs|
    ensures n == 0 <==> forall i :: 0 <= i < |xs| ==> !p(xs[i])
  {
    if |xs| == 0 then 0
    else
      var rest := Count(xs[1..], p);
      assert forall i :: 1 <= i < |xs| ==> xs[i] == xs[1..][i - 1];
      (if p(xs[0]) then 1 else 0) + rest
  }

  /** The elements of `xs` that pass `p`, in their order in `xs`. */
  function Filter<T>(xs: seq<T>, p: T -> bool): (r: seq<T>)
    ensures |r| == Count(xs, p)
    ensures forall i :: 0 <= i < |r| ==> p(r[i]) && r[i] in xs
  {
    if |xs| == 0 then []
    else
      var rest := Filter(xs[1..], p);
      assert forall x :: x in rest ==> x in xs;
      (if p(xs[0]) then [xs[0]] else []) + rest
  }

  /** The element at index `i` that passes `p` is the `Count(xs[..i], p)`-th
      element of the filtered sequence: selection keeps the original order. */
  lemma {:induction false} FilterAt<T>(xs: seq<T>, p: T -> bool, i: int)
    requires 0 <= i < |xs| && p(xs[i])
    ensures Count(xs[..i], p) < |Filter(xs, p)|
    ensures Filter(xs, p)[Count(xs[..i], p)] == xs[i]
  {
    if i > 0 {
      FilterAt(xs[1..], p, i - 1);
      assert xs[..i][1..] == xs[1..][..i - 1];
      assert xs[..i][0] == xs[0];
    }
  }

  /** Counting in a non-empty prefix: the head, then the rest of the prefix. */
  lemma CountPrefixCons<T>(xs: seq<T>, p: T -> bool, j: int)
    requires 0 < j <= |xs|
    ensures Count(xs[..j], p) == (if p(xs[0]) then 1 else 0) + Count(xs[1..][..j - 1], p)
  {
    assert xs[..j][1..] == xs[1..][..j - 1];
    assert xs[..j][0] == xs[0];
  }

  /** Filtering a concatenation filters each part. */
  lemma {:induction false} FilterAppend<T>(xs: seq<T>, ys: seq<T>, p: T -> bool)
    ensures Filter(xs + ys, p) == Filter(xs, p) + Filter(ys, p)
  {
    if |xs| > 0 {
      assert (xs + ys)[1..] == xs[1..] + ys;
      FilterAppend(xs[1..], ys, p);
    } else {
      assert xs + ys == ys;
    }
  }

  /** The head and tail of a concatenation whose first part is not empty. */
  lemma AppendTail<T>(xs: seq<T>, ys: seq<T>)
    requires |xs| > 0
    ensures (xs + ys)[0] == xs[0] && (xs + ys)[1..] == xs[1..] + ys
  {
  }

  lemma AppendAssoc<T>(xs: seq<T>, ys: seq<T>, zs: seq<T>)
    ensures xs + (ys + zs) == (xs + ys) + zs
  {
  }

  /** A sequence is a prefix of itself followed by anything, and dropping
      it leaves what followed. */
  lemma PrefixAppend<T>(p: seq<T>, rest: seq<T>)
    ensures p <= p + rest
    ensures (p + rest)[|p|..] == rest
  {
  }
}

=== FILE: hallucination.dfy ===
/** The claim-verification checker (sentrykit/checkers/hallucination.py): each
    claim of the output must be supported by one of its evidence URLs, as the
    claim's extraction judges the fetched document. */
module Hallucination {
  import opened Wrappers
  import opened Text
  import opened Values
  import opened Models
  import opened Filters
  import opened Redact
  import opened Extract

  /** What verification needs from outside: the fetcher (its error message on
      failure), the HTML tokeniser and the case-insensitive regex search of a
      pattern in a document, which may fail to compile the pattern. */
  datatype ClaimTools = ClaimTools(
    fetch: string -> Result<string, string>,
    tokenize: string -> seq<HtmlEvent>,
    regexSearch: (string, string) -> Result<Option<string>, RegexFailure>)

  /** `must_include or pattern`. */
  function Target(e: Extraction): (r: string)
    ensures e.mustInclude.Some? && e.mustInclude.value != [] ==> r == e.mustInclude.value
    ensures e.mustInclude.None? || e.mustInclude == Some([]) ==> r == e.pattern
  {
    if e.mustInclude.Some? && e.mustInclude.value != [] then e.mustInclude.value else e.pattern
  }

  /** `needle.lower() in hay.lower()`. */
  predicate ContainsIgnoringCase(needle: string, hay: string) {
    IsSubstring(Lower(needle), Lower(hay))
  }

  /** `_validate_contains`. */
  predicate ValidateContains(document: string, e: Extraction) {
    ContainsIgnoringCase(Target(e), document)
  }

  /** `_apply_extraction`: whether the document supports the claim, or the
      exception raised while deciding it. */
  function ApplyExtraction(e: Extraction, document: string, tools: ClaimTools): (r: Result<bool, Raised>)
    ensures e.kind.Other? ==> r == Failure(ParseError("Unsupported extraction kind: " + e.kind.name))
    ensures e.kind.Contains? ==> r == Success(ValidateContains(document, e))
    ensures e.kind.Regex? && r.Success? ==> r.value
    ensures (e.kind.Css? || e.kind.Xpath?) && e.mustInclude.Some? && e.mustInclude.value != [] && r.Success? ==> r.value
    ensures e.kind.Regex? && tools.regexSearch(document, e.pattern) == Success(None) ==>
              r == Failure(ParseError("Regex '" + e.pattern + "' not found in corpus"))
    ensures e.kind.Regex? && tools.regexSearch(document, e.pattern).Failure? ==>
              var err := tools.regexSearch(document, e.pattern).error;
              r == Failure(if err.BadPattern? then ParseError("Invalid regular expression '" + e.pattern + "': " + err.reason)
                           else Unexpected(err.reason))
    ensures e.kind.Regex? && tools.regexSearch(document, e.pattern).Success? && tools.regexSearch(document, e.pattern).value.Some? ==>
              var text := ExtractRegex(tools.regexSearch(document, e.pattern), e.pattern).value;
              r == if e.mustInclude.Some? && e.mustInclude.value != [] && !ContainsIgnoringCase(e.mustInclude.value, text)
                   then Failure(ParseError("Regex extraction missing required snippet")) else Success(true)
    ensures e.kind.Regex? && (e.mustInclude.None? || e.mustInclude == Some([])) ==>
              (r.Success? <==> tools.regexSearch(document, e.pattern).Success? && tools.regexSearch(document, e.pattern).value.Some?)
    ensures e.kind.Css? ==> var x := ExtractCss(tools.tokenize(document), e.pattern, e.mustInclude);
              (x.Failure? ==> r == Failure(ParseError(x.error))) && (x.Success? ==> r == Success(ContainsIgnoringCase(Target(e), x.value)))
    ensures e.kind.Xpath? ==> var x := ExtractXPath(tools.tokenize(document), e.pattern, e.mustInclude);
              (x.Failure? ==> r == Failure(ParseError(x.error))) && (x.Success? ==> r == Success(ContainsIgnoringCase(Target(e), x.value)))
    ensures r.Failure? && r.error.Unexpected? ==> e.kind.Regex? && tools.regexSearch(document, e.pattern).Failure?
  {
    match e.kind
    case Css =>
      (match ExtractCss(tools.tokenize(document), e.pattern, e.mustInclude)
       case Failure(msg) => Failure(ParseError(msg))
       case Success(text) => Success(ContainsIgnoringCase(Target(e), text)))
    case Xpath =>
      (match ExtractXPath(tools.tokenize(document), e.pattern, e.mustInclude)
       case Failure(msg) => Failure(ParseError(msg))
       case Success(text) => Success(ContainsIgnoringCase(Target(e), text)))
    case Regex =>
      var text :- ExtractRegex(tools.regexSearch(document, e.pattern), e.pattern);
      if e.mustInclude.Some? && e.mustInclude.value != [] && !ContainsIgnoringCase(e.mustInclude.value, text) then
        Failure(ParseError("Regex extraction missing required snippet"))
      else Success(true)
    case Contains => Success(ValidateContains(document, e))
    case Other(name) => Failure(ParseError("Unsupported extraction kind: " + name))
  }

  /** A URL supports a claim when it can be fetched and the extraction accepts
      the document. */
  predicate Supports(url: string, e: Extraction, tools: ClaimTools) {
    tools.fetch(url).Success? && ApplyExtraction(e, tools.fetch(url).value, tools) == Success(true)
  }

  /** What one URL adds to the error list: `fetch_error:` for a failed fetch,
      `parse_error:` for a `ParseError` and `unexpected_error:` for any other
      exception of the extraction. */
  function UrlErrors(url: string, e: Extraction, tools: ClaimTools): (r: seq<string>)
    ensures |r| <= 1
    ensures tools.fetch(url).Failure? ==> r == ["fetch_error:" + tools.fetch(url).error]
    ensures tools.fetch(url).Success? ==> var x := ApplyExtraction(e, tools.fetch(url).value, tools);
              (x.Failure? && x.error.ParseError? ==> r == ["parse_error:" + x.error.message])
              && (x.Failure? && x.error.Unexpected? ==> r == ["unexpected_error:" + x.error.message])
              && (x.Success? ==> r == [])
  {
    match tools.fetch(url)
    case Failure(err) => ["fetch_error:" + err]
    case Success(doc) =>
      match ApplyExtraction(e, doc, tools)
      case Failure(ParseError(msg)) => ["parse_error:" + msg]
      case Failure(Unexpected(msg)) => ["unexpected_error:" + msg]
      case Success(_) => []
  }

  /** A pattern whose compilation raises something other than `re.error` is
      recorded as an unexpected error, not as a parse error. */
  lemma CrashedPatternIsUnexpected(url: string, e: Extraction, tools: ClaimTools, reason: string)
    requires e.kind.Regex? && tools.fetch(url).Success?
    requires tools.regexSearch(tools.fetch(url).value, e.pattern) == Failure(Crashed(reason))
    ensures UrlErrors(url, e, tools) == ["unexpected_error:" + reason]
  {
  }

  /** The URL loop of `_verify_claim`: the first supporting URL ends it with no
      errors; otherwise every URL's fetch or parse error is kept, in order. A
      document the extraction merely rejects adds no error. */
  function VerifyUrls(urls: seq<string>, e: Extraction, tools: ClaimTools): (r: (bool, seq<string>))
    ensures r.0 <==> exists i :: 0 <= i < |urls| && Supports(urls[i], e, tools)
    ensures r.0 ==> r.1 == []
    ensures |r.1| <= |urls|
    decreases |urls|
  {
    if |urls| == 0 then (false, [])
    else
      var rest := VerifyUrls(urls[1..], e, tools);
      assert forall i :: 1 <= i < |urls| ==> urls[i] == urls[1..][i - 1];
      if Supports(urls[0], e, tools) || rest.0 then (true, [])
      else (false, UrlErrors(urls[0], e, tools) + rest.1)
  }

  /** `_verify_claim`: a claim without URLs is unverified with the single error
      `no_evidence_urls`. */
  function VerifyClaim(claim: Claim, tools: ClaimTools): (r: (bool, seq<string>))
    ensures claim.evidenceUrls == [] ==> r == (false, ["no_evidence_urls"])
    ensures r.0 <==> exists i :: 0 <= i < |claim.evidenceUrls| && Supports(claim.evidenceUrls[i], claim.extraction, tools)
    ensures r.0 ==> r.1 == []
  {
    if claim.evidenceUrls == [] then (false, ["no_evidence_urls"])
    else VerifyUrls(claim.evidenceUrls, claim.extraction, tools)
  }

  lemma VerifyUrlsUnfold(urls: seq<string>, e: Extraction, tools: ClaimTools)
    requires |urls| > 0 && !VerifyUrls(urls, e, tools).0
    ensures !Supports(urls[0], e, tools) && !VerifyUrls(urls[1..], e, tools).0
    ensures VerifyUrls(urls, e, tools).1 == UrlErrors(urls[0], e, tools) + VerifyUrls(urls[1..], e, tools).1
  {
  }

  /** One step of the scan over a non-empty list. */
  lemma VerifyUrlsStep(urls: seq<string>, e: Extraction, tools: ClaimTools)
    requires |urls| > 0
    ensures VerifyUrls(urls, e, tools) ==
              if Supports(urls[0], e, tools) || VerifyUrls(urls[1..], e, tools).0 then (true, [])
              else (false, UrlErrors(urls[0], e, tools) + VerifyUrls(urls[1..], e, tools).1)
  {
  }

  /** The inductive step of `VerifyUrlsAppend`: one unsupported URL in front. */
  lemma VerifyUrlsAppendStep(urls: seq<string>, more: seq<string>, e: Extraction, tools: ClaimTools)
    requires |urls| > 0 && !VerifyUrls(urls, e, tools).0 && !VerifyUrls(more, e, tools).0
    requires VerifyUrls(urls[1..] + more, e, tools) == (false, VerifyUrls(urls[1..], e, tools).1 + VerifyUrls(more, e, tools).1)
    ensures VerifyUrls(urls + more, e, tools) == (false, VerifyUrls(urls, e, tools).1 + VerifyUrls(more, e, tools).1)
  {
    VerifyUrlsUnfold(urls, e, tools);
    AppendTail(urls, more);
    VerifyUrlsStep(urls + more, e, tools);
    AppendAssoc(UrlErrors(urls[0], e, tools), VerifyUrls(urls[1..], e, tools).1, VerifyUrls(more, e, tools).1);
  }

  /** When no URL of the first list supports the claim, the errors of the whole
      list are those of its two halves, in order. */
  lemma {:induction false} VerifyUrlsAppend(urls: seq<string>, more: seq<string>, e: Extraction, tools: ClaimTools)
    requires !VerifyUrls(urls, e, tools).0 && !VerifyUrls(more, e, tools).0
    ensures VerifyUrls(urls + more, e, tools) == (false, VerifyUrls(urls, e, tools).1 + VerifyUrls(more, e, tools).1)
    decreases |urls|
  {
    if |urls| == 0 {
      assert urls + more == more;
      assert VerifyUrls(urls, e, tools).1 == [];
      assert [] + VerifyUrls(more, e, tools).1 == VerifyUrls(more, e, tools).1;
    } else {
      VerifyUrlsUnfold(urls, e, tools);
      VerifyUrlsAppend(urls[1..], more, e, tools);
      VerifyUrlsAppendStep(urls, more, e, tools);
    }
  }

  /** URLs after a supporting one never matter. */
  lemma VerifiedIgnoresLaterUrls(urls: seq<string>, more: seq<string>, e: Extraction, tools: ClaimTools)
    requires VerifyUrls(urls, e, tools).0
    ensures VerifyUrls(urls + more, e, tools) == (true, [])
  {
    var i :| 0 <= i < |urls| && Supports(urls[i], e, tools);
    assert (urls + more)[i] == urls[i];
  }

  function Unverified(tools: ClaimTools): Claim -> bool {
    (c: Claim) => !VerifyClaim(c, tools).0
  }

  function Redacted(finders: seq<Finder>, texts: seq<string>): (r: seq<string>)
    ensures |r| == |texts|
    ensures forall i :: 0 <= i < |r| ==> r[i] == RedactSecrets(finders, texts[i])
  {
    seq(|texts|, i requires 0 <= i < |texts| => RedactSecrets(finders, texts[i]))
  }

  /** The finding for an unverified claim; at most three errors are reported,
      all redacted, as is the statement. */
  function Unsupported(claim: Claim, errors: seq<string>, finders: seq<Finder>): (f: Finding)
    ensures f.kind == "hallucination" && f.severity == High
    ensures |f.evidence| == 3 && f.evidence[2].key == "errors" && f.evidence[2].val.List?
    ensures |f.evidence[2].val.items| == if |errors| < 3 then |errors| else 3
    ensures f.details == "Claim lacks verifiable evidence: " + RedactSecrets(finders, claim.statement)
    ensures f.evidence[0] == Entry("statement", Str(RedactSecrets(finders, claim.statement)))
    ensures f.evidence[1] == Entry("urls", StrList(claim.evidenceUrls))
    ensures f.evidence[2].val == StrList(Redacted(finders, if |errors| < 3 then errors else errors[..3]))
  {
    var statement := RedactSecrets(finders, claim.statement);
    var shown := if |errors| < 3 then errors else errors[..3];
    Finding("hallucination", High, "Claim lacks verifiable evidence: " + statement,
            [Entry("statement", Str(statement)),
             Entry("urls", StrList(claim.evidenceUrls)),
             Entry("errors", StrList(Redacted(finders, shown)))])
  }

  function ClaimFinding(claim: Claim, tools: ClaimTools, finders: seq<Finder>): Finding {
    Unsupported(claim, VerifyClaim(claim, tools).1, finders)
  }

  /** One finding per claim, in order. */
  function ClaimFindings(claims: seq<Claim>, tools: ClaimTools, finders: seq<Finder>): (r: seq<Finding>)
    ensures |r| == |claims|
    ensures forall i :: 0 <= i < |r| ==> r[i] == ClaimFinding(claims[i], tools, finders)
    ensures forall i :: 0 <= i < |r| ==> r[i].kind == "hallucination" && r[i].severity == High
  {
    seq(|claims|, i requires 0 <= i < |claims| => ClaimFinding(claims[i], tools, finders))
  }

  /** Each claim the filter keeps is an unverified claim of the list. */
  lemma UnverifiedAreClaims(claims: seq<Claim>, tools: ClaimTools)
    ensures forall i :: 0 <= i < |Filter(claims, Unverified(tools))| ==>
              exists j :: 0 <= j < |claims| && claims[j] == Filter(claims, Unverified(tools))[i]
                          && !VerifyClaim(claims[j], tools).0
  {
    var bad := Filter(claims, Unverified(tools));
    forall i | 0 <= i < |bad|
      ensures exists j :: 0 <= j < |claims| && claims[j] == bad[i] && !VerifyClaim(claims[j], tools).0
    {
      assert bad[i] in claims && Unverified(tools)(bad[i]);
      var j :| 0 <= j < |claims| && claims[j] == bad[i];
    }
  }

  /** `run`: one high finding per claim no URL supports, in claim order; none
      without an output or claims. */
  function Run(run: RunInput, tools: ClaimTools, finders: seq<Finder>): (r: seq<Finding>)
    ensures run.output.None? ==> r == []
    ensures run.output.Some? ==> |r| == Count(run.output.value.claims, Unverified(tools))
    ensures run.output.Some? ==> forall i :: 0 <= i < |r| ==>
      exists j :: 0 <= j < |run.output.value.claims|
        && !VerifyClaim(run.output.value.claims[j], tools).0
        && r[i] == ClaimFinding(run.output.value.claims[j], tools, finders)
    ensures forall i :: 0 <= i < |r| ==> r[i].kind == "hallucination" && r[i].severity == High
  {
    if run.output.None? || run.output.value.claims == [] then []
    else
      var claims := run.output.value.claims;
      UnverifiedAreClaims(claims, tools);
      ClaimFindings(Filter(claims, Unverified(tools)), tools, finders)
  }

  /** Every unverified claim is reported, in its place among the unverified. */
  lemma RunReportsEachUnverified(run: RunInput, tools: ClaimTools, finders: seq<Finder>, j: int)
    requires run.output.Some? && 0 <= j < |run.output.value.claims|
    requires !VerifyClaim(run.output.value.claims[j], tools).0
    ensures var claims := run.output.value.claims;
            var k := Count(claims[..j], Unverified(tools));
            k < |Run(run, tools, finders)| && Run(run, tools, finders)[k] == ClaimFinding(claims[j], tools, finders)
  {
    FilterAt(run.output.value.claims, Unverified(tools), j);
  }
}

=== FILE: html.dfy ===
/** HTML escaping as Python's `html.escape(s, quote=True)` performs it, and
    the inverse for the five entities it produces. */
module HtmlText {

  function EscapeChar(c: char): (r: string)
    ensures |r| > 0
    ensures c != '&' && c != '<' && c != '>' && c != '"' && c != '\'' ==> r == [c]
  {
    if c == '&' then "&amp;"
    else if c == '<' then "&lt;"
    else if c == '>' then "&gt;"
    else if c == '"' then "&quot;"
    else if c == '\'' then "&#x27;"
    else [c]
  }

  /** No character that could open a tag or close an attribute value. */
  predicate Inert(s: string) {
    forall i :: 0 <= i < |s| ==> s[i] != '<' && s[i] != '>' && s[i] != '"' && s[i] != '\''
  }

  /** `html.escape(s)`. */
  function Escape(s: string): (r: string)
    ensures Inert(r)
    ensures |r| >= |s|
    ensures Inert(s) && '&' !in s ==> r == s
  {
    if |s| == 0 then []
    else
      var head := EscapeChar(s[0]);
      var rest := Escape(s[1..]);
      assert Inert(head);
      var r := head + rest;
      assert forall i :: |head| <= i < |r| ==> r[i] == rest[i - |head|];
      r
  }

  /** `html.unescape` restricted to the entities `Escape` writes. */
  function Unescape(s: string): string
    decreases |s|
  {
    if |s| == 0 then []
    else if "&amp;" <= s then "&" + Unescape(s[5..])
    else if "&lt;" <= s then "<" + Unescape(s[4..])
    else if "&gt;" <= s then ">" + Unescape(s[4..])
    else if "&quot;" <= s then "\"" + Unescape(s[6..])
    else if "&#x27;" <= s then "'" + Unescape(s[6..])
    else [s[0]] + Unescape(s[1..])
  }

  lemma UnescapeStep(c: char, rest: string)
    ensures Unescape(EscapeChar(c) + rest) == [c] + Unescape(rest)
  {
    var e := EscapeChar(c);
    var s := e + rest;
    if c == '&' {
      assert s[..5] == "&amp;" && s[5..] == rest;
    } else if c == '<' {
      assert s[..4] == "&lt;" && s[4..] == rest;
      assert s[1] == 'l' && !("&amp;" <= s);
    } else if c == '>' {
      assert s[..4] == "&gt;" && s[4..] == rest;
      assert s[1] == 'g' && !("&amp;" <= s) && !("&lt;" <= s);
    } else if c == '"' {
      assert s[..6] == "&quot;" && s[6..] == rest;
      assert s[1] == 'q' && !("&amp;" <= s) && !("&lt;" <= s) && !("&gt;" <= s);
    } else if c == '\'' {
      assert s[..6] == "&#x27;" && s[6..] == rest;
      assert s[1] == '#' && !("&amp;" <= s) && !("&lt;" <= s) && !("&gt;" <= s) && !("&quot;" <= s);
    } else {
      assert s[0] == c && s[1..] == rest;
      assert !("&amp;" <= s) && !("&lt;" <= s) && !("&gt;" <= s) && !("&quot;" <= s) && !("&#x27;" <= s);
    }
  }

  /** Unescaping recovers the escaped text. */
  lemma {:induction false} UnescapeEscape(s: string)
    ensures Unescape(Escape(s)) == s
  {
    if |s| > 0 {
      UnescapeStep(s[0], Escape(s[1..]));
      UnescapeEscape(s[1..]);
      assert [s[0]] + s[1..] == s;
    }
  }

  /** Escaping distributes over concatenation. */
  lemma {:induction false} EscapeAppend(a: string, b: string)
    ensures Escape(a + b) == Escape(a) + Escape(b)
  {
    if |a| > 0 {
      assert (a + b)[1..] == a[1..] + b;
      EscapeAppend(a[1..], b);
    } else {
      assert a + b == b;
    }
  }
}

=== FILE: jailbreak.dfy ===
/** The fixed-phrase jailbreak checker (sentrykit/checkers/jailbreak.py). */
module Jailbreak {
  import opened Wrappers
  import opened Text
  import opened Values
  import opened Models
  import opened Filters

  const Phrases: seq<string> := ["do anything now", "devmode++", "unlock hidden mode", "no rules apply"]

  /** The message contents, without their roles. */
  function Contents(messages: seq<Message>): (r: seq<string>)
    ensures |r| == |messages|
    ensures forall i :: 0 <= i < |r| ==> r[i] == messages[i].content
  {
    seq(|messages|, i requires 0 <= i < |messages| => messages[i].content)
  }

  /** Goal, constraints, message contents and the output text, in that order. */
  function Texts(run: RunInput): seq<string> {
    [run.goal] + run.constraints + Contents(run.messages)
    + (if run.output.Some? then [run.output.value.text] else [])
  }

  /** The scanned text: the texts joined by newlines, lower-cased. */
  function Blob(run: RunInput): string {
    Lower(Join("\n", Texts(run)))
  }

  function Hit(phrase: string): Finding {
    Finding("jailbreak", High, "Detected jailbreak directive: " + phrase, [Entry("phrase", Str(phrase))])
  }

  function Occurs(blob: string): string -> bool {
    (p: string) => IsSubstring(p, blob)
  }

  /** One finding per phrase of `phrases` that occurs in `blob`. */
  function Scan(phrases: seq<string>, blob: string): (r: seq<Finding>)
    ensures |r| <= |phrases|
    ensures forall i :: 0 <= i < |phrases| ==> (Hit(phrases[i]) in r <==> IsSubstring(phrases[i], blob))
    ensures forall i :: 0 <= i < |r| ==>
      && r[i].kind == "jailbreak" && r[i].severity == High
      && exists p :: p in phrases && IsSubstring(p, blob) && r[i] == Hit(p)
  {
    var hits := Filter(phrases, Occurs(blob));
    var r := seq(|hits|, i requires 0 <= i < |hits| => Hit(hits[i]));
    assert forall i :: 0 <= i < |phrases| && IsSubstring(phrases[i], blob) ==> Hit(phrases[i]) in r by {
      forall i | 0 <= i < |phrases| && IsSubstring(phrases[i], blob)
        ensures Hit(phrases[i]) in r
      {
        FilterAt(phrases, Occurs(blob), i);
        var k := Count(phrases[..i], Occurs(blob));
        assert r[k] == Hit(phrases[i]);
      }
    }
    assert forall i :: 0 <= i < |r| ==> r[i] == Hit(hits[i]) && hits[i] in phrases && Occurs(blob)(hits[i]);
    r
  }

  /** One high `jailbreak` finding per fixed phrase found in the blob. */
  function Run(run: RunInput): (r: seq<Finding>)
    ensures |r| <= |Phrases|
    ensures forall i :: 0 <= i < |Phrases| ==> (Hit(Phrases[i]) in r <==> IsSubstring(Phrases[i], Blob(run)))
    ensures forall i :: 0 <= i < |r| ==>
      && r[i].kind == "jailbreak" && r[i].severity == High
      && exists p :: p in Phrases && IsSubstring(p, Blob(run)) && r[i] == Hit(p)
  {
    Scan(Phrases, Blob(run))
  }

  /** The findings come in the order of the phrase list. */
  lemma RunInPhraseOrder(run: RunInput, i: int)
    requires 0 <= i < |Phrases| && IsSubstring(Phrases[i], Blob(run))
    ensures var k := Count(Phrases[..i], Occurs(Blob(run)));
            k < |Run(run)| && Run(run)[k] == Hit(Phrases[i])
  {
    FilterAt(Phrases, Occurs(Blob(run)), i);
  }

  /** Context chunks, message roles and tool calls are never scanned. */
  lemma RunIgnoresContextRolesAndTools(run: RunInput, contexts: seq<ContextChunk>,
                                       messages: seq<Message>, toolCalls: seq<ToolCall>)
    requires Contents(messages) == Contents(run.messages)
    ensures Run(run.(contexts := contexts, messages := messages, toolCalls := toolCalls)) == Run(run)
  {
    var other := run.(contexts := contexts, messages := messages, toolCalls := toolCalls);
    assert Texts(other) == Texts(run);
  }
}

=== FILE: loader.dfy ===
/** The goal-file reader of the offline demos (examples/common/loader.py),
    over the file's lines: a `goal:` line and `-` constraint items, comments
    and blank lines skipped. */
module Loader {
  import opened Wrappers
  import opened Text

  /** What one line of the file is, after stripping it. */
  datatype LineKind = Skipped | Goal(text: string) | Item(text: string) | Ignored

  /** The first ':' of a stripped goal line is the one that ends `goal:`. */
  lemma GoalSplit(s: string)
    requires "goal:" <= s
    ensures SplitFirst(s, ':') == Some(("goal", s[5..]))
  {
    assert s == "goal" + [':'] + s[5..];
    SplitFirstAt("goal", s[5..], ':');
  }

  /** The first '-' of a stripped item line is its first character. */
  lemma ItemSplit(s: string)
    requires "-" <= s
    ensures SplitFirst(s, '-') == Some(([], s[1..]))
  {
    assert s == [] + ['-'] + s[1..];
    SplitFirstAt([], s[1..], '-');
  }

  /** The tests of the loop body, in order: blank or `#` lines are skipped, a
      `goal:` line gives the stripped text after its first ':', a `-` line the
      stripped text after its first '-'. */
  function Classify(line: string): (k: LineKind)
    ensures k.Skipped? <==> Strip(line) == [] || "#" <= Strip(line)
    ensures k.Goal? <==> "goal:" <= Strip(line)
    ensures k.Item? <==> "-" <= Strip(line)
    ensures k.Goal? ==> k.text == Strip(Strip(line)[5..])
    ensures k.Item? ==> k.text == Strip(Strip(line)[1..])
  {
    var s := Strip(line);
    if s == [] || "#" <= s then Skipped
    else if "goal:" <= s then
      GoalSplit(s);
      match SplitFirst(s, ':')
      case Some(parts) => Goal(Strip(parts.1))
      case None => assert false; Ignored
    else if "-" <= s then
      ItemSplit(s);
      match SplitFirst(s, '-')
      case Some(parts) => Item(Strip(parts.1))
      case None => assert false; Ignored
    else Ignored
  }

  /** The goal and constraints read from a prefix of the lines. */
  datatype Parsed = Parsed(goal: Option<string>, constraints: seq<string>)

  /** Each line classified, in file order. */
  function Kinds(lines: seq<string>): (r: seq<LineKind>)
    ensures |r| == |lines|
    ensures forall i :: 0 <= i < |r| ==> r[i] == Classify(lines[i])
  {
    seq(|lines|, i requires 0 <= i < |lines| => Classify(lines[i]))
  }

  /** The loop of `load_goal` over the classified lines, in order. */
  function Scan(kinds: seq<LineKind>): (r: Parsed)
    ensures r.goal.None? <==> forall j :: 0 <= j < |kinds| ==> !kinds[j].Goal?
    ensures r.goal.Some? ==> exists j :: 0 <= j < |kinds| && kinds[j].Goal? && r.goal.value == kinds[j].text
                              && forall k :: j < k < |kinds| ==> !kinds[k].Goal?
    decreases |kinds|
  {
    if |kinds| == 0 then Parsed(None, [])
    else
      var init := kinds[..|kinds| - 1];
      var before := Scan(init);
      assert forall j :: 0 <= j < |init| ==> init[j] == kinds[j];
      match kinds[|kinds| - 1]
      case Goal(text) => Parsed(Some(text), before.constraints)
      case Item(text) => Parsed(before.goal, before.constraints + [text])
      case _ => before
  }

  /** The text a line contributes to the constraints, if any. */
  function ItemOf(k: LineKind): (r: seq<string>)
    ensures |r| <= 1
    ensures r != [] <==> k.Item?
  {
    match k
    case Item(text) => [text]
    case _ => []
  }

  /** The constraint items, front to back: the independent reading of which
      lines contribute. */
  function Items(kinds: seq<LineKind>): (r: seq<string>)
    ensures |r| <= |kinds|
    decreases |kinds|
  {
    if |kinds| == 0 then [] else ItemOf(kinds[0]) + Items(kinds[1..])
  }

  lemma {:induction false} ItemsAppendLast(kinds: seq<LineKind>)
    requires |kinds| > 0
    ensures Items(kinds) == Items(kinds[..|kinds| - 1]) + ItemOf(kinds[|kinds| - 1])
    decreases |kinds|
  {
    var n := |kinds|;
    if n > 1 {
      ItemsAppendLast(kinds[1..]);
      assert kinds[1..][..n - 2] == kinds[..n - 1][1..];
      assert kinds[1..][n - 2] == kinds[n - 1];
      assert kinds[..n - 1][0] == kinds[0];
    } else {
      assert Items(kinds[..0]) == [];
      assert Items(kinds[1..]) == [];
    }
  }

  /** The scan keeps exactly the item lines' texts, in order. */
  lemma {:induction false} ScanItems(kinds: seq<LineKind>)
    ensures Scan(kinds).constraints == Items(kinds)
    decreases |kinds|
  {
    if |kinds| > 0 {
      ScanItems(kinds[..|kinds| - 1]);
      ItemsAppendLast(kinds);
    }
  }

  /** `load_goal`: the goal and constraints, or the `ValueError` message when no
      goal line exists. */
  function LoadGoal(path: string, lines: seq<string>): (r: Result<(string, seq<string>), string>)
    ensures r.Failure? <==> forall j :: 0 <= j < |lines| ==> !("goal:" <= Strip(lines[j]))
    ensures r.Failure? ==> r.error == "Goal file " + path + " missing goal line"
    ensures r.Success? ==> r.value.1 == Items(Kinds(lines))
    ensures r.Success? ==> exists j :: 0 <= j < |lines| && "goal:" <= Strip(lines[j])
                             && r.value.0 == Strip(Strip(lines[j])[5..])
                             && forall k :: j < k < |lines| ==> !("goal:" <= Strip(lines[k]))
  {
    var kinds := Kinds(lines);
    var parsed := Scan(kinds);
    ScanItems(kinds);
    match parsed.goal
    case None => Failure("Goal file " + path + " missing goal line")
    case Some(goal) => Success((goal, parsed.constraints))
  }

  /** A later goal line overrides every earlier one. */
  lemma LaterGoalWins(kinds: seq<LineKind>, more: seq<LineKind>)
    requires exists j :: 0 <= j < |more| && more[j].Goal?
    ensures Scan(kinds + more).goal == Scan(more).goal
  {
    var all := kinds + more;
    var g := Scan(all).goal;
    var h := Scan(more).goal;
    var j :| 0 <= j < |more| && more[j].Goal?;
    assert all[|kinds| + j] == more[j];
    var a :| 0 <= a < |all| && all[a].Goal? && g.value == all[a].text
             && forall k :: a < k < |all| ==> !all[k].Goal?;
    var b :| 0 <= b < |more| && more[b].Goal? && h.value == more[b].text
             && forall k :: b < k < |more| ==> !more[k].Goal?;
    assert all[|kinds| + b] == more[b];
    assert a == |kinds| + b;
  }
}

=== FILE: models.dfy ===
/** The records every checker reads and writes (sentrykit/models.py). */
module Models {
  import opened Wrappers
  import opened Values

  /** The extraction strategy of a claim. The dataclass annotation lists four
      kinds, but nothing enforces it: a demo payload may carry any string, which
      the hallucination checker then rejects, so `Other` keeps that string. */
  datatype ExtractionKind = Css | Xpath | Regex | Contains | Other(name: string)

  const KnownKinds: set<string> := {"css", "xpath", "regex", "contains"}

  function KindName(k: ExtractionKind): string {
    match k
    case Css => "css"
    case Xpath => "xpath"
    case Regex => "regex"
    case Contains => "contains"
    case Other(name) => name
  }

  /** Reads the `kind` string of an extraction. */
  function ParseKind(s: string): (k: ExtractionKind)
    ensures k.Other? <==> s !in KnownKinds
    ensures KindName(k) == s
  {
    if s == "css" then Css
    else if s == "xpath" then Xpath
    else if s == "regex" then Regex
    else if s == "contains" then Contains
    else Other(s)
  }

  /** A kind is recovered from its name, unless it is an `Other` that spells a
      known kind. */
  lemma ParseKindName(k: ExtractionKind)
    requires k.Other? ==> k.name !in KnownKinds
    ensures ParseKind(KindName(k)) == k
  {
  }

  datatype Extraction = Extraction(kind: ExtractionKind, pattern: string, mustInclude: Option<string>)

  /** `Extraction(kind, pattern)` with the dataclass default for `must_include`. */
  function NewExtraction(kind: ExtractionKind, pattern: string): (e: Extraction)
    ensures e.kind == kind && e.pattern == pattern && e.mustInclude.None?
  {
    Extraction(kind, pattern, None)
  }

  datatype Claim = Claim(statement: string, evidenceUrls: seq<string>, extraction: Extraction)

  datatype ContextChunk = ContextChunk(source: string, text: string)

  datatype ToolCall = ToolCall(name: string, args: seq<Entry>)

  datatype RunOutput = RunOutput(text: string, claims: seq<Claim>)

  /** `RunOutput(text)` with the default empty claim list. */
  function NewRunOutput(text: string): (o: RunOutput)
    ensures o.text == text && o.claims == []
  {
    RunOutput(text, [])
  }

  /** One `(role, content)` message pair. */
  datatype Message = Message(role: string, content: string)

  datatype RunInput = RunInput(
    goal: string,
    constraints: seq<string>,
    messages: seq<Message>,
    contexts: seq<ContextChunk>,
    toolCalls: seq<ToolCall>,
    output: Option<RunOutput>)

  /** `RunInput(...)` with the default `output=None`. */
  function NewRunInput(goal: string, constraints: seq<string>, messages: seq<Message>,
                       contexts: seq<ContextChunk>, toolCalls: seq<ToolCall>): (r: RunInput)
    ensures r.output.None?
    ensures r.goal == goal && r.constraints == constraints && r.messages == messages
    ensures r.contexts == contexts && r.toolCalls == toolCalls
  {
    RunInput(goal, constraints, messages, contexts, toolCalls, None)
  }

  datatype Severity = Low | Medium | High

  function SeverityName(s: Severity): string {
    match s
    case Low => "low"
    case Medium => "medium"
    case High => "high"
  }

  datatype Finding = Finding(kind: string, severity: Severity, details: string, evidence: seq<Entry>)

  /** `Finding(kind, severity, details)` with the default empty evidence. */
  function NewFinding(kind: string, severity: Severity, details: string): (f: Finding)
    ensures f.kind == kind && f.severity == severity && f.details == details
    ensures f.evidence == []
  {
    Finding(kind, severity, details, [])
  }

  /** One finding as it leaves the engine in a dictionary: the report's
      serialisation and the demo server's response share this shape. */
  datatype FindingData = FindingData(kind: string, severity: string, details: string, evidence: seq<Entry>)

  /** `_serialize_verdict`'s dictionary; `score` is in tenths. */
  datatype VerdictData = VerdictData(blocked: bool, score: nat, reason: string, findings: seq<FindingData>)

  datatype Report = Report(html: string, data: VerdictData)

  /** The guard's decision. `score` counts tenths: a low finding weighs 2, a
      medium 5 and a high 10, so the source's 0.2/0.5/1.0 floats are exact. */
  datatype Verdict = Verdict(blocked: bool, reason: string, score: nat, findings: seq<Finding>, report: Option<Report>)

  /** `Verdict(...)` with the default `report=None`. */
  function NewVerdict(blocked: bool, reason: string, score: nat, findings: seq<Finding>): (v: Verdict)
    ensures v.report.None?
    ensures v.blocked == blocked && v.reason == reason && v.score == score && v.findings == findings
  {
    Verdict(blocked, reason, score, findings, None)
  }
}

=== FILE: ordering.dfy ===
/** Python's ordering of strings (code-point lexicographic) and `sorted(...)`
    applied to a set of strings. */
module StringOrder {

  /** `a < b` on Python strings: a proper prefix is smaller, otherwise the first
      differing character decides. */
  predicate Less(a: string, b: string)
    decreases |a|
  {
    if |a| == 0 then |b| > 0
    else if |b| == 0 then false
    else if a[0] != b[0] then a[0] < b[0]
    else Less(a[1..], b[1..])
  }

  lemma {:induction false} LessIrreflexive(a: string)
    ensures !Less(a, a)
    decreases |a|
  {
    if |a| > 0 {
      LessIrreflexive(a[1..]);
    }
  }

  lemma {:induction false} LessAsymmetric(a: string, b: string)
    requires Less(a, b)
    ensures !Less(b, a)
    decreases |a|
  {
    if |a| > 0 && |b| > 0 && a[0] == b[0] {
      LessAsymmetric(a[1..], b[1..]);
    }
  }

  lemma {:induction false} LessTransitive(a: string, b: string, c: string)
    requires Less(a, b) && Less(b, c)
    ensures Less(a, c)
    decreases |a|
  {
    if |a| > 0 && a[0] == b[0] && b[0] == c[0] {
      LessTransitive(a[1..], b[1..], c[1..]);
    }
  }

  /** Any two distinct strings are ordered one way or the other. */
  lemma {:induction false} LessTotal(a: string, b: string)
    ensures a == b || Less(a, b) || Less(b, a)
    decreases |a|
  {
    if |a| > 0 && |b| > 0 && a[0] == b[0] {
      LessTotal(a[1..], b[1..]);
      if a[1..] == b[1..] {
        assert a == [a[0]] + a[1..] && b == [b[0]] + b[1..];
      }
    }
  }

  /** `m` is the smallest element of `s`. */
  predicate IsLeast(m: string, s: set<string>) {
    m in s && forall y :: y in s && y != m ==> Less(m, y)
  }

  lemma {:induction false} LeastExists(s: set<string>)
    requires s != {}
    ensures exists m :: IsLeast(m, s)
    decreases s
  {
    var x :| x in s;
    if s != {x} {
      var rest := s - {x};
      LeastExists(rest);
      var m :| IsLeast(m, rest);
      LessTotal(m, x);
      if Less(m, x) {
        assert IsLeast(m, s);
      } else {
        forall y | y in s && y != x
          ensures Less(x, y)
        {
          if y != m {
            LessTransitive(x, m, y);
          }
        }
        assert IsLeast(x, s);
      }
    } else {
      assert IsLeast(x, s);
    }
  }

  lemma LeastUnique(s: set<string>)
    ensures forall m, m' :: IsLeast(m, s) && IsLeast(m', s) ==> m == m'
  {
    forall m, m' | IsLeast(m, s) && IsLeast(m', s)
      ensures m == m'
    {
      if m != m' {
        LessAsymmetric(m, m');
      }
    }
  }

  /** The smallest element of a non-empty set. */
  function Least(s: set<string>): (m: string)
    requires s != {}
    ensures IsLeast(m, s)
  {
    LeastExists(s);
    LeastUnique(s);
    var m :| IsLeast(m, s);
    m
  }

  /** Strictly increasing, hence also free of duplicates. */
  predicate Sorted(xs: seq<string>) {
    forall i, j :: 0 <= i < j < |xs| ==> Less(xs[i], xs[j])
  }

  /** Python's `sorted(s)` for a set of strings: the elements of `s`, each once,
      in increasing order. */
  function SortedSet(s: set<string>): (r: seq<string>)
    ensures Sorted(r)
    ensures |r| == |s|
    ensures forall x :: x in r <==> x in s
    decreases s
  {
    if s == {} then []
    else
      var m := Least(s);
      var rest := SortedSet(s - {m});
      assert forall j :: 0 <= j < |rest| ==> Less(m, rest[j]);
      [m] + rest
  }

  /** The set of the elements of a list (Python's `set(xs)`). */
  function ToSet(xs: seq<string>): (r: set<string>)
    ensures forall x :: x in r <==> x in xs
  {
    set x | x in xs
  }

  /** `set(sorted(s)) == s`. */
  lemma SortedSetToSet(s: set<string>)
    ensures ToSet(SortedSet(s)) == s
  {
  }
}

=== FILE: poisoning.dfy ===
/** The context-poisoning checker (sentrykit/checkers/poisoning.py): override
    phrases in retrieved context, and tool calls that reach domains outside
    the policy's allow-list. */
module Poisoning {
  import opened Wrappers
  import opened Text
  import opened StringOrder
  import opened Values
  import opened Models
  import opened Policies
  import opened Urls
  import opened Filters

  const DefaultPhrases: seq<string> := [
    "ignore previous instructions",
    "disregard policy",
    "override safety",
    "you are now evil",
    "reset your instructions"
  ]

  /** The lower-cased phrase set; an absent or empty override list falls back
      to the defaults, as `override_phrases or _DEFAULT_OVERRIDE_PHRASES` does. */
  function PhraseSet(overrides: Option<seq<string>>): (r: set<string>)
    ensures forall p :: p in r ==> IsLowerCase(p)
    ensures overrides.Some? && overrides.value != [] ==>
              forall i :: 0 <= i < |overrides.value| ==> Lower(overrides.value[i]) in r
    ensures overrides.None? || overrides == Some([]) ==>
              forall i :: 0 <= i < |DefaultPhrases| ==> Lower(DefaultPhrases[i]) in r
    ensures forall p :: p in r ==>
              exists q :: q in (if overrides.Some? && overrides.value != [] then overrides.value else DefaultPhrases) && p == Lower(q)
  {
    var src := if overrides.Some? && overrides.value != [] then overrides.value else DefaultPhrases;
    var r := set p | p in src :: Lower(p);
    assert forall p :: p in r ==> IsLowerCase(p) by {
      forall p | p in r ensures IsLowerCase(p) {
        var q :| q in src && p == Lower(q);
        LowerIsLowerCase(q);
      }
    }
    r
  }

  /** The first phrase of `order` that occurs in `text`. */
  function FirstPhrase(order: seq<string>, text: string): (r: Option<string>)
    ensures r.Some? ==> r.value in order && IsSubstring(r.value, text)
    ensures r.None? <==> forall i :: 0 <= i < |order| ==> !IsSubstring(order[i], text)
  {
    if |order| == 0 then None
    else if IsSubstring(order[0], text) then Some(order[0])
    else
      var r := FirstPhrase(order[1..], text);
      assert forall i :: 1 <= i < |order| ==> order[i] == order[1..][i - 1];
      r
  }

  /** The phrase a chunk is reported for. The source walks a Python set, whose
      order is unspecified; this model walks it in code-point order. */
  function ChunkPhrase(chunk: ContextChunk, phrases: set<string>): (r: Option<string>)
    ensures r.Some? ==> r.value in phrases && IsSubstring(r.value, Lower(chunk.text))
    ensures r.None? <==> forall p :: p in phrases ==> !IsSubstring(p, Lower(chunk.text))
  {
    var order := SortedSet(phrases);
    FirstPhrase(order, Lower(chunk.text))
  }

  function Flagged(phrases: set<string>): ContextChunk -> bool {
    (c: ContextChunk) => ChunkPhrase(c, phrases).Some?
  }

  function PhraseFinding(chunk: ContextChunk, phrase: string): Finding {
    Finding("context_poisoning", High, "Context chunk " + chunk.source + " contains override phrase",
            [Entry("phrase", Str(phrase)), Entry("source", Str(chunk.source))])
  }

  /** At most one high finding per chunk holding some phrase, in chunk order. */
  function PhraseFindings(contexts: seq<ContextChunk>, phrases: set<string>): (r: seq<Finding>)
    ensures |r| == Count(contexts, Flagged(phrases)) && |r| <= |contexts|
    ensures forall i :: 0 <= i < |r| ==>
      && r[i].kind == "context_poisoning" && r[i].severity == High
      && exists c, p :: c in contexts && p in phrases && IsSubstring(p, Lower(c.text))
                        && r[i] == PhraseFinding(c, p)
  {
    var flagged := Filter(contexts, Flagged(phrases));
    seq(|flagged|, i requires 0 <= i < |flagged| =>
          PhraseFinding(flagged[i], ChunkPhrase(flagged[i], phrases).value))
  }

  /** A chunk is reported exactly when some phrase occurs in its lower-cased
      text, and it is reported in its place among the reported chunks. */
  lemma PhraseFindingAt(contexts: seq<ContextChunk>, phrases: set<string>, i: int)
    requires 0 <= i < |contexts|
    requires exists p :: p in phrases && IsSubstring(p, Lower(contexts[i].text))
    ensures var k := Count(contexts[..i], Flagged(phrases));
            && k < |PhraseFindings(contexts, phrases)|
            && PhraseFindings(contexts, phrases)[k].evidence[1] == Entry("source", Str(contexts[i].source))
  {
    FilterAt(contexts, Flagged(phrases), i);
  }

  /** Python's `str(v)`; containers are printed by `repr`, given as `repr`. */
  function PyStr(v: Value, repr: Value -> string): string {
    if v.List? || v.Dict? then repr(v) else ScalarText(v)
  }

  /** The text of a call's `url` argument, `""` when absent. */
  function UrlArg(call: ToolCall, repr: Value -> string): string {
    match Get(call.args, "url")
    case None => ""
    case Some(v) => PyStr(v, repr)
  }

  function DomainFinding(call: ToolCall, domain: string): Finding {
    Finding("context_poisoning", Medium,
            "Tool call " + call.name + " references off-policy domain " + domain,
            [Entry("tool", Str(call.name)), Entry("domain", Str(domain))])
  }

  /** What the domain check needs from outside: `urlparse`, IDNA encoding and
      `repr` of containers. */
  datatype UrlTools = UrlTools(
    parse: string -> Result<UrlParts, string>,
    idna: string -> Result<string, string>,
    repr: Value -> string)

  /** `domain_of(str(call.args.get("url", "")))`. */
  function CallDomain(call: ToolCall, tools: UrlTools): Result<string, string> {
    DomainOfUrl(UrlArg(call, tools.repr), tools.parse, tools.idna)
  }

  predicate OffPolicy(call: ToolCall, allowed: set<string>, tools: UrlTools, f: Finding) {
    && CallDomain(call, tools).Success?
    && var d := CallDomain(call, tools).value;
       d != "" && d !in allowed && f == DomainFinding(call, d)
  }

  /** `f` is the off-policy finding of one of the calls. */
  predicate OffPolicyIn(calls: seq<ToolCall>, allowed: set<string>, tools: UrlTools, f: Finding) {
    exists j :: 0 <= j < |calls| && OffPolicy(calls[j], allowed, tools, f)
  }

  /** Off-policy findings of the first call, followed by those of the rest,
      are off-policy findings of the whole list. */
  lemma OffPolicyCons(calls: seq<ToolCall>, allowed: set<string>, tools: UrlTools, here: seq<Finding>, rest: seq<Finding>)
    requires |calls| > 0
    requires forall i :: 0 <= i < |here| ==> OffPolicy(calls[0], allowed, tools, here[i])
    requires forall i :: 0 <= i < |rest| ==> OffPolicyIn(calls[1..], allowed, tools, rest[i])
    ensures forall i :: 0 <= i < |here + rest| ==> OffPolicyIn(calls, allowed, tools, (here + rest)[i])
  {
    forall i | 0 <= i < |here + rest|
      ensures OffPolicyIn(calls, allowed, tools, (here + rest)[i])
    {
      if i < |here| {
        assert (here + rest)[i] == here[i];
        assert OffPolicy(calls[0], allowed, tools, (here + rest)[i]);
      } else {
        assert (here + rest)[i] == rest[i - |here|];
        var j :| 0 <= j < |calls[1..]| && OffPolicy(calls[1..][j], allowed, tools, rest[i - |here|]);
        assert calls[1..][j] == calls[j + 1];
        assert OffPolicy(calls[j + 1], allowed, tools, (here + rest)[i]);
      }
    }
  }

  /** The calls the domain check reports: a non-empty allow-list, and a
      non-empty domain outside it. */
  function OffPolicyCall(allowed: set<string>, tools: UrlTools): ToolCall -> bool {
    call => allowed != {} && CallDomain(call, tools).Success?
            && CallDomain(call, tools).value != "" && CallDomain(call, tools).value !in allowed
  }

  /** The domain check over the calls. Every call's domain is computed, even
      with an empty allow-list, so an encoding error is raised regardless. */
  function DomainFindings(calls: seq<ToolCall>, allowed: set<string>, tools: UrlTools): (r: Result<seq<Finding>, string>)
    ensures r.Success? ==> |r.value| <= |calls|
    ensures r.Success? && allowed == {} ==> r.value == []
    ensures r.Success? ==> forall i :: 0 <= i < |r.value| ==>
      && r.value[i].kind == "context_poisoning" && r.value[i].severity == Medium
      && OffPolicyIn(calls, allowed, tools, r.value[i])
    ensures r.Failure? <==> exists i :: 0 <= i < |calls| && CallDomain(calls[i], tools).Failure?
    ensures r.Success? ==> |r.value| == Count(calls, OffPolicyCall(allowed, tools))
  {
    if |calls| == 0 then Success([])
    else
      var call := calls[0];
      match CallDomain(call, tools)
      case Failure(e) => Failure(e)
      case Success(domain) =>
        var rest := DomainFindings(calls[1..], allowed, tools);
        assert forall i :: 1 <= i < |calls| ==> calls[i] == calls[1..][i - 1];
        if rest.Failure? then Failure(rest.error)
        else
          var here := if domain != "" && allowed != {} && domain !in allowed then [DomainFinding(call, domain)] else [];
          OffPolicyCons(calls, allowed, tools, here, rest.value);
          Success(here + rest.value)
  }

  /** The domain a call's finding names (`""` when it has none). */
  function DomainText(call: ToolCall, tools: UrlTools): string {
    match CallDomain(call, tools)
    case Success(d) => d
    case Failure(_) => ""
  }

  /** The finding of each call, in order. */
  function FindingsOf(calls: seq<ToolCall>, tools: UrlTools): (r: seq<Finding>)
    ensures |r| == |calls|
    ensures forall i :: 0 <= i < |calls| ==> r[i] == DomainFinding(calls[i], DomainText(calls[i], tools))
  {
    seq(|calls|, i requires 0 <= i < |calls| => DomainFinding(calls[i], DomainText(calls[i], tools)))
  }

  lemma FindingsOfAppend(a: seq<ToolCall>, b: seq<ToolCall>, tools: UrlTools)
    ensures FindingsOf(a + b, tools) == FindingsOf(a, tools) + FindingsOf(b, tools)
  {
    assert forall i :: 0 <= i < |b| ==> (a + b)[|a| + i] == b[i];
  }

  /** When no call's domain fails, the domain check reports exactly the
      off-policy calls, one finding each, in call order. */
  lemma {:induction false} DomainFindingsExact(calls: seq<ToolCall>, allowed: set<string>, tools: UrlTools)
    requires DomainFindings(calls, allowed, tools).Success?
    ensures DomainFindings(calls, allowed, tools).value == FindingsOf(Filter(calls, OffPolicyCall(allowed, tools)), tools)
    decreases |calls|
  {
    var p := OffPolicyCall(allowed, tools);
    if |calls| > 0 {
      var head := if p(calls[0]) then [calls[0]] else [];
      var rest := Filter(calls[1..], p);
      var fs := DomainFindings(calls, allowed, tools).value;
      assert DomainFindings(calls[1..], allowed, tools).Success? && fs == FindingsOf(head, tools) + FindingsOf(rest, tools) by {
        DomainFindingsCons(calls, allowed, tools);
        DomainFindingsExact(calls[1..], allowed, tools);
      }
      assert Filter(calls, p) == head + rest;
      FindingsOfAppend(head, rest, tools);
    }
  }

  /** Every flagged call yields its finding, in call order: the `j`-th call,
      when flagged, gives the finding after those of the flagged calls before
      it. */
  lemma DomainFindingsOrder(calls: seq<ToolCall>, allowed: set<string>, tools: UrlTools, j: int)
    requires DomainFindings(calls, allowed, tools).Success?
    requires 0 <= j < |calls| && OffPolicyCall(allowed, tools)(calls[j])
    ensures var k := Count(calls[..j], OffPolicyCall(allowed, tools));
            var fs := DomainFindings(calls, allowed, tools).value;
            k < |fs| && fs[k] == DomainFinding(calls[j], CallDomain(calls[j], tools).value)
  {
    DomainFindingsExact(calls, allowed, tools);
    FilterAt(calls, OffPolicyCall(allowed, tools), j);
  }

  /** One step of the domain check: the first call's finding, if flagged,
      then the rest's. */
  lemma DomainFindingsCons(calls: seq<ToolCall>, allowed: set<string>, tools: UrlTools)
    requires |calls| > 0 && DomainFindings(calls, allowed, tools).Success?
    ensures DomainFindings(calls[1..], allowed, tools).Success?
    ensures DomainFindings(calls, allowed, tools).value ==
              FindingsOf(if OffPolicyCall(allowed, tools)(calls[0]) then [calls[0]] else [], tools)
              + DomainFindings(calls[1..], allowed, tools).value
  {
    var head := if OffPolicyCall(allowed, tools)(calls[0]) then [calls[0]] else [];
    assert FindingsOf(head, tools) == if head == [] then [] else [DomainFinding(calls[0], DomainText(calls[0], tools))];
  }

  /** The policy's allowed domains, lower-cased. */
  function Allowed(p: Policy): (r: set<string>)
    ensures forall d :: d in p.allowedUrlDomains ==> Lower(d) in r
    ensures forall x :: x in r ==> exists d :: d in p.allowedUrlDomains && x == Lower(d)
  {
    set d | d in p.allowedUrlDomains :: Lower(d)
  }

  /** `run`: the phrase findings, then, when a policy is given, the domain
      findings against its lower-cased allowed domains. */
  function Run(run: RunInput, policy: Option<Policy>, overrides: Option<seq<string>>,
               tools: UrlTools): (r: Result<seq<Finding>, string>)
    ensures var pf := PhraseFindings(run.contexts, PhraseSet(overrides));
            && (r.Success? ==> |pf| <= |r.value| && r.value[..|pf|] == pf
                               && forall i :: |pf| <= i < |r.value| ==> r.value[i].severity == Medium)
            && (policy.None? ==> r == Success(pf))
            && (policy.Some? && policy.value.allowedUrlDomains == {} && r.Success? ==> r.value == pf)
    ensures r.Failure? ==> policy.Some?
    ensures policy.Some? ==> var df := DomainFindings(run.toolCalls, Allowed(policy.value), tools);
            && (r.Failure? <==> df.Failure?)
            && (r.Success? ==> r.value[|PhraseFindings(run.contexts, PhraseSet(overrides))|..] == df.value)
  {
    var pf := PhraseFindings(run.contexts, PhraseSet(overrides));
    match policy
    case None => Success(pf)
    case Some(p) =>
      var df :- DomainFindings(run.toolCalls, Allowed(p), tools);
      assert (pf + df)[..|pf|] == pf;
      assert (pf + df)[|pf|..] == df;
      Success(pf + df)
  }
}

=== FILE: policy.dfy ===
/** Guardrail configuration and its dictionary form (sentrykit/policy.py). */
module Policies {
  import opened Wrappers
  import opened StringOrder

  datatype Policy = Policy(
    allowedToolNames: set<string>,
    allowedUrlDomains: set<string>,
    requireClaims: bool,
    blockOn: set<string>,
    minCompanySize: Option<int>,
    minPayThreshold: Option<int>,
    treatMetroAsMinor: bool)

  /** `Policy()`: everything allowed-listed empty, nothing blocked, claims
      required, no thresholds, Austin suburbs treated as minor drift. */
  function Default(): (p: Policy)
    ensures p.allowedToolNames == {} && p.allowedUrlDomains == {} && p.blockOn == {}
    ensures p.requireClaims && p.treatMetroAsMinor
    ensures p.minCompanySize.None? && p.minPayThreshold.None?
  {
    Policy({}, {}, true, {}, None, None, true)
  }

  /** A policy dictionary. Each field is `None` when its key is absent; the two
      thresholds may also be present with the value `None`, hence the nested
      option. List-valued keys hold lists of strings. */
  datatype PolicyDict = PolicyDict(
    allowedToolNames: Option<seq<string>>,
    allowedUrlDomains: Option<seq<string>>,
    requireClaims: Option<bool>,
    blockOn: Option<seq<string>>,
    minCompanySize: Option<Option<int>>,
    minPayThreshold: Option<Option<int>>,
    treatMetroAsMinor: Option<bool>)

  const EmptyDict: PolicyDict := PolicyDict(None, None, None, None, None, None, None)

  /** `to_dict`: every key present, the three sets as sorted lists. */
  function ToDict(p: Policy): (d: PolicyDict)
    ensures d.allowedToolNames.Some? && d.allowedUrlDomains.Some? && d.blockOn.Some?
    ensures d.requireClaims.Some? && d.treatMetroAsMinor.Some?
    ensures d.minCompanySize.Some? && d.minPayThreshold.Some?
    ensures Sorted(d.allowedToolNames.value) && ToSet(d.allowedToolNames.value) == p.allowedToolNames
    ensures Sorted(d.allowedUrlDomains.value) && ToSet(d.allowedUrlDomains.value) == p.allowedUrlDomains
    ensures Sorted(d.blockOn.value) && ToSet(d.blockOn.value) == p.blockOn
  {
    PolicyDict(
      Some(SortedSet(p.allowedToolNames)),
      Some(SortedSet(p.allowedUrlDomains)),
      Some(p.requireClaims),
      Some(SortedSet(p.blockOn)),
      Some(p.minCompanySize),
      Some(p.minPayThreshold),
      Some(p.treatMetroAsMinor))
  }

  /** `data.get(key)` for a key whose value may itself be `None`. */
  function Flatten(o: Option<Option<int>>): Option<int> {
    match o
    case Some(v) => v
    case None => None
  }

  /** `from_dict`: each absent key takes the default of `Policy()`. */
  function FromDict(d: PolicyDict): (p: Policy)
    ensures d.allowedToolNames.None? ==> p.allowedToolNames == {}
    ensures d.allowedUrlDomains.None? ==> p.allowedUrlDomains == {}
    ensures d.blockOn.None? ==> p.blockOn == {}
    ensures d.requireClaims.None? ==> p.requireClaims
    ensures d.treatMetroAsMinor.None? ==> p.treatMetroAsMinor
    ensures d.minCompanySize.None? ==> p.minCompanySize.None?
    ensures d.minPayThreshold.None? ==> p.minPayThreshold.None?
    ensures d.allowedToolNames.Some? ==> p.allowedToolNames == ToSet(d.allowedToolNames.value)
    ensures d.allowedUrlDomains.Some? ==> p.allowedUrlDomains == ToSet(d.allowedUrlDomains.value)
    ensures d.blockOn.Some? ==> p.blockOn == ToSet(d.blockOn.value)
    ensures d.requireClaims.Some? ==> p.requireClaims == d.requireClaims.value
    ensures d.treatMetroAsMinor.Some? ==> p.treatMetroAsMinor == d.treatMetroAsMinor.value
    ensures d.minCompanySize.Some? ==> p.minCompanySize == d.minCompanySize.value
    ensures d.minPayThreshold.Some? ==> p.minPayThreshold == d.minPayThreshold.value
  {
    Policy(
      ToSet(d.allowedToolNames.GetOr([])),
      ToSet(d.allowedUrlDomains.GetOr([])),
      d.requireClaims.GetOr(true),
      ToSet(d.blockOn.GetOr([])),
      Flatten(d.minCompanySize),
      Flatten(d.minPayThreshold),
      d.treatMetroAsMinor.GetOr(true))
  }

  /** An empty dictionary reads as the default policy. */
  lemma FromEmptyDict()
    ensures FromDict(EmptyDict) == Default()
  {
  }

  /** Serialising and reading back gives the same policy. */
  lemma RoundTrip(p: Policy)
    ensures FromDict(ToDict(p)) == p
  {
    SortedSetToSet(p.allowedToolNames);
    SortedSetToSet(p.allowedUrlDomains);
    SortedSetToSet(p.blockOn);
  }

  /** `copy()`, which goes through the dictionary form, yields an equal policy. */
  function Copy(p: Policy): (q: Policy)
    ensures q == p
  {
    RoundTrip(p);
    FromDict(ToDict(p))
  }
}

=== FILE: redact.dfy ===
/** Secret masking (sentrykit/utils/redact.py). The five secret regexes are
    not interpreted: each is given as a function from a text to the strings its
    first group captures, match by match, as `finditer` reports them. */
module Redact {
  import opened Text

  type Finder = string -> seq<string>

  function Stars(n: nat): (r: string)
    ensures |r| == n && forall i :: 0 <= i < n ==> r[i] == '*'
  {
    seq(n, i => '*')
  }

  /** `_mask`: the same length, all stars for up to eight characters, otherwise
      stars followed by the last four characters. */
  function Mask(value: string): (r: string)
    ensures |r| == |value|
    ensures |value| <= 8 ==> forall i :: 0 <= i < |r| ==> r[i] == '*'
    ensures |value| > 8 ==> r[|r| - 4..] == value[|value| - 4..]
    ensures |value| > 8 ==> forall i :: 0 <= i < |r| - 4 ==> r[i] == '*'
  {
    if |value| <= 8 then Stars(|value|) else Stars(|value| - 4) + value[|value| - 4..]
  }

  /** `r` is `text` with some characters replaced by stars. */
  predicate Starred(r: string, text: string) {
    |r| == |text| && forall i :: 0 <= i < |r| ==> r[i] == text[i] || r[i] == '*'
  }

  lemma StarredTrans(r: string, m: string, text: string)
    requires Starred(r, m) && Starred(m, text)
    ensures Starred(r, text)
  {
  }

  /** A mask shows a character only where the value has it. */
  lemma MaskStarred(value: string)
    ensures Starred(Mask(value), value)
  {
    var r := Mask(value);
    if |value| > 8 {
      forall i | |r| - 4 <= i < |r| ensures r[i] == value[i] {
        assert r[|r| - 4..][i - (|r| - 4)] == value[|value| - 4..][i - (|value| - 4)];
      }
    }
  }

  /** Replacing a secret by its mask only turns characters into stars. */
  lemma {:induction false} ReplaceByMask(text: string, secret: string)
    ensures Starred(ReplaceAll(text, secret, Mask(secret)), text)
    decreases |text|
  {
    var r := ReplaceAll(text, secret, Mask(secret));
    if |secret| == 0 {
      assert Mask(secret) == [];
      if |text| > 0 {
        ReplaceByMask(text[1..], secret);
        assert r == [text[0]] + ReplaceAll(text[1..], secret, Mask(secret));
      }
    } else if |text| > 0 {
      if secret <= text {
        var rest := ReplaceAll(text[|secret|..], secret, Mask(secret));
        ReplaceByMask(text[|secret|..], secret);
        MaskStarred(secret);
        assert r == Mask(secret) + rest;
        forall i | 0 <= i < |r| ensures r[i] == text[i] || r[i] == '*' {
          if i < |secret| {
            assert r[i] == Mask(secret)[i] && secret[i] == text[i];
          } else {
            assert r[i] == rest[i - |secret|] && text[|secret|..][i - |secret|] == text[i];
          }
        }
      } else {
        var rest := ReplaceAll(text[1..], secret, Mask(secret));
        ReplaceByMask(text[1..], secret);
        assert r == [text[0]] + rest;
        assert forall i :: 1 <= i < |r| ==> r[i] == rest[i - 1] && text[1..][i - 1] == text[i];
      }
    }
  }

  /** Replaces every occurrence of each matched secret by its mask, in match order. */
  function MaskAll(text: string, secrets: seq<string>): (r: string)
    ensures |r| == |text|
    ensures Starred(r, text)
    decreases |secrets|
  {
    if |secrets| == 0 then text
    else
      var s := secrets[0];
      var once := ReplaceAll(text, s, Mask(s));
      ReplaceAllPreservesLength(text, s, Mask(s));
      ReplaceByMask(text, s);
      var r := MaskAll(once, secrets[1..]);
      StarredTrans(r, once, text);
      r
  }

  /** The patterns in order; each sees the text already masked by those before it. */
  function RedactWith(finders: seq<Finder>, text: string): (r: string)
    ensures |r| == |text|
    ensures Starred(r, text)
    decreases |finders|
  {
    if |finders| == 0 then text
    else
      var once := MaskAll(text, finders[0](text));
      var r := RedactWith(finders[1..], once);
      StarredTrans(r, once, text);
      r
  }

  /** `redact_secrets`, given the secret patterns' match functions: the text
      keeps its length, and a character either stays or becomes a star. */
  function RedactSecrets(finders: seq<Finder>, text: string): (r: string)
    ensures |r| == |text|
    ensures forall i :: 0 <= i < |r| ==> r[i] == text[i] || r[i] == '*'
  {
    RedactWith(finders, text)
  }

  /** A text that no pattern matches comes back unchanged. */
  lemma {:induction false} RedactNoMatch(finders: seq<Finder>, text: string)
    requires forall i :: 0 <= i < |finders| ==> finders[i](text) == []
    ensures RedactSecrets(finders, text) == text
  {
    if |finders| > 0 {
      assert MaskAll(text, finders[0](text)) == text;
      RedactNoMatch(finders[1..], text);
    }
  }
}

=== FILE: report.dfy ===
/** The HTML report (sentrykit/report/html.py): the verdict is serialised with
    every string redacted, and the template's placeholders are replaced by the
    escaped status, score, reason and a findings table. The template file is
    given as a string. */
module HtmlReport {
  import opened Wrappers
  import opened Text
  import opened Values
  import opened Models
  import opened Redact
  import opened HtmlText

  // ------------------------------------------------------- serialising

  /** Two values with the same structure: strings may differ in content but not
      in length, everything else is equal. */
  predicate SameShape(v: Value, w: Value)
    decreases v
  {
    match v
    case Str(s) => w.Str? && |w.s| == |s|
    case List(items) =>
      w.List? && |w.items| == |items| && forall i :: 0 <= i < |items| ==> SameShape(items[i], w.items[i])
    case Dict(entries) =>
      w.Dict? && |w.entries| == |entries| &&
      forall i :: 0 <= i < |entries| ==>
        w.entries[i].key == entries[i].key && SameShape(entries[i].val, w.entries[i].val)
    case _ => w == v
  }

  /** `_sanitize_value`: every string, however deeply nested, is redacted; keys
      are kept. */
  function Sanitize(v: Value, finders: seq<Finder>): (r: Value)
    ensures SameShape(v, r)
    decreases v
  {
    match v
    case Str(s) => Str(RedactSecrets(finders, s))
    case List(items) =>
      List(seq(|items|, i requires 0 <= i < |items| => Sanitize(items[i], finders)))
    case Dict(entries) =>
      Dict(seq(|entries|, i requires 0 <= i < |entries| => Entry(entries[i].key, Sanitize(entries[i].val, finders))))
    case _ => v
  }

  /** With finders that never match, sanitising changes nothing. */
  lemma {:induction false} SanitizeNoSecrets(v: Value, finders: seq<Finder>)
    requires forall i, t :: 0 <= i < |finders| ==> finders[i](t) == []
    ensures Sanitize(v, finders) == v
    decreases v
  {
    match v
    case Str(s) => RedactNoMatch(finders, s);
    case List(items) =>
      forall i | 0 <= i < |items| ensures Sanitize(items[i], finders) == items[i] {
        SanitizeNoSecrets(items[i], finders);
      }
      assert Sanitize(v, finders).items == items;
    case Dict(entries) =>
      forall i | 0 <= i < |entries| ensures Sanitize(entries[i].val, finders) == entries[i].val {
        SanitizeNoSecrets(entries[i].val, finders);
      }
      assert Sanitize(v, finders).entries == entries;
    case _ =>
  }

  /** One finding of `_serialize_findings`. */
  function SerializeFinding(f: Finding, finders: seq<Finder>): (d: FindingData)
    ensures d.kind == f.kind && d.severity == SeverityName(f.severity)
    ensures |d.details| == |f.details|
    ensures SameShape(Dict(f.evidence), Dict(d.evidence))
  {
    FindingData(f.kind, SeverityName(f.severity), RedactSecrets(finders, f.details),
                Sanitize(Dict(f.evidence), finders).entries)
  }

  /** What serialising keeps of a verdict: the flag and the score, the reason
      up to stars, and per finding its kind, severity name and evidence keys. */
  predicate Serialized(v: Verdict, d: VerdictData) {
    && d.blocked == v.blocked && d.score == v.score
    && |d.reason| == |v.reason|
    && (forall i :: 0 <= i < |v.reason| ==> d.reason[i] == v.reason[i] || d.reason[i] == '*')
    && |d.findings| == |v.findings|
    && forall i :: 0 <= i < |d.findings| ==>
         d.findings[i].kind == v.findings[i].kind
         && d.findings[i].severity == SeverityName(v.findings[i].severity)
         && |d.findings[i].evidence| == |v.findings[i].evidence|
  }

  /** `_serialize_verdict`: the score is kept in tenths. */
  function SerializeVerdict(v: Verdict, finders: seq<Finder>): (d: VerdictData)
    ensures Serialized(v, d)
  {
    VerdictData(v.blocked, v.score, RedactSecrets(finders, v.reason),
                seq(|v.findings|, i requires 0 <= i < |v.findings| => SerializeFinding(v.findings[i], finders)))
  }

  // --------------------------------------------------------- rendering

  predicate IsCased(c: char) {
    ('a' <= c <= 'z') || ('A' <= c <= 'Z')
  }

  /** Python's `str.title()`: a letter after a letter is lowered, any other
      letter is raised. */
  function TitleAfter(s: string, prevCased: bool): (r: string)
    ensures |r| == |s|
    ensures forall i :: 0 <= i < |s| ==> (r[i] == LowerChar(s[i]) || r[i] == UpperChar(s[i]))
  {
    if |s| == 0 then []
    else
      var c := if prevCased then LowerChar(s[0]) else UpperChar(s[0]);
      var rest := TitleAfter(s[1..], IsCased(s[0]));
      var r := [c] + rest;
      assert forall i :: 1 <= i < |r| ==> r[i] == rest[i - 1];
      r
  }

  function Title(s: string): (r: string)
    ensures |r| == |s|
  {
    TitleAfter(s, false)
  }

  lemma TitleHigh()
    ensures Title("high") == "High"
  {
    assert "high"[1..] == "igh" && "igh"[1..] == "gh" && "gh"[1..] == "h" && "h"[1..] == [];
    assert TitleAfter("h", true) == "h";
    assert TitleAfter("gh", true) == "gh";
    assert TitleAfter("igh", true) == "igh";
    assert UpperChar('h') == 'H';
  }

  /** `str(value)` of a dict, list or scalar, as `_stringify` writes it:
      containers are flattened into a `", "`-separated text without brackets. */
  function Stringify(v: Value): (r: string)
    ensures v.Str? ==> r == v.s
    ensures v.Null? ==> r == "None"
    ensures v.List? && v.items == [] ==> r == []
    ensures v.Dict? && v.entries == [] ==> r == []
    ensures v.List? && |v.items| == 1 ==> r == Stringify(v.items[0])
    ensures v.Dict? && |v.entries| == 1 ==> r == v.entries[0].key + ": " + Stringify(v.entries[0].val)
    decreases v
  {
    match v
    case Dict(entries) =>
      Join(", ", seq(|entries|, i requires 0 <= i < |entries| => entries[i].key + ": " + Stringify(entries[i].val)))
    case List(items) =>
      Join(", ", seq(|items|, i requires 0 <= i < |items| => Stringify(items[i])))
    case _ => ScalarText(v)
  }

  /** Joining two non-empty runs of parts puts one separator between them. */
  lemma {:induction false} JoinAppend(sep: string, a: seq<string>, b: seq<string>)
    requires a != [] && b != []
    ensures Join(sep, a + b) == Join(sep, a) + sep + Join(sep, b)
    decreases |a|
  {
    if |a| == 1 {
      assert (a + b)[1..] == b;
    } else {
      assert (a + b)[1..] == a[1..] + b;
      JoinAppend(sep, a[1..], b);
    }
  }

  /** A list prints as its two halves joined by `", "`: nesting leaves no mark,
      so `[[1, 2], 3]` and `[1, 2, 3]` print alike. */
  lemma StringifyListAppend(a: seq<Value>, b: seq<Value>)
    requires a != [] && b != []
    ensures Stringify(List(a + b)) == Stringify(List(a)) + ", " + Stringify(List(b))
  {
    var pa := seq(|a|, i requires 0 <= i < |a| => Stringify(a[i]));
    var pb := seq(|b|, i requires 0 <= i < |b| => Stringify(b[i]));
    var ab := a + b;
    assert seq(|ab|, i requires 0 <= i < |ab| => Stringify(ab[i])) == pa + pb;
    JoinAppend(", ", pa, pb);
  }

  /** `f"{score:.2f}"` for a score kept in tenths. */
  function FormatTenths(n: nat): (r: string)
    ensures |r| >= 4 && r[|r| - 3] == '.' && r[|r| - 1] == '0'
  {
    NatToString(n / 10) + "." + [DigitChar(n % 10)] + "0"
  }

  /** Reads back a score printed with two decimals whose last digit is 0. */
  function ParseTenths(s: string): (r: Option<nat>)
  {
    match SplitFirst(s, '.')
    case None => None
    case Some(parts) =>
      var (whole, frac) := parts;
      if |frac| != 2 || !IsDigit(frac[0]) || frac[1] != '0' then None
      else
        match ParseNat(whole)
        case None => None
        case Some(w) => Some(w * 10 + (frac[0] as int - '0' as int))
  }

  /** The printed score reads back as the same number of tenths. */
  lemma FormatTenthsRoundTrip(n: nat)
    ensures ParseTenths(FormatTenths(n)) == Some(n)
  {
    var whole := NatToString(n / 10);
    var frac := [DigitChar(n % 10)] + "0";
    var s := FormatTenths(n);
    assert s == whole + ['.'] + frac;
    assert '.' !in whole by {
      assert forall i :: 0 <= i < |whole| ==> IsDigit(whole[i]);
    }
    SplitFirstAt(whole, frac, '.');
    ParsePrinted(n / 10);
  }

  /** The number of `<` characters: every tag of the report opens with one. */
  function Opens(s: string): nat {
    if |s| == 0 then 0 else (if s[0] == '<' then 1 else 0) + Opens(s[1..])
  }

  lemma {:induction false} OpensAppend(a: string, b: string)
    ensures Opens(a + b) == Opens(a) + Opens(b)
    decreases |a|
  {
    if |a| == 0 {
      assert a + b == b;
    } else {
      assert (a + b)[1..] == a[1..] + b;
      OpensAppend(a[1..], b);
    }
  }

  lemma {:induction false} NoOpens(s: string)
    requires '<' !in s
    ensures Opens(s) == 0
    decreases |s|
  {
    if |s| > 0 {
      assert s[0] in s;
      assert forall c :: c in s[1..] ==> c in s;
      NoOpens(s[1..]);
    }
  }

  lemma EscapedOpensNothing(s: string)
    ensures Opens(Escape(s)) == 0
  {
    var e := Escape(s);
    assert '<' !in e;
    NoOpens(e);
  }

  /** A tag of the report's own markup: `<` and the rest of the tag. */
  function Tag(rest: string): (r: string)
    requires '<' !in rest
    ensures Opens(r) == 1
  {
    NoOpens(rest);
    assert ("<" + rest)[1..] == rest;
    "<" + rest
  }

  /** The markup of one `<li>` around an escaped key and value. */
  function ItemMarkup(key: string, val: string): (r: string)
    requires Opens(key) == 0 && Opens(val) == 0
    ensures Opens(r) == 4
  {
    var a := Tag("li>") + Tag("strong>");
    OpensAppend(Tag("li>"), Tag("strong>"));
    var b := ":" + Tag("/strong> ");
    NoOpens(":");
    OpensAppend(":", Tag("/strong> "));
    OpensAppend(a, key);
    OpensAppend(a + key, b);
    OpensAppend(a + key + b, val);
    OpensAppend(a + key + b + val, Tag("/li>"));
    a + key + b + val + Tag("/li>")
  }

  /** One `<li>` of a row's evidence list. */
  function Item(e: Entry): (r: string)
    ensures Opens(r) == 4
  {
    EscapedOpensNothing(e.key);
    EscapedOpensNothing(Stringify(e.val));
    ItemMarkup(Escape(e.key), Escape(Stringify(e.val)))
  }

  /** The evidence list of a row: markup of its own, whatever the evidence says. */
  function Items(es: seq<Entry>): (r: string)
    ensures Opens(r) == 4 * |es|
  {
    if |es| == 0 then
      NoOpens([]);
      []
    else
      var head := Item(es[0]);
      var rest := Items(es[1..]);
      OpensAppend(head, rest);
      head + rest
  }

  /** Concatenation, counting the tags of both parts. */
  function Cat(a: string, b: string): (r: string)
    ensures Opens(r) == Opens(a) + Opens(b)
  {
    OpensAppend(a, b);
    a + b
  }

  /** An element `<name>inner</name>`; `name` ends with the tag's `>`. */
  function Wrap(name: string, inner: string): (r: string)
    requires '<' !in name
    ensures Opens(r) == 2 + Opens(inner)
  {
    assert forall c :: c in "/" + name ==> c == '/' || c in name;
    Cat(Cat(Tag(name), inner), Tag("/" + name))
  }

  /** A `<td>` around text that opens no tag. */
  function Cell(text: string): (r: string)
    requires Opens(text) == 0
    ensures Opens(r) == 2
  {
    Wrap("td>", text)
  }

  /** The severity cell, classed by the severity name. */
  function SeverityCell(sev: string, title: string): (r: string)
    requires Opens(sev) == 0 && Opens(title) == 0
    ensures Opens(r) == 2
  {
    NoOpens("'>");
    Cat(Cat(Cat(Cat(Tag("td class='severity-"), sev), "'>"), title), Tag("/td>"))
  }

  /** The evidence cell around a list's items. */
  function EvidenceCell(items: string): (r: string)
    ensures Opens(r) == 4 + Opens(items)
  {
    Wrap("td>", Wrap("ul>", items))
  }

  /** The three text cells of a row. */
  function TextCells(kind: string, sev: string, title: string, details: string): (r: string)
    requires Opens(kind) == 0 && Opens(sev) == 0 && Opens(title) == 0 && Opens(details) == 0
    ensures Opens(r) == 6
  {
    Cat(Cat(Cell(kind), SeverityCell(sev, title)), Cell(details))
  }

  /** The markup of one `<tr>` around its text cells and evidence list. */
  function RowMarkup(cells: string, items: string): (r: string)
    requires Opens(cells) == 6
    ensures Opens(r) == 12 + Opens(items)
  {
    Wrap("tr>", Cat(cells, EvidenceCell(items)))
  }

  /** One `<tr>` of the findings table. Kind, severity, details and evidence
      are escaped, so the row holds exactly the tags it writes itself. */
  function Row(fd: FindingData): (r: string)
    ensures Opens(r) == 12 + 4 * |fd.evidence|
  {
    EscapedOpensNothing(fd.kind);
    EscapedOpensNothing(fd.severity);
    EscapedOpensNothing(Title(fd.severity));
    EscapedOpensNothing(fd.details);
    var cells := TextCells(Escape(fd.kind), Escape(fd.severity), Escape(Title(fd.severity)), Escape(fd.details));
    RowMarkup(cells, Items(fd.evidence))
  }

  /** The opening tags of all rows. */
  function RowOpens(fds: seq<FindingData>): nat {
    if |fds| == 0 then 0 else 12 + 4 * |fds[0].evidence| + RowOpens(fds[1..])
  }

  function Rows(fds: seq<FindingData>): (r: string)
    ensures Opens(r) == RowOpens(fds)
  {
    if |fds| == 0 then
      NoOpens([]);
      []
    else Cat(Row(fds[0]), Rows(fds[1..]))
  }

  /** A `<th>` cell. */
  function Header(text: string): (r: string)
    requires '<' !in text
    ensures Opens(r) == 2
  {
    NoOpens(text);
    Wrap("th>", text)
  }

  /** A row of column headers. */
  function Headers(names: seq<string>): (r: string)
    requires forall i :: 0 <= i < |names| ==> '<' !in names[i]
    ensures Opens(r) == 2 * |names|
  {
    if |names| == 0 then
      NoOpens([]);
      []
    else Cat(Header(names[0]), Headers(names[1..]))
  }

  const ColumnNames: seq<string> := ["Kind", "Severity", "Details", "Evidence"]

  /** A run of tags. */
  function Tags(names: seq<string>): (r: string)
    requires forall i :: 0 <= i < |names| ==> '<' !in names[i]
    ensures Opens(r) == |names|
  {
    if |names| == 0 then
      NoOpens([]);
      []
    else Cat(Tag(names[0]), Tags(names[1..]))
  }

  const HeadOpen: seq<string> := ["table>", "thead>", "tr>"]
  const HeadClose: seq<string> := ["/tr>", "/thead>", "tbody>"]

  /** The findings table's head: three opening tags, four `<th>` cells and
      three tags that close the head and open the body. */
  function TableHead(): (r: string)
    ensures Opens(r) == 14
  {
    TableHeadOf(HeadOpen, ColumnNames, HeadClose)
  }

  function TableHeadOf(open: seq<string>, columns: seq<string>, close: seq<string>): (r: string)
    requires forall i :: 0 <= i < |open| ==> '<' !in open[i]
    requires forall i :: 0 <= i < |columns| ==> '<' !in columns[i]
    requires forall i :: 0 <= i < |close| ==> '<' !in close[i]
    ensures Opens(r) == |open| + 2 * |columns| + |close|
  {
    Cat(Cat(Tags(open), Headers(columns)), Tags(close))
  }

  function TableTail(): (r: string)
    ensures Opens(r) == 2
  {
    OpensAppend(Tag("/tbody>"), Tag("/table>"));
    Tag("/tbody>") + Tag("/table>")
  }

  const NoFindings: string := "<p>No findings.</p>"

  /** One evidence item is the `<li>` the report writes, around the escaped
      key and the escaped printed value. */
  lemma ItemText(e: Entry)
    ensures Item(e) == "<li><strong>" + Escape(e.key) + ":</strong> " + Escape(Stringify(e.val)) + "</li>"
  {
    EscapedOpensNothing(e.key);
    EscapedOpensNothing(Stringify(e.val));
    ItemMarkupText(Escape(e.key), Escape(Stringify(e.val)));
  }

  lemma ItemMarkupText(k: string, v: string)
    requires Opens(k) == 0 && Opens(v) == 0
    ensures ItemMarkup(k, v) == "<li><strong>" + k + ":</strong> " + v + "</li>"
  {
    ItemPieces();
  }

  lemma ItemPieces()
    ensures Tag("li>") + Tag("strong>") == "<li><strong>"
    ensures ":" + Tag("/strong> ") == ":</strong> "
    ensures Tag("/li>") == "</li>"
  {
  }

  /** The evidence items appear in the evidence's order. */
  lemma {:induction false} ItemsAppend(a: seq<Entry>, b: seq<Entry>)
    ensures Items(a + b) == Items(a) + Items(b)
    decreases |a|
  {
    if |a| == 0 {
      assert a + b == b;
    } else {
      assert (a + b)[0] == a[0];
      assert (a + b)[1..] == a[1..] + b;
      ItemsAppend(a[1..], b);
    }
  }

  /** One row is the `<tr>` the report writes: the escaped kind, the severity
      as class and as title, the escaped details and the evidence list. */
  lemma RowText(fd: FindingData)
    ensures Row(fd) == "<tr>"
                       + ("<td>" + Escape(fd.kind) + "</td>")
                       + ("<td class='severity-" + Escape(fd.severity) + "'>" + Escape(Title(fd.severity)) + "</td>")
                       + ("<td>" + Escape(fd.details) + "</td>")
                       + ("<td><ul>" + Items(fd.evidence) + "</ul></td>")
                       + "</tr>"
  {
    EscapedOpensNothing(fd.kind);
    EscapedOpensNothing(fd.severity);
    EscapedOpensNothing(Title(fd.severity));
    EscapedOpensNothing(fd.details);
    var k, sv, t, d := Escape(fd.kind), Escape(fd.severity), Escape(Title(fd.severity)), Escape(fd.details);
    TextCellsText(k, sv, t, d);
    RowMarkupText(TextCells(k, sv, t, d), Items(fd.evidence));
    RegroupCells("<tr>", "<td>" + k + "</td>", "<td class='severity-" + sv + "'>" + t + "</td>",
                 "<td>" + d + "</td>", "<td><ul>" + Items(fd.evidence) + "</ul></td>", "</tr>");
  }

  lemma RegroupCells(a: string, b: string, c: string, d: string, e: string, f: string)
    ensures a + (b + c + d) + e + f == a + b + c + d + e + f
  {
  }

  lemma WrapText(name: string, inner: string)
    requires '<' !in name
    ensures Wrap(name, inner) == "<" + name + inner + "</" + name
  {
    assert forall c :: c in "/" + name ==> c == '/' || c in name;
  }

  lemma CellText(text: string)
    requires Opens(text) == 0
    ensures Cell(text) == "<td>" + text + "</td>"
  {
    WrapText("td>", text);
    assert "<" + "td>" == "<td>" && "</" + "td>" == "</td>";
  }

  lemma SeverityCellText(sev: string, title: string)
    requires Opens(sev) == 0 && Opens(title) == 0
    ensures SeverityCell(sev, title) == "<td class='severity-" + sev + "'>" + title + "</td>"
  {
    SeverityTags();
    NoOpens("'>");
  }

  lemma SeverityTags()
    ensures Tag("td class='severity-") == "<td class='severity-" && Tag("/td>") == "</td>"
  {
  }

  lemma TextCellsText(k: string, sv: string, t: string, d: string)
    requires Opens(k) == 0 && Opens(sv) == 0 && Opens(t) == 0 && Opens(d) == 0
    ensures TextCells(k, sv, t, d) == ("<td>" + k + "</td>")
                                      + ("<td class='severity-" + sv + "'>" + t + "</td>")
                                      + ("<td>" + d + "</td>")
  {
    CellText(k);
    CellText(d);
    SeverityCellText(sv, t);
  }

  lemma RowMarkupText(cells: string, items: string)
    requires Opens(cells) == 6
    ensures RowMarkup(cells, items) == "<tr>" + cells + ("<td><ul>" + items + "</ul></td>") + "</tr>"
  {
    EvidenceCellText(items);
    WrapText("tr>", Cat(cells, EvidenceCell(items)));
    assert "<" + "tr>" == "<tr>" && "</" + "tr>" == "</tr>";
  }

  lemma EvidenceCellText(items: string)
    ensures EvidenceCell(items) == "<td><ul>" + items + "</ul></td>"
  {
    WrapText("ul>", items);
    WrapText("td>", Wrap("ul>", items));
    assert "<" + "td>" + ("<" + "ul>" + items + "</" + "ul>") + "</" + "td>" == "<td><ul>" + items + "</ul></td>";
  }

  /** The texts of a sequence of items, one after another. */
  function ConcatMap<T>(xs: seq<T>, f: T -> string): string {
    if |xs| == 0 then [] else f(xs[0]) + ConcatMap(xs[1..], f)
  }

  lemma {:induction false} ConcatMapAppend<T>(a: seq<T>, b: seq<T>, f: T -> string)
    ensures ConcatMap(a + b, f) == ConcatMap(a, f) + ConcatMap(b, f)
    decreases |a|
  {
    if |a| == 0 {
      assert a + b == b;
    } else {
      assert (a + b)[0] == a[0];
      assert (a + b)[1..] == a[1..] + b;
      ConcatMapAppend(a[1..], b, f);
    }
  }

  /** The rows are the findings' rows, one after another. */
  lemma {:induction false} RowsEach(fds: seq<FindingData>)
    ensures Rows(fds) == ConcatMap(fds, Row)
    decreases |fds|
  {
    if |fds| > 0 {
      RowsEach(fds[1..]);
    }
  }

  /** The rows appear in the findings' order, one per finding. */
  lemma RowsAppend(a: seq<FindingData>, b: seq<FindingData>)
    ensures Rows(a + b) == Rows(a) + Rows(b)
  {
    RowsEach(a + b);
    RowsEach(a);
    RowsEach(b);
    ConcatMapAppend(a, b, Row);
  }

  lemma RowsSingle(fd: FindingData)
    ensures Rows([fd]) == Row(fd)
  {
    assert [fd][1..] == [];
  }

  /** The table around the rows, as the report writes it. */
  lemma TableText()
    ensures TableHead() == "<table>" + "<thead>" + "<tr>"
                           + ("<th>" + "Kind" + "</th>") + ("<th>" + "Severity" + "</th>")
                           + ("<th>" + "Details" + "</th>") + ("<th>" + "Evidence" + "</th>")
                           + "</tr>" + "</thead>" + "<tbody>"
    ensures TableTail() == "</tbody>" + "</table>"
  {
    HeadOpenText();
    HeadCloseText();
    ColumnHeadersText();
    Regroup10("<table>", "<thead>", "<tr>",
              "<th>" + "Kind" + "</th>", "<th>" + "Severity" + "</th>",
              "<th>" + "Details" + "</th>", "<th>" + "Evidence" + "</th>",
              "</tr>", "</thead>", "<tbody>");
    TailTags();
  }

  lemma HeadOpenText()
    ensures Tags(HeadOpen) == "<table>" + "<thead>" + "<tr>"
  {
    TagsThree(HeadOpen);
    HeadTags();
  }

  lemma HeadCloseText()
    ensures Tags(HeadClose) == "</tr>" + "</thead>" + "<tbody>"
  {
    TagsThree(HeadClose);
    HeadTags();
  }

  lemma ColumnHeadersText()
    ensures Headers(ColumnNames) == ("<th>" + "Kind" + "</th>") + ("<th>" + "Severity" + "</th>")
                                    + ("<th>" + "Details" + "</th>") + ("<th>" + "Evidence" + "</th>")
  {
    HeadersFour(ColumnNames);
    HeaderText(ColumnNames[0]);
    HeaderText(ColumnNames[1]);
    HeaderText(ColumnNames[2]);
    HeaderText(ColumnNames[3]);
  }

  lemma Regroup10(a: string, b: string, c: string, d: string, e: string,
                  f: string, g: string, h: string, i: string, j: string)
    ensures (a + b + c) + (d + e + f + g) + (h + i + j) == a + b + c + d + e + f + g + h + i + j
  {
  }

  lemma TagsThree(names: seq<string>)
    requires |names| == 3 && '<' !in names[0] && '<' !in names[1] && '<' !in names[2]
    ensures Tags(names) == Tag(names[0]) + Tag(names[1]) + Tag(names[2])
  {
    var n1, n2 := names[1..], names[2..];
    assert n1[0] == names[1] && n1[1..] == n2;
    assert n2[0] == names[2] && n2[1..] == [];
    assert Tags(n2) == Tag(names[2]) + Tags([]);
    assert Tags(n1) == Tag(names[1]) + Tags(n2);
  }

  lemma HeadersFour(names: seq<string>)
    requires |names| == 4 && '<' !in names[0] && '<' !in names[1] && '<' !in names[2] && '<' !in names[3]
    ensures Headers(names) == Header(names[0]) + Header(names[1]) + Header(names[2]) + Header(names[3])
  {
    var n1, n2, n3 := names[1..], names[2..], names[3..];
    assert n1[0] == names[1] && n1[1..] == n2;
    assert n2[0] == names[2] && n2[1..] == n3;
    assert n3[0] == names[3] && n3[1..] == [];
    HeadersCons(names);
    HeadersCons(n1);
    HeadersCons(n2);
    HeadersCons(n3);
    Nest4(Header(names[0]), Header(names[1]), Header(names[2]), Header(names[3]));
  }

  lemma Nest4(a: string, b: string, c: string, d: string)
    ensures a + (b + (c + (d + []))) == a + b + c + d
  {
  }

  lemma HeadersCons(names: seq<string>)
    requires |names| > 0 && forall i :: 0 <= i < |names| ==> '<' !in names[i]
    ensures Headers(names) == Header(names[0]) + Headers(names[1..])
  {
  }

  lemma HeaderText(text: string)
    requires '<' !in text
    ensures Header(text) == "<th>" + text + "</th>"
  {
    WrapText("th>", text);
    assert "<" + "th>" == "<th>" && "</" + "th>" == "</th>";
  }

  lemma HeadTags()
    ensures Tag("table>") == "<table>" && Tag("thead>") == "<thead>" && Tag("tr>") == "<tr>"
    ensures Tag("/tr>") == "</tr>" && Tag("/thead>") == "</thead>" && Tag("tbody>") == "<tbody>"
  {
  }

  lemma TailTags()
    ensures Tag("/tbody>") == "</tbody>" && Tag("/table>") == "</table>"
  {
  }

  /** `_build_findings_section`: the fixed notice when there are no findings;
      otherwise a table whose tags are its own sixteen and the rows'. */
  function FindingsSection(data: VerdictData): (r: string)
    ensures data.findings == [] ==> r == NoFindings
    ensures data.findings != [] ==> Opens(r) == 16 + RowOpens(data.findings)
    ensures data.findings != [] ==> r == TableHead() + Rows(data.findings) + TableTail()
  {
    if data.findings == [] then NoFindings
    else
      Cat(Cat(TableHead(), Rows(data.findings)), TableTail())
  }

  /** A word of letters is its own escape and holds no brace. */
  lemma {:induction false} EscapeWord(w: string)
    requires Letters(w)
    ensures Escape(w) == w && '{' !in w
    decreases |w|
  {
    if |w| > 0 {
      EscapeWord(w[1..]);
      assert [w[0]] + w[1..] == w;
    }
  }

  predicate Letters(w: string)
    decreases |w|
  {
    |w| == 0 || (('A' <= w[0] <= 'Z' || 'a' <= w[0] <= 'z') && Letters(w[1..]))
  }

  /** The CSS class of the status badge. */
  function StatusClass(blocked: bool): (r: string)
    ensures r == "blocked" <==> blocked
    ensures r == "allowed" <==> !blocked
    ensures Escape(r) == r && '{' !in r
  {
    EscapeWord("blocked");
    EscapeWord("allowed");
    if blocked then "blocked" else "allowed"
  }

  /** The status badge's text. */
  function StatusText(blocked: bool): (r: string)
    ensures r == "Blocked" <==> blocked
    ensures r == "Allowed" <==> !blocked
    ensures Escape(r) == r && '{' !in r
  {
    EscapeWord("Blocked");
    EscapeWord("Allowed");
    if blocked then "Blocked" else "Allowed"
  }

  /** Every placeholder of the template opens with two braces. */
  predicate Placeholder(p: string) {
    |p| > 2 && p[0] == '{' && p[1] == '{' && '{' !in p[2..]
  }

  /** Text without a brace holds no placeholder. */
  lemma {:induction false} ReplaceAllNoBrace(s: string, pat: string, rep: string)
    requires Placeholder(pat) && '{' !in s
    ensures ReplaceAll(s, pat, rep) == s
    decreases |s|
  {
    if |s| > 0 {
      assert s[0] != pat[0];
      ReplaceAllNoBrace(s[1..], pat, rep);
    }
  }

  /** Replacing skips a brace-free prefix. */
  lemma {:induction false} ReplaceAllSkip(a: string, x: string, pat: string, rep: string)
    requires Placeholder(pat) && '{' !in a
    ensures ReplaceAll(a + x, pat, rep) == a + ReplaceAll(x, pat, rep)
    decreases |a|
  {
    if |a| > 0 {
      assert (a + x)[0] == a[0] != pat[0];
      assert (a + x)[1..] == a[1..] + x;
      ReplaceAllSkip(a[1..], x, pat, rep);
    } else {
      assert a + x == x;
    }
  }

  /** Replacing `pat` in `a + p + b`, with brace-free `a` and `b`: `p` itself is
      replaced, and any other placeholder leaves the text as it is. */
  lemma ReplaceAllPiece(a: string, p: string, b: string, pat: string, rep: string)
    requires Placeholder(pat) && Placeholder(p) && '{' !in a && '{' !in b
    requires p == pat || (!(pat <= p) && !(p <= pat))
    ensures ReplaceAll(a + p + b, pat, rep) == if p == pat then a + rep + b else a + p + b
  {
    ReplaceAllSkip(a, p + b, pat, rep);
    assert a + p + b == a + (p + b);
    if p == pat {
      ReplaceAllSame(p, b, rep);
      assert a + (rep + b) == a + rep + b;
    } else {
      ReplaceAllOther(p, b, pat, rep);
    }
  }

  lemma ReplaceAllSame(p: string, b: string, rep: string)
    requires Placeholder(p) && '{' !in b
    ensures ReplaceAll(p + b, p, rep) == rep + b
  {
    assert (p + b)[|p|..] == b;
    ReplaceAllNoBrace(b, p, rep);
  }

  lemma ReplaceAllOther(p: string, b: string, pat: string, rep: string)
    requires Placeholder(pat) && Placeholder(p) && '{' !in b
    requires !(pat <= p) && !(p <= pat)
    ensures ReplaceAll(p + b, pat, rep) == p + b
  {
    var t := p + b;
    assert !(pat <= t) by {
      if |pat| <= |p| {
        assert pat <= t ==> pat <= p;
      } else {
        assert pat <= t ==> p <= pat;
      }
    }
    assert ReplaceAll(t, pat, rep) == [t[0]] + ReplaceAll(t[1..], pat, rep);
    assert t[1..][0] == '{' && t[1..][1] != '{';
    assert !(pat <= t[1..]);
    assert t[1..][1..] == t[2..] == p[2..] + b;
    assert ReplaceAll(t[1..], pat, rep) == [t[1]] + ReplaceAll(t[2..], pat, rep);
    assert '{' !in p[2..] + b;
    ReplaceAllNoBrace(t[2..], pat, rep);
    assert [t[0]] + ([t[1]] + t[2..]) == t;
  }

  /** `render`: the placeholders are replaced in this order, each over the
      result of the previous replacement. */
  function Fill(template: string, data: VerdictData): (r: string)
    ensures '{' !in template ==> r == template
  {
    FillNoBrace(template, data);
    var t1 := ReplaceAll(template, "{{STATUS_CLASS}}", Escape(StatusClass(data.blocked)));
    var t2 := ReplaceAll(t1, "{{STATUS_TEXT}}", Escape(StatusText(data.blocked)));
    var t3 := ReplaceAll(t2, "{{SCORE}}", FormatTenths(data.score));
    var t4 := ReplaceAll(t3, "{{REASON}}", Escape(data.reason));
    ReplaceAll(t4, "{{FINDINGS_SECTION}}", FindingsSection(data))
  }

  lemma FillNoBrace(template: string, data: VerdictData)
    ensures '{' !in template ==> ReplaceAll(ReplaceAll(ReplaceAll(ReplaceAll(ReplaceAll(template,
              "{{STATUS_CLASS}}", Escape(StatusClass(data.blocked))),
              "{{STATUS_TEXT}}", Escape(StatusText(data.blocked))),
              "{{SCORE}}", FormatTenths(data.score)),
              "{{REASON}}", Escape(data.reason)),
              "{{FINDINGS_SECTION}}", FindingsSection(data)) == template
  {
    if '{' !in template {
      PlaceholdersWellFormed();
      ReplaceAllNoBrace(template, "{{STATUS_CLASS}}", Escape(StatusClass(data.blocked)));
      ReplaceAllNoBrace(template, "{{STATUS_TEXT}}", Escape(StatusText(data.blocked)));
      ReplaceAllNoBrace(template, "{{SCORE}}", FormatTenths(data.score));
      ReplaceAllNoBrace(template, "{{REASON}}", Escape(data.reason));
      ReplaceAllNoBrace(template, "{{FINDINGS_SECTION}}", FindingsSection(data));
    }
  }

  /** Escaping adds no brace. */
  lemma {:induction false} EscapeNoBrace(s: string)
    requires '{' !in s
    ensures '{' !in Escape(s)
    decreases |s|
  {
    if |s| > 0 {
      assert s[0] in s;
      assert '{' !in EscapeChar(s[0]);
      assert forall c :: c in s[1..] ==> c in s;
      EscapeNoBrace(s[1..]);
      assert Escape(s) == EscapeChar(s[0]) + Escape(s[1..]);
    }
  }

  /** The printed score holds digits and a point only. */
  lemma FormatTenthsNoBrace(n: nat)
    ensures '{' !in FormatTenths(n)
  {
    var w := NatToString(n / 10);
    assert forall i :: 0 <= i < |w| ==> IsDigit(w[i]);
    assert FormatTenths(n) == w + "." + [DigitChar(n % 10)] + "0";
  }

  /** The text after the first three replacements; a brace-free result passes
      the last two unchanged. */
  lemma FillRest(t: string, data: VerdictData)
    requires '{' !in t
    ensures ReplaceAll(ReplaceAll(t, "{{REASON}}", Escape(data.reason)),
              "{{FINDINGS_SECTION}}", FindingsSection(data)) == t
  {
    PlaceholdersWellFormed();
    ReplaceAllNoBrace(t, "{{REASON}}", Escape(data.reason));
    ReplaceAllNoBrace(t, "{{FINDINGS_SECTION}}", FindingsSection(data));
  }

  /** A template whose only placeholder is the status class gets the class. */
  lemma FillStatusClass(a: string, b: string, data: VerdictData)
    requires '{' !in a && '{' !in b
    ensures Fill(a + "{{STATUS_CLASS}}" + b, data) == a + StatusClass(data.blocked) + b
  {
    PlaceholdersWellFormed();
    var sc := StatusClass(data.blocked);
    var t := a + sc + b;
    ReplaceAllPiece(a, "{{STATUS_CLASS}}", b, "{{STATUS_CLASS}}", Escape(sc));
    ReplaceAllNoBrace(t, "{{STATUS_TEXT}}", Escape(StatusText(data.blocked)));
    ReplaceAllNoBrace(t, "{{SCORE}}", FormatTenths(data.score));
    FillRest(t, data);
  }

  /** A template whose only placeholder is the status text gets the text. */
  lemma FillStatusText(a: string, b: string, data: VerdictData)
    requires '{' !in a && '{' !in b
    ensures Fill(a + "{{STATUS_TEXT}}" + b, data) == a + StatusText(data.blocked) + b
  {
    PlaceholdersWellFormed();
    var p := "{{STATUS_TEXT}}";
    var st := StatusText(data.blocked);
    var t := a + st + b;
    Apart(p, "{{STATUS_CLASS}}", 9);
    ReplaceAllPiece(a, p, b, "{{STATUS_CLASS}}", Escape(StatusClass(data.blocked)));
    ReplaceAllPiece(a, p, b, p, Escape(st));
    ReplaceAllNoBrace(t, "{{SCORE}}", FormatTenths(data.score));
    FillRest(t, data);
  }

  /** A template whose only placeholder is the score gets the printed score. */
  lemma FillScore(a: string, b: string, data: VerdictData)
    requires '{' !in a && '{' !in b
    ensures Fill(a + "{{SCORE}}" + b, data) == a + FormatTenths(data.score) + b
  {
    PlaceholdersWellFormed();
    var p := "{{SCORE}}";
    var t := a + FormatTenths(data.score) + b;
    Apart(p, "{{STATUS_CLASS}}", 3);
    ReplaceAllPiece(a, p, b, "{{STATUS_CLASS}}", Escape(StatusClass(data.blocked)));
    Apart(p, "{{STATUS_TEXT}}", 3);
    ReplaceAllPiece(a, p, b, "{{STATUS_TEXT}}", Escape(StatusText(data.blocked)));
    ReplaceAllPiece(a, p, b, p, FormatTenths(data.score));
    FormatTenthsNoBrace(data.score);
    FillRest(t, data);
  }

  /** A template whose only placeholder is the reason gets the escaped reason,
      as long as the reason itself holds no brace. */
  lemma FillReason(a: string, b: string, data: VerdictData)
    requires '{' !in a && '{' !in b && '{' !in data.reason
    ensures Fill(a + "{{REASON}}" + b, data) == a + Escape(data.reason) + b
  {
    PlaceholdersWellFormed();
    var p := "{{REASON}}";
    var t := a + Escape(data.reason) + b;
    Apart(p, "{{STATUS_CLASS}}", 2);
    ReplaceAllPiece(a, p, b, "{{STATUS_CLASS}}", Escape(StatusClass(data.blocked)));
    Apart(p, "{{STATUS_TEXT}}", 2);
    ReplaceAllPiece(a, p, b, "{{STATUS_TEXT}}", Escape(StatusText(data.blocked)));
    Apart(p, "{{SCORE}}", 2);
    ReplaceAllPiece(a, p, b, "{{SCORE}}", FormatTenths(data.score));
    ReplaceAllPiece(a, p, b, p, Escape(data.reason));
    EscapeNoBrace(data.reason);
    ReplaceAllNoBrace(t, "{{FINDINGS_SECTION}}", FindingsSection(data));
  }

  /** A template whose only placeholder is the findings section gets the
      section. */
  lemma FillFindings(a: string, b: string, data: VerdictData)
    requires '{' !in a && '{' !in b
    ensures Fill(a + "{{FINDINGS_SECTION}}" + b, data) == a + FindingsSection(data) + b
  {
    PlaceholdersWellFormed();
    var p := "{{FINDINGS_SECTION}}";
    Apart(p, "{{STATUS_CLASS}}", 2);
    ReplaceAllPiece(a, p, b, "{{STATUS_CLASS}}", Escape(StatusClass(data.blocked)));
    Apart(p, "{{STATUS_TEXT}}", 2);
    ReplaceAllPiece(a, p, b, "{{STATUS_TEXT}}", Escape(StatusText(data.blocked)));
    Apart(p, "{{SCORE}}", 2);
    ReplaceAllPiece(a, p, b, "{{SCORE}}", FormatTenths(data.score));
    Apart(p, "{{REASON}}", 2);
    ReplaceAllPiece(a, p, b, "{{REASON}}", Escape(data.reason));
    ReplaceAllPiece(a, p, b, p, FindingsSection(data));
  }

  /** Two texts that differ at a common position: neither is a prefix of the
      other. */
  lemma Apart(p: string, q: string, k: nat)
    requires k < |p| && k < |q| && p[k] != q[k]
    ensures !(p <= q) && !(q <= p)
  {
  }

  /** The five placeholders of the report template. */
  lemma PlaceholdersWellFormed()
    ensures Placeholder("{{STATUS_CLASS}}") && Placeholder("{{STATUS_TEXT}}")
    ensures Placeholder("{{SCORE}}") && Placeholder("{{REASON}}")
    ensures Placeholder("{{FINDINGS_SECTION}}")
  {
  }

  function Render(verdict: Verdict, template: string, finders: seq<Finder>): (r: Models.Report)
    ensures Serialized(verdict, r.data)
    ensures r.html == Fill(template, r.data)
  {
    var data := SerializeVerdict(verdict, finders);
    Models.Report(Fill(template, data), data)
  }

  /** With patterns that find no secret, the report keeps the verdict's reason
      and every finding's details as they are. */
  lemma RenderNoSecrets(verdict: Verdict, template: string, finders: seq<Finder>)
    requires forall i, t :: 0 <= i < |finders| ==> finders[i](t) == []
    ensures Render(verdict, template, finders).data.reason == verdict.reason
    ensures forall i :: 0 <= i < |verdict.findings| ==>
              Render(verdict, template, finders).data.findings[i].details == verdict.findings[i].details
  {
    SerializeNoSecrets(verdict, finders);
  }

  lemma SerializeNoSecrets(v: Verdict, finders: seq<Finder>)
    requires forall i, t :: 0 <= i < |finders| ==> finders[i](t) == []
    ensures SerializeVerdict(v, finders).reason == v.reason
    ensures forall i :: 0 <= i < |v.findings| ==> SerializeVerdict(v, finders).findings[i].details == v.findings[i].details
  {
    RedactNoMatch(finders, v.reason);
    forall i | 0 <= i < |v.findings|
      ensures SerializeFinding(v.findings[i], finders).details == v.findings[i].details
    {
      RedactNoMatch(finders, v.findings[i].details);
    }
  }

  /** A template with no placeholder is returned as it is. */
  lemma RenderWithoutPlaceholders(verdict: Verdict, template: string, finders: seq<Finder>)
    requires !IsSubstring("{{STATUS_CLASS}}", template) && !IsSubstring("{{STATUS_TEXT}}", template)
    requires !IsSubstring("{{SCORE}}", template) && !IsSubstring("{{REASON}}", template)
    requires !IsSubstring("{{FINDINGS_SECTION}}", template)
    ensures Render(verdict, template, finders).html == template
  {
    var data := SerializeVerdict(verdict, finders);
    ReplaceAllAbsent(template, "{{STATUS_CLASS}}", Escape(StatusClass(data.blocked)));
    ReplaceAllAbsent(template, "{{STATUS_TEXT}}", Escape(StatusText(data.blocked)));
    ReplaceAllAbsent(template, "{{SCORE}}", FormatTenths(data.score));
    ReplaceAllAbsent(template, "{{REASON}}", Escape(data.reason));
    ReplaceAllAbsent(template, "{{FINDINGS_SECTION}}", FindingsSection(data));
  }
}

=== FILE: scenarios.dfy ===
/** The demo's scenario catalogue (demo_app/scenarios.py): scenarios with
    named variants, each variant a run payload plus policy overrides, and the
    materialisation of a variant into a `RunInput` and a `Policy`. Payload
    dictionaries are typed records whose fields are `None` when the key is
    absent; string fields hold strings, so `str(...)` is the identity. */
module Scenarios {
  import opened Wrappers
  import opened Values
  import opened Models
  import opened Policies

  // ------------------------------------------------------------- payloads

  datatype MessageDict = MessageDict(role: Option<string>, content: Option<string>)

  datatype ChunkDict = ChunkDict(source: Option<string>, text: Option<string>)

  datatype CallDict = CallDict(name: Option<string>, args: Option<seq<Entry>>)

  datatype ExtractionDict = ExtractionDict(kind: Option<string>, pattern: Option<string>, mustInclude: Option<string>)

  datatype ClaimDict = ClaimDict(statement: Option<string>, evidenceUrls: Option<seq<string>>, extraction: Option<ExtractionDict>)

  /** An output dictionary; the empty dictionary has every field `None`. */
  datatype OutputDict = OutputDict(text: Option<string>, claims: Option<seq<ClaimDict>>)

  const EmptyOutput: OutputDict := OutputDict(None, None)

  datatype Payload = Payload(
    goal: Option<string>,
    constraints: Option<seq<string>>,
    messages: Option<seq<MessageDict>>,
    contexts: Option<seq<ChunkDict>>,
    toolCalls: Option<seq<CallDict>>,
    output: Option<OutputDict>)

  // ------------------------------------------------------------ catalogue

  datatype Variant = Variant(
    key: string,
    labelText: string,
    description: string,
    payload: Payload,
    policyOverrides: PolicyDict,
    expectedBlocked: Option<bool>)

  datatype Scenario = Scenario(
    id: string,
    title: string,
    summary: string,
    basePolicy: PolicyDict,
    variants: seq<Variant>)

  predicate HasVariant(s: Scenario, key: string) {
    exists i :: 0 <= i < |s.variants| && s.variants[i].key == key
  }

  /** `Scenario.variant`: the first variant with the key, or the message of the
      `KeyError` raised when none has it. */
  function FindVariant(s: Scenario, key: string): (r: Result<Variant, string>)
    ensures r.Failure? <==> !HasVariant(s, key)
    ensures r.Failure? ==> r.error == "Unknown variant '" + key + "' for scenario '" + s.id + "'"
    ensures r.Success? ==> exists i :: 0 <= i < |s.variants| && s.variants[i] == r.value && r.value.key == key
                             && forall j :: 0 <= j < i ==> s.variants[j].key != key
  {
    match FirstVariant(s.variants, key)
    case Some(i) => Success(s.variants[i])
    case None => Failure("Unknown variant '" + key + "' for scenario '" + s.id + "'")
  }

  /** The index of the first variant with the key. */
  function FirstVariant(vs: seq<Variant>, key: string): (r: Option<nat>)
    ensures r.None? <==> forall i :: 0 <= i < |vs| ==> vs[i].key != key
    ensures r.Some? ==> r.value < |vs| && vs[r.value].key == key
                        && forall j :: 0 <= j < r.value ==> vs[j].key != key
  {
    if |vs| == 0 then None
    else if vs[0].key == key then Some(0)
    else
      match FirstVariant(vs[1..], key)
      case None => None
      case Some(i) => Some(i + 1)
  }

  // --------------------------------------------------------------- policy

  /** `dict(base); data.update(overrides)`: an override key replaces the base
      value, other keys keep theirs. */
  function Merge(base: PolicyDict, overrides: PolicyDict): (r: PolicyDict)
    ensures overrides.allowedToolNames.Some? ==> r.allowedToolNames == overrides.allowedToolNames
    ensures overrides.allowedToolNames.None? ==> r.allowedToolNames == base.allowedToolNames
    ensures overrides.allowedUrlDomains.Some? ==> r.allowedUrlDomains == overrides.allowedUrlDomains
    ensures overrides.allowedUrlDomains.None? ==> r.allowedUrlDomains == base.allowedUrlDomains
    ensures overrides.requireClaims.Some? ==> r.requireClaims == overrides.requireClaims
    ensures overrides.requireClaims.None? ==> r.requireClaims == base.requireClaims
    ensures overrides.blockOn.Some? ==> r.blockOn == overrides.blockOn
    ensures overrides.blockOn.None? ==> r.blockOn == base.blockOn
    ensures overrides.minCompanySize.Some? ==> r.minCompanySize == overrides.minCompanySize
    ensures overrides.minCompanySize.None? ==> r.minCompanySize == base.minCompanySize
    ensures overrides.minPayThreshold.Some? ==> r.minPayThreshold == overrides.minPayThreshold
    ensures overrides.minPayThreshold.None? ==> r.minPayThreshold == base.minPayThreshold
    ensures overrides.treatMetroAsMinor.Some? ==> r.treatMetroAsMinor == overrides.treatMetroAsMinor
    ensures overrides.treatMetroAsMinor.None? ==> r.treatMetroAsMinor == base.treatMetroAsMinor
  {
    PolicyDict(
      if overrides.allowedToolNames.Some? then overrides.allowedToolNames else base.allowedToolNames,
      if overrides.allowedUrlDomains.Some? then overrides.allowedUrlDomains else base.allowedUrlDomains,
      if overrides.requireClaims.Some? then overrides.requireClaims else base.requireClaims,
      if overrides.blockOn.Some? then overrides.blockOn else base.blockOn,
      if overrides.minCompanySize.Some? then overrides.minCompanySize else base.minCompanySize,
      if overrides.minPayThreshold.Some? then overrides.minPayThreshold else base.minPayThreshold,
      if overrides.treatMetroAsMinor.Some? then overrides.treatMetroAsMinor else base.treatMetroAsMinor)
  }

  /** `_build_policy`: each field comes from the overrides when they carry its
      key, else from the base, else from the defaults of `Policy()`. */
  function BuildPolicy(base: PolicyDict, overrides: PolicyDict): (p: Policy)
    ensures overrides.allowedToolNames.Some? ==> p.allowedToolNames == StringOrder.ToSet(overrides.allowedToolNames.value)
    ensures overrides.allowedToolNames.None? && base.allowedToolNames.Some? ==> p.allowedToolNames == StringOrder.ToSet(base.allowedToolNames.value)
    ensures overrides.allowedToolNames.None? && base.allowedToolNames.None? ==> p.allowedToolNames == {}
    ensures overrides.allowedUrlDomains.Some? ==> p.allowedUrlDomains == StringOrder.ToSet(overrides.allowedUrlDomains.value)
    ensures overrides.allowedUrlDomains.None? && base.allowedUrlDomains.Some? ==> p.allowedUrlDomains == StringOrder.ToSet(base.allowedUrlDomains.value)
    ensures overrides.allowedUrlDomains.None? && base.allowedUrlDomains.None? ==> p.allowedUrlDomains == {}
    ensures overrides.requireClaims.Some? ==> p.requireClaims == overrides.requireClaims.value
    ensures overrides.requireClaims.None? && base.requireClaims.Some? ==> p.requireClaims == base.requireClaims.value
    ensures overrides.requireClaims.None? && base.requireClaims.None? ==> p.requireClaims
    ensures overrides.blockOn.Some? ==> p.blockOn == StringOrder.ToSet(overrides.blockOn.value)
    ensures overrides.blockOn.None? && base.blockOn.Some? ==> p.blockOn == StringOrder.ToSet(base.blockOn.value)
    ensures overrides.blockOn.None? && base.blockOn.None? ==> p.blockOn == {}
    ensures overrides.minCompanySize.Some? ==> p.minCompanySize == overrides.minCompanySize.value
    ensures overrides.minCompanySize.None? && base.minCompanySize.Some? ==> p.minCompanySize == base.minCompanySize.value
    ensures overrides.minCompanySize.None? && base.minCompanySize.None? ==> p.minCompanySize == None
    ensures overrides.minPayThreshold.Some? ==> p.minPayThreshold == overrides.minPayThreshold.value
    ensures overrides.minPayThreshold.None? && base.minPayThreshold.Some? ==> p.minPayThreshold == base.minPayThreshold.value
    ensures overrides.minPayThreshold.None? && base.minPayThreshold.None? ==> p.minPayThreshold == None
    ensures overrides.treatMetroAsMinor.Some? ==> p.treatMetroAsMinor == overrides.treatMetroAsMinor.value
    ensures overrides.treatMetroAsMinor.None? && base.treatMetroAsMinor.Some? ==> p.treatMetroAsMinor == base.treatMetroAsMinor.value
    ensures overrides.treatMetroAsMinor.None? && base.treatMetroAsMinor.None? ==> p.treatMetroAsMinor
  {
    FromDict(Merge(base, overrides))
  }

  /** With no overrides the base dictionary alone decides the policy. */
  lemma NoOverrides(base: PolicyDict)
    ensures BuildPolicy(base, EmptyDict) == FromDict(base)
  {
    assert Merge(base, EmptyDict) == base;
  }

  /** Overriding with a policy's full dictionary yields that policy, whatever
      the base. */
  lemma FullOverride(base: PolicyDict, q: Policy)
    ensures BuildPolicy(base, ToDict(q)) == q
  {
    assert Merge(base, ToDict(q)) == ToDict(q);
    RoundTrip(q);
  }

  // ------------------------------------------------------------ run input

  function Message(m: MessageDict): (r: Models.Message)
    ensures r.role == m.role.GetOr("user") && r.content == m.content.GetOr("")
  {
    Models.Message(m.role.GetOr("user"), m.content.GetOr(""))
  }

  function Chunk(c: ChunkDict): (r: ContextChunk)
    ensures r.source == c.source.GetOr("retriever") && r.text == c.text.GetOr("")
  {
    ContextChunk(c.source.GetOr("retriever"), c.text.GetOr(""))
  }

  function Call(c: CallDict): (r: ToolCall)
    ensures r.name == c.name.GetOr("") && r.args == c.args.GetOr([])
  {
    ToolCall(c.name.GetOr(""), c.args.GetOr([]))
  }

  /** One claim, or the key whose lookup raises `KeyError`: `extraction`, then
      `kind`, then `pattern` are read with `[]`. */
  function ClaimOf(c: ClaimDict): (r: Result<Claim, string>)
    ensures r.Failure? <==> c.extraction.None? || c.extraction.value.kind.None? || c.extraction.value.pattern.None?
    ensures r.Failure? ==> r.error == (if c.extraction.None? then "extraction"
                                        else if c.extraction.value.kind.None? then "kind" else "pattern")
    ensures r.Success? ==> r.value.statement == c.statement.GetOr("")
                           && r.value.evidenceUrls == c.evidenceUrls.GetOr([])
                           && KindName(r.value.extraction.kind) == c.extraction.value.kind.value
                           && r.value.extraction.pattern == c.extraction.value.pattern.value
                           && r.value.extraction.mustInclude == c.extraction.value.mustInclude
  {
    match c.extraction
    case None => Failure("extraction")
    case Some(e) =>
      match e.kind
      case None => Failure("kind")
      case Some(kind) =>
        match e.pattern
        case None => Failure("pattern")
        case Some(pattern) =>
          Success(Claim(c.statement.GetOr(""), c.evidenceUrls.GetOr([]),
                        Extraction(ParseKind(kind), pattern, e.mustInclude)))
  }

  /** The claim list comprehension: the first failing claim's error, or every
      claim in order. */
  function Claims(cs: seq<ClaimDict>): (r: Result<seq<Claim>, string>)
    ensures r.Failure? <==> exists i :: 0 <= i < |cs| && ClaimOf(cs[i]).Failure?
    ensures r.Failure? ==> exists i :: 0 <= i < |cs| && ClaimOf(cs[i]) == Failure(r.error)
                                        && forall j :: 0 <= j < i ==> ClaimOf(cs[j]).Success?
    ensures r.Success? ==> |r.value| == |cs| && forall i :: 0 <= i < |cs| ==> ClaimOf(cs[i]) == Success(r.value[i])
  {
    if |cs| == 0 then Success([])
    else
      match ClaimOf(cs[0])
      case Failure(e) => Failure(e)
      case Success(first) =>
        var rest := Claims(cs[1..]);
        assert forall i :: 1 <= i < |cs| ==> cs[i] == cs[1..][i - 1];
        match rest
        case Failure(e) =>
          var i :| 0 <= i < |cs[1..]| && ClaimOf(cs[1..][i]) == Failure(e)
                   && forall j :: 0 <= j < i ==> ClaimOf(cs[1..][j]).Success?;
          assert ClaimOf(cs[i + 1]) == Failure(e);
          Failure(e)
        case Success(more) => Success([first] + more)
  }

  /** `payload.get("output") or {}`: a missing output and an empty one read
      alike. */
  function OutputOf(p: Payload): (r: OutputDict)
    ensures p.output.None? ==> r == EmptyOutput
    ensures p.output.Some? ==> r == p.output.value
  {
    p.output.GetOr(EmptyOutput)
  }

  /** `_build_run_input`: the defaulted run, or the key of the `KeyError` a
      claim raises. */
  function BuildRunInput(p: Payload): (r: Result<RunInput, string>)
    ensures r.Failure? <==> Claims(OutputOf(p).claims.GetOr([])).Failure?
    ensures r.Success? ==> r.value.goal == p.goal.GetOr("") && r.value.constraints == p.constraints.GetOr([])
    ensures r.Success? ==> |r.value.messages| == |p.messages.GetOr([])|
                           && forall i :: 0 <= i < |r.value.messages| ==> r.value.messages[i] == Message(p.messages.value[i])
    ensures r.Success? ==> |r.value.contexts| == |p.contexts.GetOr([])|
                           && forall i :: 0 <= i < |r.value.contexts| ==> r.value.contexts[i] == Chunk(p.contexts.value[i])
    ensures r.Success? ==> |r.value.toolCalls| == |p.toolCalls.GetOr([])|
                           && forall i :: 0 <= i < |r.value.toolCalls| ==> r.value.toolCalls[i] == Call(p.toolCalls.value[i])
    ensures r.Success? ==> r.value.output.Some? && r.value.output.value.text == OutputOf(p).text.GetOr("")
    ensures r.Success? ==> |r.value.output.value.claims| == |OutputOf(p).claims.GetOr([])|
    ensures r.Success? ==> r.value.output.value.claims == Claims(OutputOf(p).claims.GetOr([])).value
  {
    var messages := p.messages.GetOr([]);
    var contexts := p.contexts.GetOr([]);
    var calls := p.toolCalls.GetOr([]);
    var output := OutputOf(p);
    var claims :- Claims(output.claims.GetOr([]));
    Success(RunInput(
      p.goal.GetOr(""),
      p.constraints.GetOr([]),
      seq(|messages|, i requires 0 <= i < |messages| => Message(messages[i])),
      seq(|contexts|, i requires 0 <= i < |contexts| => Chunk(contexts[i])),
      seq(|calls|, i requires 0 <= i < |calls| => Call(calls[i])),
      Some(RunOutput(output.text.GetOr(""), claims))))
  }

  /** A payload without an output, or with an empty one, still gets an output:
      empty text and no claims. */
  lemma MissingOutputIsEmpty(p: Payload)
    requires p.output.None? || p.output == Some(EmptyOutput)
    ensures BuildRunInput(p).Success?
    ensures BuildRunInput(p).value.output == Some(RunOutput("", []))
  {
  }

  /** `build_run_and_policy`. */
  function BuildRunAndPolicy(s: Scenario, v: Variant): (r: Result<(RunInput, Policy), string>)
    ensures r.Failure? <==> BuildRunInput(v.payload).Failure?
    ensures r.Failure? ==> r.error == BuildRunInput(v.payload).error
    ensures r.Success? ==> r.value.0 == BuildRunInput(v.payload).value
    ensures r.Success? ==> r.value.1 == BuildPolicy(s.basePolicy, v.policyOverrides)
  {
    var run :- BuildRunInput(v.payload);
    Success((run, BuildPolicy(s.basePolicy, v.policyOverrides)))
  }

  // ---------------------------------------------------------------- index

  datatype VariantSummary = VariantSummary(key: string, labelText: string, description: string, expectedBlocked: Option<bool>)

  datatype ScenarioSummary = ScenarioSummary(id: string, title: string, summary: string, variants: seq<VariantSummary>)

  function SummarizeVariant(v: Variant): (r: VariantSummary)
    ensures r.key == v.key && r.labelText == v.labelText && r.description == v.description
    ensures r.expectedBlocked == v.expectedBlocked
  {
    VariantSummary(v.key, v.labelText, v.description, v.expectedBlocked)
  }

  function Summarize(s: Scenario): (r: ScenarioSummary)
    ensures r.id == s.id && r.title == s.title && r.summary == s.summary
    ensures |r.variants| == |s.variants|
    ensures forall i :: 0 <= i < |r.variants| ==> r.variants[i] == SummarizeVariant(s.variants[i])
  {
    ScenarioSummary(s.id, s.title, s.summary,
      seq(|s.variants|, i requires 0 <= i < |s.variants| => SummarizeVariant(s.variants[i])))
  }

  /** `scenario_index`: the catalogue in order, without payloads or policies. */
  function ScenarioIndex(catalog: seq<Scenario>): (r: seq<ScenarioSummary>)
    ensures |r| == |catalog|
    ensures forall i :: 0 <= i < |r| ==> r[i] == Summarize(catalog[i])
  {
    seq(|catalog|, i requires 0 <= i < |catalog| => Summarize(catalog[i]))
  }

  /** Every key the index lists for a scenario is one its lookup accepts, and
      the index shows the variant that lookup returns. */
  lemma IndexedKeysResolve(catalog: seq<Scenario>, i: int, j: int)
    requires 0 <= i < |catalog| && 0 <= j < |catalog[i].variants|
    ensures var key := ScenarioIndex(catalog)[i].variants[j].key;
            FindVariant(catalog[i], key).Success?
            && FindVariant(catalog[i], key).value.key == key
  {
    assert catalog[i].variants[j].key == ScenarioIndex(catalog)[i].variants[j].key;
  }
}

=== FILE: server.dfy ===
/** The demo web server (demo_app/main.py): scenario lookup, the JSON
    response of `POST /evaluate`, and the file name under which a report is
    served. The engine's environment, the report id (a fresh uuid in the
    source) and the reports directory (a map from file name to contents) are
    parameters. */
module Server {
  import opened Wrappers
  import opened Text
  import opened Values
  import opened Models
  import opened Policies
  import opened Scenarios
  import Engine
  import StrRepr

  /** An `HTTPException`, or an exception the server lets escape (the
      `KeyError` of a malformed claim), which the framework turns into a
      server error. */
  datatype ServerError = HttpError(status: nat, detail: string) | Uncaught(error: string)

  /** `_get_scenario`: the first scenario with the id, else a 404. */
  function GetScenario(catalog: seq<Scenario>, id: string): (r: Result<Scenario, ServerError>)
    ensures r.Failure? <==> forall i :: 0 <= i < |catalog| ==> catalog[i].id != id
    ensures r.Failure? ==> r.error == HttpError(404, "Unknown scenario '" + id + "'")
    ensures r.Success? ==> exists i :: 0 <= i < |catalog| && catalog[i] == r.value && r.value.id == id
                             && forall j :: 0 <= j < i ==> catalog[j].id != id
    decreases |catalog|
  {
    if |catalog| == 0 then Failure(HttpError(404, "Unknown scenario '" + id + "'"))
    else if catalog[0].id == id then Success(catalog[0])
    else
      var rest := GetScenario(catalog[1..], id);
      assert forall i :: 1 <= i < |catalog| ==> catalog[i] == catalog[1..][i - 1];
      if rest.Success? then
        var i :| 0 <= i < |catalog[1..]| && catalog[1..][i] == rest.value
                 && forall j :: 0 <= j < i ==> catalog[1..][j].id != id;
        assert catalog[i + 1] == rest.value;
        rest
      else rest
  }

  /** One finding of the response: the verdict's own fields, unredacted. */
  function FindingOf(f: Finding): (d: FindingData)
    ensures d.kind == f.kind && d.severity == SeverityName(f.severity)
    ensures d.details == f.details && d.evidence == f.evidence
  {
    FindingData(f.kind, SeverityName(f.severity), f.details, f.evidence)
  }

  /** The response body of `POST /evaluate`. `score` is in tenths. */
  datatype Response = Response(
    blocked: bool,
    reason: string,
    score: nat,
    findings: seq<FindingData>,
    reportUrl: string,
    scenarioId: string,
    scenarioTitle: string,
    variantLabel: string,
    expectedBlocked: Option<bool>)

  const NoReport: string := "<p>No report available.</p>"

  /** The body of the response and the report file written under
      `<report id>.html`. */
  function Respond(s: Scenario, v: Variant, verdict: Verdict, reportId: string): (r: (Response, string))
    ensures r.0.blocked == verdict.blocked && r.0.reason == verdict.reason && r.0.score == verdict.score
    ensures |r.0.findings| == |verdict.findings|
    ensures forall i :: 0 <= i < |r.0.findings| ==> r.0.findings[i] == FindingOf(verdict.findings[i])
    ensures r.0.reportUrl == "/reports/" + reportId + ".html"
    ensures r.0.scenarioId == s.id && r.0.scenarioTitle == s.title && r.0.variantLabel == v.labelText
    ensures r.0.expectedBlocked == v.expectedBlocked
    ensures r.1 == if verdict.report.Some? then verdict.report.value.html else NoReport
  {
    var html := if verdict.report.Some? then verdict.report.value.html else NoReport;
    var findings := seq(|verdict.findings|, i requires 0 <= i < |verdict.findings| => FindingOf(verdict.findings[i]));
    (Response(verdict.blocked, verdict.reason, verdict.score, findings, "/reports/" + reportId + ".html",
              s.id, s.title, v.labelText, v.expectedBlocked),
     html)
  }

  /** The part of `POST /evaluate` after the variant is known: build the run
      and the policy (a malformed claim escapes as its `KeyError`), evaluate,
      and answer. */
  function AnswerVariant(s: Scenario, v: Variant, env: Engine.Env, reportId: string): (r: Result<(Response, string), ServerError>)
    ensures BuildRunInput(v.payload).Failure? ==> r == Failure(Uncaught(BuildRunInput(v.payload).error))
    ensures BuildRunInput(v.payload).Success? ==>
              r == Success(Respond(s, v, Engine.Evaluate(BuildRunInput(v.payload).value,
                                                         BuildPolicy(s.basePolicy, v.policyOverrides), env), reportId))
  {
    match BuildRunAndPolicy(s, v)
    case Failure(key) => Failure(Uncaught(key))
    case Success(built) => Success(Respond(s, v, Engine.Evaluate(built.0, built.1, env), reportId))
  }

  /** The part of `POST /evaluate` after the scenario is known: an unknown
      variant is a 404 carrying the `KeyError`'s text. */
  function Answer(s: Scenario, variantKey: string, env: Engine.Env, reportId: string): (r: Result<(Response, string), ServerError>)
    ensures !HasVariant(s, variantKey) ==>
              r == Failure(HttpError(404, StrRepr.Repr(UnknownVariant(s, variantKey))))
    ensures HasVariant(s, variantKey) ==> r == AnswerVariant(s, FindVariant(s, variantKey).value, env, reportId)
  {
    match FindVariant(s, variantKey)
    case Failure(message) => Failure(HttpError(404, StrRepr.Repr(message)))
    case Success(v) => AnswerVariant(s, v, env, reportId)
  }

  /** The `KeyError` message of an unknown variant. */
  function UnknownVariant(s: Scenario, key: string): string {
    "Unknown variant '" + key + "' for scenario '" + s.id + "'"
  }

  /** The 404 detail of an unknown variant is the repr of its message: double
      quotes around the message as it is when the key and the scenario id are
      plain, single quotes once the key holds a `"`. */
  lemma UnknownVariantDetail(s: Scenario, variantKey: string, env: Engine.Env, reportId: string)
    requires !HasVariant(s, variantKey)
    ensures var m := UnknownVariant(s, variantKey);
            var plain := forall i :: 0 <= i < |m| ==> StrRepr.Printable(m[i]) && m[i] != '\\';
            && ('"' !in variantKey && '"' !in s.id && plain ==>
                  Answer(s, variantKey, env, reportId) == Failure(HttpError(404, "\"" + m + "\"")))
            && ('"' in variantKey ==> Answer(s, variantKey, env, reportId).error.detail[0] == '\'')
  {
    var m := UnknownVariant(s, variantKey);
    assert m[16] == '\'';
    if '"' !in variantKey && '"' !in s.id {
      assert '"' !in m;
      if forall i :: 0 <= i < |m| ==> StrRepr.Printable(m[i]) && m[i] != '\\' {
        StrRepr.ReprDoubleQuoted(m);
      }
    }
    if '"' in variantKey {
      var j :| 0 <= j < |variantKey| && variantKey[j] == '"';
      assert m[17 + j] == '"';
    }
  }

  /** `POST /evaluate`: look up the scenario and the variant (404 for either
      unknown), build the run and the policy, evaluate, and answer. */
  function Evaluate(catalog: seq<Scenario>, scenarioId: string, variantKey: string,
                    env: Engine.Env, reportId: string): (r: Result<(Response, string), ServerError>)
    ensures (forall i :: 0 <= i < |catalog| ==> catalog[i].id != scenarioId) ==>
              r == Failure(HttpError(404, "Unknown scenario '" + scenarioId + "'"))
    ensures GetScenario(catalog, scenarioId).Success? ==> r == Answer(GetScenario(catalog, scenarioId).value, variantKey, env, reportId)
    ensures r.Success? ==> r.value.0.scenarioId == scenarioId && r.value.0.reportUrl == "/reports/" + reportId + ".html"
  {
    var s :- GetScenario(catalog, scenarioId);
    Answer(s, variantKey, env, reportId)
  }

  predicate EndsWithHtml(name: string)
    ensures EndsWithHtml(name) <==> exists p :: p + ".html" == name
  {
    if |name| >= 5 && name[|name| - 5..] == ".html" then
      assert name[..|name| - 5] + ".html" == name;
      true
    else
      assert forall p :: (p + ".html")[|p|..] == ".html";
      false
  }

  /** `get_report`'s name normalisation. */
  function ReportName(name: string): (r: string)
    ensures EndsWithHtml(r)
    ensures EndsWithHtml(name) ==> r == name
    ensures !EndsWithHtml(name) ==> r == name + ".html"
  {
    if EndsWithHtml(name) then name
    else
      var r := name + ".html";
      assert r[|r| - 5..] == ".html";
      r
  }

  /** Normalising twice is normalising once. */
  lemma ReportNameIdempotent(name: string)
    ensures ReportName(ReportName(name)) == ReportName(name)
  {
  }

  /** `GET /reports/{name}`: the stored report, or a 404. */
  function GetReport(reports: map<string, string>, name: string): (r: Result<string, ServerError>)
    ensures r.Failure? <==> ReportName(name) !in reports
    ensures r.Failure? ==> r.error == HttpError(404, "Report not found")
    ensures r.Success? ==> r.value == reports[ReportName(name)]
  {
    var file := ReportName(name);
    if file in reports then Success(reports[file]) else Failure(HttpError(404, "Report not found"))
  }

  /** The URL a response links to serves the report written with it. */
  lemma ReportUrlServesReport(reports: map<string, string>, reportId: string, html: string)
    ensures var url := "/reports/" + reportId + ".html";
            var name := url[|"/reports/"|..];
            GetReport(reports[reportId + ".html" := html], name) == Success(html)
  {
    var url := "/reports/" + reportId + ".html";
    assert url[|"/reports/"|..] == reportId + ".html";
    var name := reportId + ".html";
    assert name[|name| - 5..] == ".html";
  }
}

=== FILE: strrepr.dfy ===
/** Python's `repr` of a string, which `str()` of a `KeyError` returns: the
    text between quotes, with backslashes, the chosen quote and unprintable
    characters escaped. The quote is `'` unless the text holds `'` and no `"`.
    Printability is exact below U+0100; every character from U+0100 on is
    taken as printable. */
module StrRepr {
  import opened Wrappers

  function HexDigit(n: nat): (c: char)
    requires n < 16
    ensures ('0' <= c <= '9') || ('a' <= c <= 'f')
  {
    if n < 10 then (48 + n) as char else (87 + n) as char
  }

  function HexValue(c: char): (r: Option<nat>)
    ensures r.Some? ==> r.value < 16
  {
    if '0' <= c <= '9' then Some(c as int - 48)
    else if 'a' <= c <= 'f' then Some(c as int - 87)
    else if 'A' <= c <= 'F' then Some(c as int - 55)
    else None
  }

  lemma HexValueDigit(n: nat)
    requires n < 16
    ensures HexValue(HexDigit(n)) == Some(n)
  {
  }

  /** `str.isprintable()` of one character: below U+0100 the control
      characters, the no-break space and the soft hyphen are not. */
  predicate Printable(c: char) {
    (32 <= c as int <= 126) || (161 <= c as int <= 255 && c as int != 173) || c as int > 255
  }

  /** The quote `repr` chooses. */
  function Quote(s: string): (q: char)
    ensures q == '"' <==> '\'' in s && '"' !in s
    ensures q == '\'' || q == '"'
  {
    if '\'' in s && '"' !in s then '"' else '\''
  }

  /** One character as `repr` writes it inside quotes `q`. */
  function EscapeChar(c: char, q: char): (r: string)
    ensures 1 <= |r| <= 4
    ensures |r| == 1 <==> c != q && c != '\\' && c != '\t' && c != '\n' && c != '\r' && Printable(c)
  {
    if c == q || c == '\\' then ['\\', c]
    else if c == '\t' then "\\t"
    else if c == '\n' then "\\n"
    else if c == '\r' then "\\r"
    else if Printable(c) then [c]
    else ['\\', 'x', HexDigit((c as int / 16) % 16), HexDigit(c as int % 16)]
  }

  function Escape(s: string, q: char): (r: string)
    ensures |r| >= |s|
  {
    if s == [] then [] else EscapeChar(s[0], q) + Escape(s[1..], q)
  }

  /** `repr(s)`: the escaped text between the chosen quotes. */
  function Repr(s: string): (r: string)
    ensures |r| >= |s| + 2
    ensures r[0] == Quote(s) && r[|r| - 1] == Quote(s)
    ensures r[1..|r| - 1] == Escape(s, Quote(s))
  {
    var q := Quote(s);
    var body := Escape(s, q);
    var r := [q] + body + [q];
    assert r[1..|r| - 1] == body;
    r
  }

  function Prepend(c: char, rest: Option<string>): Option<string> {
    match rest
    case Some(t) => Some([c] + t)
    case None => None
  }

  /** Reads back the text between quotes `q`, as Python's parser reads a string
      literal with these escapes; `None` for a stray quote or a broken escape. */
  function Unescape(t: string, q: char): Option<string>
    decreases |t|
  {
    if t == [] then Some([])
    else if t[0] == '\\' then
      if |t| < 2 then None
      else if t[1] == 't' then Prepend('\t', Unescape(t[2..], q))
      else if t[1] == 'n' then Prepend('\n', Unescape(t[2..], q))
      else if t[1] == 'r' then Prepend('\r', Unescape(t[2..], q))
      else if t[1] == '\\' || t[1] == '\'' || t[1] == '"' then Prepend(t[1], Unescape(t[2..], q))
      else if t[1] == 'x' && |t| >= 4 && HexValue(t[2]).Some? && HexValue(t[3]).Some? then
        Prepend((16 * HexValue(t[2]).value + HexValue(t[3]).value) as char, Unescape(t[4..], q))
      else None
    else if t[0] == q then None
    else Prepend(t[0], Unescape(t[1..], q))
  }

  /** Reading back one escaped character, then the rest. */
  lemma UnescapeChar(c: char, q: char, t: string)
    requires q == '\'' || q == '"'
    ensures Unescape(EscapeChar(c, q) + t, q) == Prepend(c, Unescape(t, q))
  {
    var e := EscapeChar(c, q);
    var s := e + t;
    if |e| == 1 {
      assert s[0] == c && s[1..] == t;
    } else if |e| == 2 {
      assert s[0] == '\\' && s[1] == e[1] && s[2..] == t;
    } else {
      var hi, lo := (c as int / 16) % 16, c as int % 16;
      HexValueDigit(hi);
      HexValueDigit(lo);
      assert s[0] == '\\' && s[1] == 'x' && s[2] == HexDigit(hi) && s[3] == HexDigit(lo) && s[4..] == t;
      assert 16 * hi + lo == c as int;
    }
  }

  /** Escaping, then reading back, gives the text again. */
  lemma {:induction false} EscapeRoundTrip(s: string, q: char)
    requires q == '\'' || q == '"'
    ensures Unescape(Escape(s, q), q) == Some(s)
    decreases |s|
  {
    if s != [] {
      UnescapeChar(s[0], q, Escape(s[1..], q));
      EscapeRoundTrip(s[1..], q);
      assert [s[0]] + s[1..] == s;
    }
  }

  /** The literal `repr` writes reads back as the original text. */
  lemma ReprRoundTrip(s: string)
    ensures var r := Repr(s); Unescape(r[1..|r| - 1], r[0]) == Some(s)
  {
    EscapeRoundTrip(s, Quote(s));
  }

  /** Text that needs no escape is written as it is. */
  lemma {:induction false} EscapePlain(s: string, q: char)
    requires forall i :: 0 <= i < |s| ==> Printable(s[i]) && s[i] != q && s[i] != '\\'
    ensures Escape(s, q) == s
    decreases |s|
  {
    if s != [] {
      EscapePlain(s[1..], q);
      assert [s[0]] + s[1..] == s;
    }
  }

  /** A printable text with a `'`, no `"` and no backslash is wrapped in double
      quotes and otherwise kept. */
  lemma ReprDoubleQuoted(s: string)
    requires '\'' in s && '"' !in s
    requires forall i :: 0 <= i < |s| ==> Printable(s[i]) && s[i] != '\\'
    ensures Repr(s) == "\"" + s + "\""
  {
    EscapePlain(s, '"');
  }
}

=== FILE: text.dfy ===
/** String primitives shared by the model: Python's `str.strip`, `str.lower`,
    `str.split`, `str.replace`, `in`, `"sep".join` and `str(int)`, and the
    JavaScript `toUpperCase` the client uses. Case mapping covers ASCII letters
    only; whitespace is the set Python's `str.isspace` and the regex class `\s`
    agree on. */
module Text {
  import opened Wrappers

  /** Python's whitespace characters (`str.isspace`, `\s`, `str.strip()`). */
  predicate IsSpace(c: char) {
    || c == ' ' || c == '\t' || c == '\n' || c == '\r'
    || c == '\U{B}' || c == '\U{C}'
    || ('\U{1C}' <= c <= '\U{1F}')
    || c == '\U{85}' || c == '\U{A0}' || c == '\U{1680}'
    || ('\U{2000}' <= c <= '\U{200A}')
    || c == '\U{2028}' || c == '\U{2029}' || c == '\U{202F}' || c == '\U{205F}' || c == '\U{3000}'
  }

  predicate HasSpace(s: string) {
    exists i :: 0 <= i < |s| && IsSpace(s[i])
  }

  predicate IsBlank(s: string) {
    forall i :: 0 <= i < |s| ==> IsSpace(s[i])
  }

  /** Drops leading whitespace. */
  function TrimStart(s: string): (r: string)
    ensures |r| <= |s| && r == s[|s| - |r|..]
    ensures r == [] || !IsSpace(r[0])
    ensures forall i :: 0 <= i < |s| - |r| ==> IsSpace(s[i])
  {
    if |s| > 0 && IsSpace(s[0]) then TrimStart(s[1..]) else s
  }

  /** Drops trailing whitespace. */
  function TrimEnd(s: string): (r: string)
    ensures |r| <= |s| && r == s[..|r|]
    ensures r == [] || !IsSpace(r[|r| - 1])
    ensures forall i :: |r| <= i < |s| ==> IsSpace(s[i])
  {
    if |s| > 0 && IsSpace(s[|s| - 1]) then TrimEnd(s[..|s| - 1]) else s
  }

  /** Python's `str.strip()`. */
  function Strip(s: string): (r: string)
    ensures r == [] || (!IsSpace(r[0]) && !IsSpace(r[|r| - 1]))
    ensures |r| <= |s|
  {
    var t := TrimStart(s);
    var r := TrimEnd(t);
    assert r == [] || r[0] == t[0];
    r
  }

  /** A string with no outer whitespace is its own strip. */
  lemma StripTrimmed(s: string)
    requires s == [] || (!IsSpace(s[0]) && !IsSpace(s[|s| - 1]))
    ensures Strip(s) == s
  {
  }

  /** A string strips to the empty string exactly when it is all whitespace. */
  lemma {:induction false} StripEmptyIffBlank(s: string)
    ensures Strip(s) == [] <==> IsBlank(s)
  {
    var t := TrimStart(s);
    if t == [] {
      assert forall i :: 0 <= i < |s| ==> IsSpace(s[i]);
    } else {
      assert !IsSpace(t[0]);
      assert TrimEnd(t) != [];
      assert s[|s| - |t|] == t[0];
    }
  }

  function LowerChar(c: char): char {
    if 'A' <= c <= 'Z' then (c as int + 32) as char else c
  }

  function UpperChar(c: char): char {
    if 'a' <= c <= 'z' then (c as int - 32) as char else c
  }

  /** Python's `str.lower()` on ASCII letters. */
  function Lower(s: string): (r: string)
    ensures |r| == |s|
    ensures forall i :: 0 <= i < |s| ==> r[i] == LowerChar(s[i])
  {
    seq(|s|, i requires 0 <= i < |s| => LowerChar(s[i]))
  }

  /** JavaScript's `String.prototype.toUpperCase` on ASCII letters. */
  function Upper(s: string): (r: string)
    ensures |r| == |s|
    ensures forall i :: 0 <= i < |s| ==> r[i] == UpperChar(s[i])
  {
    seq(|s|, i requires 0 <= i < |s| => UpperChar(s[i]))
  }

  predicate IsLowerCase(s: string) {
    forall i :: 0 <= i < |s| ==> !('A' <= s[i] <= 'Z')
  }

  lemma LowerIsLowerCase(s: string)
    ensures IsLowerCase(Lower(s))
  {
  }

  /** Python's `sub in s`. */
  predicate IsSubstring(sub: string, s: string)
    decreases |s|
  {
    sub <= s || (|s| > 0 && IsSubstring(sub, s[1..]))
  }

  /** `sub` occurs in `s` starting at offset `i`. */
  predicate OccursAt(sub: string, s: string, i: int) {
    0 <= i <= |s| - |sub| && s[i..i + |sub|] == sub
  }

  /** `sub in s` means `sub` occurs at some offset of `s`. */
  lemma {:induction false} SubstringAt(sub: string, s: string)
    ensures IsSubstring(sub, s) <==> exists i :: OccursAt(sub, s, i)
    decreases |s|
  {
    if sub <= s {
      assert OccursAt(sub, s, 0);
    } else if |s| > 0 {
      SubstringAt(sub, s[1..]);
      if IsSubstring(sub, s[1..]) {
        var i :| OccursAt(sub, s[1..], i);
        assert s[i + 1..i + 1 + |sub|] == s[1..][i..i + |sub|];
        assert OccursAt(sub, s, i + 1);
      }
      if exists i :: OccursAt(sub, s, i) {
        var i :| OccursAt(sub, s, i);
        assert i > 0;
        assert s[1..][i - 1..i - 1 + |sub|] == s[i..i + |sub|];
        assert OccursAt(sub, s[1..], i - 1);
      }
    }
  }

  /** Python's `sep.join(parts)`. */
  function Join(sep: string, parts: seq<string>): (r: string)
    ensures |parts| == 1 ==> r == parts[0]
    ensures |parts| == 0 ==> r == []
  {
    if |parts| == 0 then []
    else if |parts| == 1 then parts[0]
    else parts[0] + sep + Join(sep, parts[1..])
  }

  /** A substring of a suffix is a substring of the whole. */
  lemma {:induction false} SubstringOfSuffix(sub: string, a: string, b: string)
    requires IsSubstring(sub, b)
    ensures IsSubstring(sub, a + b)
    decreases |a|
  {
    if |a| > 0 {
      assert (a + b)[1..] == a[1..] + b;
      SubstringOfSuffix(sub, a[1..], b);
    } else {
      assert a + b == b;
    }
  }

  /** Every part occurs in the joined text. */
  lemma {:induction false} JoinHasPart(sep: string, parts: seq<string>, i: int)
    requires 0 <= i < |parts|
    ensures IsSubstring(parts[i], Join(sep, parts))
    decreases |parts|
  {
    if |parts| > 1 {
      var rest := Join(sep, parts[1..]);
      assert Join(sep, parts) == parts[0] + (sep + rest);
      if i == 0 {
        assert parts[0] <= Join(sep, parts);
      } else {
        JoinHasPart(sep, parts[1..], i - 1);
        SubstringOfSuffix(parts[i], sep, rest);
        SubstringOfSuffix(parts[i], parts[0], sep + rest);
      }
    } else {
      assert parts[0] <= Join(sep, parts);
    }
  }

  /** `in` is transitive. */
  lemma SubstringTransitive(a: string, b: string, c: string)
    requires IsSubstring(a, b) && IsSubstring(b, c)
    ensures IsSubstring(a, c)
  {
    SubstringAt(a, b);
    SubstringAt(b, c);
    var i :| OccursAt(a, b, i);
    var j :| OccursAt(b, c, j);
    forall k | 0 <= k < |a|
      ensures c[j + i + k] == a[k]
    {
      assert c[j..j + |b|][i + k] == b[i + k];
      assert b[i..i + |a|][k] == a[k];
    }
    assert c[j + i..j + i + |a|] == a;
    assert OccursAt(a, c, j + i);
    SubstringAt(a, c);
  }

  /** Lower-casing both sides keeps an occurrence. */
  lemma LowerSubstring(a: string, b: string)
    requires IsSubstring(a, b)
    ensures IsSubstring(Lower(a), Lower(b))
  {
    SubstringAt(a, b);
    var i :| OccursAt(a, b, i);
    assert Lower(b)[i..i + |a|] == Lower(a);
    assert OccursAt(Lower(a), Lower(b), i);
    SubstringAt(Lower(a), Lower(b));
  }

  /** The stripped text occurs in the original. */
  lemma StripSubstring(s: string)
    ensures IsSubstring(Strip(s), s)
  {
    var t := TrimStart(s);
    var r := Strip(s);
    assert r == t[..|r|];
    assert s[|s| - |t|..|s| - |t| + |r|] == r;
    assert OccursAt(r, s, |s| - |t|);
    SubstringAt(r, s);
  }

  /** Python's `s.split(sep)` for a one-character separator. */
  function Split(s: string, sep: char): (r: seq<string>)
    ensures |r| > 0
    ensures forall i :: 0 <= i < |r| ==> sep !in r[i]
  {
    if |s| == 0 then [[]]
    else
      var rest := Split(s[1..], sep);
      if s[0] == sep then [[]] + rest
      else [[s[0]] + rest[0]] + rest[1..]
  }

  /** Splitting and re-joining on the same separator gives back the input. */
  lemma {:induction false} JoinSplit(s: string, sep: char)
    ensures Join([sep], Split(s, sep)) == s
  {
    if |s| > 0 {
      var rest := Split(s[1..], sep);
      JoinSplit(s[1..], sep);
      if s[0] != sep {
        var r := Split(s, sep);
        if |rest| == 1 {
          assert r == [[s[0]] + rest[0]];
        } else {
          assert r[1..] == rest[1..];
          assert Join([sep], r) == [s[0]] + rest[0] + [sep] + Join([sep], rest[1..]);
        }
      }
    }
  }

  /** The separator-free pieces of `s` (Python's `s.split(sep, 1)`): `None` when
      `sep` does not occur, else the text before and after its first occurrence. */
  function SplitFirst(s: string, sep: char): (r: Option<(string, string)>)
    ensures r.None? <==> sep !in s
    ensures r.Some? ==> s == r.value.0 + [sep] + r.value.1 && sep !in r.value.0
  {
    if |s| == 0 then None
    else if s[0] == sep then Some(([], s[1..]))
    else
      match SplitFirst(s[1..], sep)
      case None => None
      case Some(p) => Some(([s[0]] + p.0, p.1))
  }

  /** Splitting at the first separator finds the separator that follows a
      separator-free prefix. */
  lemma {:induction false} SplitFirstAt(a: string, b: string, sep: char)
    requires sep !in a
    ensures SplitFirst(a + [sep] + b, sep) == Some((a, b))
    decreases |a|
  {
    var s := a + [sep] + b;
    if |a| == 0 {
      assert s == [sep] + b;
      assert s[1..] == b;
    } else {
      assert s[1..] == a[1..] + [sep] + b;
      SplitFirstAt(a[1..], b, sep);
      assert [a[0]] + a[1..] == a;
    }
  }

  /** The leading run of non-whitespace characters. */
  function TakeWord(s: string): (w: string)
    ensures w <= s
    ensures !HasSpace(w)
    ensures |w| == |s| || IsSpace(s[|w|])
  {
    if |s| == 0 || IsSpace(s[0]) then [] else [s[0]] + TakeWord(s[1..])
  }

  /** A non-empty run of non-whitespace characters. */
  predicate IsWord(w: string) {
    |w| > 0 && !HasSpace(w)
  }

  lemma ConsWords(w: string, rest: seq<string>)
    requires IsWord(w) && forall i :: 0 <= i < |rest| ==> IsWord(rest[i])
    ensures forall i :: 0 <= i < |[w] + rest| ==> IsWord(([w] + rest)[i])
  {
    forall i | 0 <= i < |[w] + rest|
      ensures IsWord(([w] + rest)[i])
    {
      if i > 0 {
        assert ([w] + rest)[i] == rest[i - 1];
      }
    }
  }

  /** Python's `s.split()`: the maximal runs of non-whitespace characters. */
  function Words(s: string): (r: seq<string>)
    ensures forall i :: 0 <= i < |r| ==> IsWord(r[i])
    decreases |s|
  {
    var t := TrimStart(s);
    if |t| == 0 then []
    else
      var w := TakeWord(t);
      assert |w| > 0 by {
        assert !IsSpace(t[0]);
      }
      var rest := Words(t[|w|..]);
      ConsWords(w, rest);
      [w] + rest
  }

  /** Python's `s.replace(pat, rep)`: every non-overlapping occurrence of `pat`,
      scanning left to right, becomes `rep`; an empty `pat` puts `rep` before
      every character and at the end. */
  function ReplaceAll(s: string, pat: string, rep: string): (r: string)
    decreases |s|
  {
    if |pat| == 0 then
      if |s| == 0 then rep else rep + [s[0]] + ReplaceAll(s[1..], pat, rep)
    else if |s| == 0 then []
    else if pat <= s then rep + ReplaceAll(s[|pat|..], pat, rep)
    else [s[0]] + ReplaceAll(s[1..], pat, rep)
  }

  /** Replacing by a string of the same length never changes the length. */
  lemma {:induction false} ReplaceAllPreservesLength(s: string, pat: string, rep: string)
    requires |pat| == |rep|
    ensures |ReplaceAll(s, pat, rep)| == |s|
    decreases |s|
  {
    if |pat| == 0 {
      if |s| > 0 {
        ReplaceAllPreservesLength(s[1..], pat, rep);
      }
    } else if |s| > 0 {
      if pat <= s {
        ReplaceAllPreservesLength(s[|pat|..], pat, rep);
      } else {
        ReplaceAllPreservesLength(s[1..], pat, rep);
      }
    }
  }

  /** Replacing a non-empty string that does not occur changes nothing. */
  lemma {:induction false} ReplaceAllAbsent(s: string, pat: string, rep: string)
    requires |pat| > 0 && !IsSubstring(pat, s)
    ensures ReplaceAll(s, pat, rep) == s
    decreases |s|
  {
    if |s| > 0 {
      ReplaceAllAbsent(s[1..], pat, rep);
    }
  }

  function DigitChar(d: nat): char
    requires d < 10
  {
    ('0' as int + d) as char
  }

  predicate IsDigit(c: char) {
    '0' <= c <= '9'
  }

  /** Decimal digits of a natural number, most significant first. */
  function NatToString(n: nat): (r: string)
    ensures |r| > 0
    ensures forall i :: 0 <= i < |r| ==> IsDigit(r[i])
  {
    if n < 10 then [DigitChar(n)] else NatToString(n / 10) + [DigitChar(n % 10)]
  }

  /** Python's `str(n)` and JavaScript's `String(n)` on integers. */
  function IntToString(n: int): string {
    if n < 0 then "-" + NatToString(-n) else NatToString(n)
  }

  /** The value of a string of decimal digits. */
  function DigitsValue(s: string): nat
    requires forall i :: 0 <= i < |s| ==> IsDigit(s[i])
  {
    if |s| == 0 then 0
    else
      var last := s[|s| - 1];
      assert IsDigit(last);
      DigitsValue(s[..|s| - 1]) * 10 + (last as int - '0' as int)
  }

  /** Python's `int(s)` for strings of ASCII digits; `None` where `int` would
      raise `ValueError`. */
  function ParseNat(s: string): (r: Option<nat>)
    ensures r.Some? <==> |s| > 0 && forall i :: 0 <= i < |s| ==> IsDigit(s[i])
  {
    if |s| > 0 && forall i :: 0 <= i < |s| ==> IsDigit(s[i]) then Some(DigitsValue(s)) else None
  }

  /** Printing a number and parsing it back gives the number. */
  lemma {:induction false} ParsePrinted(n: nat)
    ensures ParseNat(NatToString(n)) == Some(n)
  {
    var s := NatToString(n);
    if n >= 10 {
      ParsePrinted(n / 10);
      assert s[..|s| - 1] == NatToString(n / 10);
      assert s[|s| - 1] == DigitChar(n % 10);
      assert DigitsValue(s) == DigitsValue(NatToString(n / 10)) * 10 + n % 10;
    } else {
      assert s == [DigitChar(n)];
    }
  }

  /** Removes every occurrence of `c` (Python's `s.replace(c, "")`). */
  function Remove(s: string, c: char): (r: string)
    ensures c !in r
    ensures |r| <= |s|
  {
    if |s| == 0 then [] else (if s[0] == c then [] else [s[0]]) + Remove(s[1..], c)
  }

  lemma {:induction false} RemoveAbsent(s: string, c: char)
    requires c !in s
    ensures Remove(s, c) == s
  {
    if |s| > 0 {
      RemoveAbsent(s[1..], c);
    }
  }
}

=== FILE: tool_firewall.dfy ===
/** The tool allow-list checker (sentrykit/checkers/tool_firewall.py). */
module ToolFirewall {
  import opened Values
  import opened Models
  import opened Policies
  import opened Filters

  /** A call the allow-list does not name. */
  function Denied(allowed: set<string>): ToolCall -> bool {
    (c: ToolCall) => c.name !in allowed
  }

  function Blocked(name: string): Finding {
    Finding("tool_firewall", High, "Tool " + name + " not in allow-list", [Entry("tool", Str(name))])
  }

  /** One high `tool_firewall` finding per call outside a non-empty allow-list. */
  function Run(run: RunInput, policy: Policy): (r: seq<Finding>)
    ensures policy.allowedToolNames == {} ==> r == []
    ensures |r| <= |run.toolCalls|
    ensures policy.allowedToolNames != {} ==> |r| == Count(run.toolCalls, Denied(policy.allowedToolNames))
    ensures r == [] <==> policy.allowedToolNames == {} ||
                         forall i :: 0 <= i < |run.toolCalls| ==> run.toolCalls[i].name in policy.allowedToolNames
    ensures forall i :: 0 <= i < |r| ==>
      && r[i].kind == "tool_firewall" && r[i].severity == High
      && exists c :: c in run.toolCalls && c.name !in policy.allowedToolNames
                     && r[i].evidence == [Entry("tool", Str(c.name))]
                     && r[i].details == "Tool " + c.name + " not in allow-list"
  {
    var allowed := policy.allowedToolNames;
    if allowed == {} then []
    else
      var denied := Filter(run.toolCalls, Denied(allowed));
      seq(|denied|, i requires 0 <= i < |denied| => Blocked(denied[i].name))
  }

  /** With a non-empty allow-list, every call outside it has its own finding,
      and the findings follow the order of the calls. */
  lemma RunInCallOrder(run: RunInput, policy: Policy, i: int)
    requires policy.allowedToolNames != {}
    requires 0 <= i < |run.toolCalls| && run.toolCalls[i].name !in policy.allowedToolNames
    ensures var k := Count(run.toolCalls[..i], Denied(policy.allowedToolNames));
            k < |Run(run, policy)| && Run(run, policy)[k] == Blocked(run.toolCalls[i].name)
  {
    FilterAt(run.toolCalls, Denied(policy.allowedToolNames), i);
  }
}

=== FILE: urls.dfy ===
/** `domain_of` (sentrykit/utils/urls.py). `urlparse` is not modelled: its
    scheme, network location and path are the inputs. IDNA encoding is a
    function that may fail, as Python's codec raises on malformed labels. */
module Urls {
  import opened Wrappers
  import opened Text

  datatype UrlParts = UrlParts(scheme: string, netloc: string, path: string)

  /** The text after the first `c`, or all of `s` when `c` does not occur. */
  function AfterFirst(s: string, c: char): (r: string)
    ensures c !in s ==> r == s
    ensures |r| <= |s| && r == s[|s| - |r|..]
  {
    match SplitFirst(s, c)
    case Some(p) => assert s == (p.0 + [c]) + p.1; p.1
    case None => s
  }

  /** The text before the first `c`, or all of `s`. */
  function BeforeFirst(s: string, c: char): (r: string)
    ensures c !in r
    ensures c !in s ==> r == s
    ensures r <= s
  {
    match SplitFirst(s, c)
    case Some(p) => assert s == p.0 + ([c] + p.1); p.0
    case None => s
  }

  /** The host text `domain_of` computes before IDNA encoding, as written:
      lower-cased, cut after the FIRST `@` and before the first `:`. */
  function HostOf(u: UrlParts): (r: string)
    ensures u.scheme == "file" ==> r == "file"
    ensures u.scheme != "file" && u.netloc == "" && u.path == "" ==> r == ""
    ensures u.scheme != "file" ==> ':' !in r && IsLowerCase(r)
    ensures u.scheme != "file" && u.netloc != "" && '@' !in u.netloc && ':' !in u.netloc ==> r == Lower(u.netloc)
  {
    if u.scheme == "file" then "file"
    else
      var loc := if u.netloc != "" then u.netloc else u.path;
      if loc == "" then "" else HostAfterFirstAt(loc)
  }

  /** A prefix `r` of a suffix `a` of `l` holds only characters of `a` and of `l`. */
  lemma PieceKeeps(l: string, a: string, r: string)
    requires |a| <= |l| && a == l[|l| - |a|..] && r <= a
    ensures IsLowerCase(l) ==> IsLowerCase(r)
    ensures forall c :: c in r ==> c in a && c in l
  {
    assert forall i :: 0 <= i < |r| ==> r[i] == a[i] == l[|l| - |a| + i];
  }

  /** The host within a network location as written: lower-cased, cut after
      the first `@` and before the first `:`. */
  function HostAfterFirstAt(loc: string): (r: string)
    ensures IsLowerCase(r) && ':' !in r
    ensures '@' !in loc && ':' !in loc ==> r == Lower(loc)
  {
    var l := Lower(loc);
    LowerIsLowerCase(loc);
    var a := AfterFirst(l, '@');
    var r := BeforeFirst(a, ':');
    PieceKeeps(l, a, r);
    LowerKeeps(loc, '@');
    LowerKeeps(loc, ':');
    r
  }

  /** With two `@` in the network location the host keeps an `@`: only the
      first one is cut. */
  lemma HostKeepsSecondAt()
    ensures HostOf(UrlParts("http", "a@b@c", "")) == "b@c"
  {
    var loc := "a@b@c";
    assert Lower(loc) == loc;
    assert loc[1..] == "@b@c" && loc[0] == 'a';
    assert "@b@c"[1..] == "b@c";
    assert SplitFirst("@b@c", '@') == Some(([], "b@c"));
    assert [loc[0]] + [] == "a";
    assert SplitFirst(loc, '@') == Some(("a", "b@c"));
    assert ':' !in "b@c";
  }

  /** The text after the LAST `c`, or all of `s`. */
  function AfterLast(s: string, c: char): (r: string)
    ensures c !in r
    ensures c !in s ==> r == s
    ensures |r| <= |s| && r == s[|s| - |r|..]
  {
    if |s| == 0 then s
    else if s[|s| - 1] == c then []
    else
      var r := AfterLast(s[..|s| - 1], c);
      assert r + [s[|s| - 1]] == s[|s| - (|r| + 1)..];
      r + [s[|s| - 1]]
  }

  /** Lower-casing leaves every character that is not a letter where it was. */
  lemma LowerKeeps(s: string, c: char)
    requires !('A' <= c <= 'Z') && !('a' <= c <= 'z')
    ensures c in Lower(s) <==> c in s
  {
    var l := Lower(s);
    if c in s {
      var i :| 0 <= i < |s| && s[i] == c;
      assert l[i] == c;
    }
    if c in l {
      var i :| 0 <= i < |l| && l[i] == c;
      assert s[i] == c;
    }
  }

  /** The host within a network location: lower-cased, cut after the last
      `@` and before the first `:`. */
  function HostIn(loc: string): (r: string)
    ensures IsLowerCase(r) && '@' !in r && ':' !in r
    ensures '@' !in loc && ':' !in loc ==> r == Lower(loc)
  {
    var l := Lower(loc);
    LowerIsLowerCase(loc);
    CutAfterLastAt(l);
    assert '@' !in loc && ':' !in loc ==> '@' !in l && ':' !in l by {
      LowerKeeps(loc, '@');
      LowerKeeps(loc, ':');
    }
    BeforeFirst(AfterLast(l, '@'), ':')
  }

  lemma CutAfterLastAt(l: string)
    ensures var r := BeforeFirst(AfterLast(l, '@'), ':');
            '@' !in r && ':' !in r && (IsLowerCase(l) ==> IsLowerCase(r))
    ensures '@' !in l && ':' !in l ==> BeforeFirst(AfterLast(l, '@'), ':') == l
  {
    var a := AfterLast(l, '@');
    PieceKeeps(l, a, BeforeFirst(a, ':'));
  }

  /** The host as intended: the user-info ends at the last `@` (as in
      `urlsplit(...).hostname`), so no `@` and no `:` survive. */
  function Host(u: UrlParts): (r: string)
    ensures u.scheme == "file" ==> r == "file"
    ensures u.scheme != "file" && u.netloc == "" && u.path == "" ==> r == ""
    ensures u.scheme != "file" ==> IsLowerCase(r) && '@' !in r && ':' !in r
    ensures u.scheme != "file" && u.netloc != "" && '@' !in u.netloc && ':' !in u.netloc ==> r == Lower(u.netloc)
  {
    if u.scheme == "file" then "file"
    else
      var loc := if u.netloc != "" then u.netloc else u.path;
      if loc == "" then "" else HostIn(loc)
  }

  /** Both readings agree when the network location has at most one `@`. */
  lemma {:induction false} HostAgrees(u: UrlParts)
    requires forall i, j :: 0 <= i < j < |u.netloc| ==> !(u.netloc[i] == '@' && u.netloc[j] == '@')
    requires u.netloc == "" ==> '@' !in u.path
    ensures HostOf(u) == Host(u)
  {
    if u.scheme != "file" {
      var loc := if u.netloc != "" then u.netloc else u.path;
      if loc != "" {
        var l := Lower(loc);
        assert forall i :: 0 <= i < |l| ==> (l[i] == '@' <==> loc[i] == '@');
        AtMostOneAt(l);
      }
    }
  }

  /** Cutting at the first `@` of a text with at most one `@` leaves no `@`. */
  lemma NoSecondAt(s: string, a: string, b: string)
    requires forall i, j :: 0 <= i < j < |s| ==> !(s[i] == '@' && s[j] == '@')
    requires s == a + ['@'] + b
    ensures '@' !in b
  {
    forall k | 0 <= k < |b|
      ensures b[k] != '@'
    {
      assert s[|a|] == '@' && s[|a| + 1 + k] == b[k];
    }
  }

  lemma AtMostOneAt(s: string)
    requires forall i, j :: 0 <= i < j < |s| ==> !(s[i] == '@' && s[j] == '@')
    ensures AfterFirst(s, '@') == AfterLast(s, '@')
  {
    match SplitFirst(s, '@')
    case None =>
    case Some(p) =>
      NoSecondAt(s, p.0, p.1);
      AfterLastSuffix(p.0 + ['@'], p.1);
      assert s == (p.0 + ['@']) + p.1;
  }

  lemma {:induction false} AfterLastSuffix(a: string, b: string)
    requires |a| > 0 && a[|a| - 1] == '@' && '@' !in b
    ensures AfterLast(a + b, '@') == b
    decreases |b|
  {
    if |b| == 0 {
      assert a + b == a;
    } else {
      var s := a + b;
      var init := b[..|b| - 1];
      var last := b[|b| - 1];
      assert s[..|s| - 1] == a + init;
      assert s[|s| - 1] == last && last != '@';
      AfterLastSuffix(a, init);
      assert AfterLast(s, '@') == AfterLast(a + init, '@') + [last];
      assert init + [last] == b;
    }
  }


  /** `domain_of` with the host read as intended: `file` and the empty host are
      returned before encoding, everything else goes through IDNA. */
  function DomainOf(u: UrlParts, idna: string -> Result<string, string>): (r: Result<string, string>)
    ensures u.scheme == "file" ==> r == Success("file")
    ensures u.scheme != "file" && u.netloc == "" && u.path == "" ==> r == Success("")
    ensures u.scheme != "file" && Host(u) != "" ==> r == idna(Host(u))
    ensures r.Success? && u.scheme != "file" ==> r.value == "" || r == idna(Host(u))
  {
    var h := Host(u);
    if u.scheme == "file" || h == "" then Success(h) else idna(h)
  }

  /** `domain_of` as written: IDNA is applied to the host cut at the first `@`. */
  function DomainOfAsWritten(u: UrlParts, idna: string -> Result<string, string>): (r: Result<string, string>)
    ensures u.scheme == "file" ==> r == Success("file")
    ensures u.scheme != "file" && HostOf(u) == "" ==> r == Success("")
    ensures u.scheme != "file" && HostOf(u) != "" ==> r == idna(HostOf(u))
  {
    var h := HostOf(u);
    if u.scheme == "file" || h == "" then Success(h) else idna(h)
  }

  /** The two readings of `domain_of` agree unless the network location holds
      two `@`. */
  lemma DomainOfAgrees(u: UrlParts, idna: string -> Result<string, string>)
    requires forall i, j :: 0 <= i < j < |u.netloc| ==> !(u.netloc[i] == '@' && u.netloc[j] == '@')
    requires u.netloc == "" ==> '@' !in u.path
    ensures DomainOfAsWritten(u, idna) == DomainOf(u, idna)
  {
    HostAgrees(u);
  }

  /** `http://a@b@c/`: as written the host handed to IDNA is `b@c`, while the
      intended host is `c`. */
  lemma DomainOfKeepsSecondAt(idna: string -> Result<string, string>)
    ensures DomainOfAsWritten(UrlParts("http", "a@b@c", ""), idna) == idna("b@c")
    ensures DomainOf(UrlParts("http", "a@b@c", ""), idna) == idna("c")
  {
    HostKeepsSecondAt();
    HostAfterLastAt();
  }

  lemma HostAfterLastAt()
    ensures Host(UrlParts("http", "a@b@c", "")) == "c"
  {
    var loc := "a@b@c";
    assert Lower(loc) == loc;
    assert loc[..4] == "a@b@";
    assert AfterLast("a@b@", '@') == [];
    assert AfterLast(loc, '@') == "c";
    assert BeforeFirst("c", ':') == "c";
  }

  /** `domain_of(url)`: `urlparse` (which rejects a malformed bracketed IPv6
      host) followed by the host steps and IDNA encoding. */
  function DomainOfUrl(url: string, parse: string -> Result<UrlParts, string>,
                       idna: string -> Result<string, string>): (r: Result<string, string>)
    ensures parse(url).Failure? ==> r == Failure(parse(url).error)
    ensures parse(url).Success? && parse(url).value.scheme == "file" ==> r == Success("file")
    ensures parse(url).Success? && parse(url).value.scheme != "file" && Host(parse(url).value) != "" ==>
              r == idna(Host(parse(url).value))
  {
    var u :- parse(url);
    DomainOf(u, idna)
  }
}

=== FILE: values.dfy ===
/** JSON-shaped values: the `Dict[str, Any]` evidence of a finding, tool-call
    arguments, and what the browser client receives. Dictionaries keep their
    entries in insertion order, as Python dicts and `Object.entries` do. */
module Values {
  import opened Wrappers
  import opened Text

  datatype Value =
    | Null
    | Bool(b: bool)
    | Int(n: int)
    | Str(s: string)
    | List(items: seq<Value>)
    | Dict(entries: seq<Entry>)

  datatype Entry = Entry(key: string, val: Value)

  function Keys(entries: seq<Entry>): (r: seq<string>)
    ensures |r| == |entries|
    ensures forall i :: 0 <= i < |r| ==> r[i] == entries[i].key
  {
    seq(|entries|, i requires 0 <= i < |entries| => entries[i].key)
  }

  /** Python's `d.get(key)`: the value of the first entry with that key. */
  function Get(entries: seq<Entry>, key: string): (r: Option<Value>)
    ensures r.None? <==> key !in Keys(entries)
  {
    if |entries| == 0 then None
    else if entries[0].key == key then Some(entries[0].val)
    else Get(entries[1..], key)
  }

  /** A list of strings as a value. */
  function StrList(xs: seq<string>): (r: Value)
    ensures r.List? && |r.items| == |xs|
    ensures forall i :: 0 <= i < |xs| ==> r.items[i] == Str(xs[i])
  {
    List(seq(|xs|, i requires 0 <= i < |xs| => Str(xs[i])))
  }

  /** Python's `str(v)` for a value that is not a container. */
  function ScalarText(v: Value): string
    requires !v.List? && !v.Dict?
  {
    match v
    case Null => "None"
    case Bool(b) => if b then "True" else "False"
    case Int(n) => IntToString(n)
    case Str(s) => s
  }

  const HexDigits: string := "0123456789abcdef"

  /** How `JSON.stringify` writes one character inside a string literal. */
  function JsonEscapeChar(c: char): (r: string)
    ensures |r| > 0
  {
    if c == '"' then "\\\""
    else if c == '\\' then "\\\\"
    else if c == '\U{8}' then "\\b"
    else if c == '\t' then "\\t"
    else if c == '\n' then "\\n"
    else if c == '\U{C}' then "\\f"
    else if c == '\r' then "\\r"
    else if c < ' ' then "\\u00" + [HexDigits[c as int / 16], HexDigits[c as int % 16]]
    else [c]
  }

  function JsonEscape(s: string): string {
    if |s| == 0 then [] else JsonEscapeChar(s[0]) + JsonEscape(s[1..])
  }

  /** `JSON.stringify` of a string: the escaped text between double quotes. */
  function JsonQuote(s: string): (r: string)
    ensures |r| >= 2 && r[0] == '"' && r[|r| - 1] == '"'
  {
    "\"" + JsonEscape(s) + "\""
  }

  /** `JSON.stringify(v)` with no indentation. */
  function Json(v: Value): string
    decreases v
  {
    match v
    case Null => "null"
    case Bool(b) => if b then "true" else "false"
    case Int(n) => IntToString(n)
    case Str(s) => JsonQuote(s)
    case List(items) =>
      "[" + Join(",", seq(|items|, i requires 0 <= i < |items| => Json(items[i]))) + "]"
    case Dict(entries) =>
      "{" + Join(",", seq(|entries|, i requires 0 <= i < |entries| =>
                            JsonQuote(entries[i].key) + ":" + Json(entries[i].val))) + "}"
  }
}

=== FILE: wrappers.dfy ===
/** Option and Result, the failure-carrying types used in place of Python's
    `None` and raised exceptions. */
module Wrappers {

  datatype Option<+T> = None | Some(value: T) {

    /** The wrapped value, or `default` when there is none (Python's `x or default`
        for values whose only falsy form is `None`). */
    function GetOr(default: T): T {
      match this
      case Some(v) => v
      case None => default
    }
  }

  /** `Success` is a normal return; `Failure` carries the message of the exception
      the source would raise. */
  datatype Result<+R, +E> = Success(value: R) | Failure(error: E) {

    predicate IsFailure() {
      Failure?
    }

    function PropagateFailure<U>(): Result<U, E>
      requires Failure?
    {
      Failure(error)
    }

    function Extract(): R
      requires Success?
    {
      value
    }
  }
}
